=== FILE: README.md ===
# YouTube Custom Settings — a Dafny model of the content-script core

This project models the core of the YouTube Custom Settings browser extension as pure
Dafny functions, and proves properties of them. It covers:

- **The settings pipeline.** The `DEFAULT_SETTINGS` record and the additive
  `migrateSettings` merge, with its write-back flag. The settings store adapter
  (`loadExtensionSettings` / `saveExtensionSettings`). The content-script entry point:
  `fetchSettings`, `applyStoredSettings`, the one-time player-listener setup, and the
  `updateSettings` message handler.
- **Feature dispatch.** `applyVideoPlayerSettings` calls one handler per enabled player
  feature, in a fixed order.
- **The preference bridges.** These copy each feature's settings from extension storage
  into the page's `YCS_SETTINGS` localStorage blob, decide whether to inject the page
  script, and handle the per-feature popup messages.
- **The injected page scripts.** Quality selection (closest level, custom order), the
  playback-speed decision with its duration rule, subtitle-track choice with its bounded
  retry, audio-track choice, and volume clamping.
- **The members-only machinery.** The DOM hiding pass, the recursive
  `filterSponsorshipVideos` over intercepted InnerTube responses, and the page
  observers that drive the hiding pass: URL dispatch, grid and sidebar observers, and
  their 100 ms debounces and 650 ms follow-ups.
- **The Shorts features.** Hiding Shorts on the feed and search pages, and the loop
  prevention on Shorts videos.

How the model represents the JavaScript world:

- JSON values are the datatype `JsonValue.Json`. `Option.None` stands for JavaScript
  `undefined`.
- An evaluation that may throw returns `Completion<T>` (`Normal(v)` or `Throw`). The
  models throw where a property read of `null`/`undefined`, an `in` on a primitive,
  or a strict-mode assignment to a primitive would throw. One case throws in the model
  but not in the code: `migrateSettings` on an array (see `Migration.MigrateSettings`
  under "Left out").
- Timers are explicit ids in a pending set or map. A timer firing is an event; a
  cleared timer never fires.
- DOM queries become records of what the query finds, such as an item, its badge, or
  its closest container.
- Browser-provided functions (`parseFloat`, `atob`, the language-code regular
  expression) are function parameters.
- `parseInt` (base 10) is modelled concretely.

Behaviours of the code worth knowing:

- **No `audioTrack` default.** `DEFAULT_SETTINGS` has no `audioTrack` entry, so
  migration never backfills it (`Defaults.NoAudioTrackBackfill`).
- **The content script uses its own defaults.** They hold only four features, and
  `videoQuality` defaults to `auto` there, not `hd2160`.
- **Speed and volume read keys nothing writes.** The speed and volume page scripts read
  flat `localStorage` keys (`ycs-speed-*`, `yds-volume-*`). No bridge in these sources
  writes them, while the quality, normalizer and audio-track bridges write the
  `YCS_SETTINGS` blob instead. The flat keys are inputs of the model.
- **Two subtitles keys.** The subtitles bridge writes `yds-subtitlesLanguage`. The
  current subtitles page script reads `YCS_SETTINGS.subtitlesPreference.value`, and the
  older one reads `subtitlesLanguage`.

## Model

| member | source | states |
|---|---|---|
| Migration.MergeFeature | src/utils/utils.ts:27-42 | a falsy feature is replaced by its whole default; an object feature keeps every property it has, even a falsy one, and gains exactly the missing default properties |
| Migration.MigrateSettings | src/utils/utils.ts:21-53 | succeeds iff the stored value is an object whose features the inner loop can handle; no key is deleted; keys unknown to the defaults survive unchanged; the write-back flag is set iff some feature or property was missing |
| Migration.MergeFeatureStable | src/utils/utils.ts:27-42 | re-merging a merged feature against the same default adds nothing |
| Migration.MigrateIdempotent | src/utils/utils.ts:21-53 | migrating a migrated record again returns an equal record and asks for no write-back |
| Migration.MigratedHasProperty | src/utils/utils.ts:27-42 | a property that every default sub-record has is present in every default feature after a successful migration |
| Defaults.DefaultsAllDisabled | src/config/constants.ts:13-46 | every default feature has `enabled: false` |
| Defaults.DefaultValues | src/config/constants.ts:18-41 | speed 1 applied to Shorts; volume 50, inside 0..100; normalizer `custom` with manual activation and the five custom-settings fields |
| Defaults.NoAudioTrackBackfill | src/config/constants.ts:13-46 | migration against the defaults neither adds nor changes `audioTrack` |
| Defaults.MigratedHasEnabled | src/utils/utils.ts:27-42 | after migration against the defaults every default feature carries `enabled` |
| SettingsStore.LoadExtensionSettings | src/utils/settings.ts:19-34 | a failed read, a falsy record or a migration that throws yields the defaults; otherwise the migrated record, written back iff something was added |
| SettingsStore.LoadAlwaysComplete | src/utils/settings.ts:19-34 | whatever storage holds, the loaded settings carry every default feature with `enabled` |
| SettingsStore.SaveExtensionSettings | src/utils/settings.ts:40-47 | one write of the whole record under the single `settings` key; a storage failure is rethrown |
| SettingsStore.SaveThenLoad | src/utils/settings.ts:19-47 | a saved record loads back as its own migration |
| Dispatch.EnabledAt | src/utils/utils.ts:55-60 | `s.key.enabled` throws iff the feature is absent or `null`, and is true iff its `enabled` is truthy |
| Dispatch.FirstThrow | src/utils/utils.ts:55-60 | the position of the first feature read that throws: every read before it succeeds |
| Dispatch.DispatchEach | src/utils/utils.ts:55-60 | throws iff some read throws; calls exactly the enabled features read before the first throw, each once, in dispatch order |
| Dispatch.AllPlayerFeatures | src/utils/utils.ts:55-60 | the dispatch order holds all four player features, strictly ordered |
| Dispatch.ApplyVideoPlayerSettings | src/utils/utils.ts:55-60 | a null snapshot calls nothing; with no throwing read, the handlers called are exactly the enabled features, in order |
| Dispatch.DispatchWellFormed | src/utils/utils.ts:55-60 | a snapshot holding all four features as objects never throws, and calls exactly the handlers whose `enabled` is truthy |
| Orchestrator.LocalDefaultsShape | src/content/index.ts:29-34 | the local defaults hold exactly the four player features, all disabled, with quality `auto`; `volume`, `hideMembersOnlyVideos` and `audioTrack` are absent |
| Orchestrator.FetchSettings | src/content/index.ts:25-46 | a failed read rejects because there is no catch; a falsy record yields the local defaults; otherwise the migration against them, failing iff the migration throws, with a write-back iff something was added |
| Orchestrator.FetchedFeaturesAreObjects | src/content/index.ts:25-46 | a fetched snapshot holds every player feature as an object |
| Orchestrator.ApplyStoredSettings | src/content/index.ts:74-98 | nothing on a null snapshot; otherwise the snapshot is posted first, then exactly the handlers `applyVideoPlayerSettings` would call, throwing iff it would |
| Orchestrator.AnyEnabledMatchesDispatch | src/content/index.ts:62-67 | the `||` chain is true iff the dispatch calls some handler, and throws iff a read throws before any handler |
| Orchestrator.InitializeVideoPlayerListener | src/content/index.ts:61-71 | sets the listener up iff it is not yet initialized and some player feature is enabled; the flag records it; nothing else changes |
| Orchestrator.Start | src/content/index.ts:49-56 | after start-up the snapshot is the one fetched |
| Orchestrator.InitializeFeatures | src/content/index.ts:49-56 | a rejected fetch abandons start-up; otherwise the snapshot is the fetched one, and the migration's write-back is the first effect |
| Orchestrator.StartWellFormed | src/content/index.ts:49-98 | from a snapshot holding all four features as objects nothing throws: exactly the enabled handlers run, and the listener is set up iff one of them is enabled |
| Orchestrator.InitializeFeaturesAfterFetch | src/content/index.ts:49-71 | after a successful fetch nothing throws: exactly the enabled handlers run, and the listener is set up iff some feature is enabled |
| Orchestrator.SettingsMessageShape | src/content/index.ts:114-118 | the guard accepts exactly an object with `action: 'updateSettings'` and a `settings` whose `typeof` is `object`, which includes `null` and arrays |
| Orchestrator.OnMessage | src/content/index.ts:101-111 | an accepted message replaces the snapshot wholesale and re-applies it; `settings: null` nulls the snapshot and applies nothing; anything else is ignored |
| Orchestrator.ListenerSetUpAtMostOnce | src/content/index.ts:59-71 | over any sequence of init and message events the player listener is set up at most once, and exactly once if the run ends initialized from an uninitialized start |
| Blob.ReadBlob | src/content/videoquality/VideoQuality.ts:43-44 | an absent or empty entry reads as `{}`; unparsable text throws |
| Blob.SetProp | src/content/videoquality/VideoQuality.ts:25-28 | an object gains or overwrites the property; an array serializes unchanged; `null` or a primitive throws |
| Blob.ReadProp | src/content/videoquality/VideoQuality.ts:45 | reading a property of `null` throws; otherwise it is the property read |
| Blob.Sync | src/content/videoquality/VideoQuality.ts:14-35 | nothing is written unless storage holds a truthy value for the feature; an object blob gains exactly that key; parse and assignment failures are swallowed |
| Blob.SyncIdempotent | src/content/videoquality/VideoQuality.ts:14-35 | syncing twice from the same storage read is syncing once |
| Blob.SyncsCommute | src/content/videoquality/VideoQuality.ts:14-35 | syncs of two different features commute |
| Blob.Gate | src/content/videoquality/VideoQuality.ts:43-50 | the injection gate opens iff the feature's `enabled` is exactly `true`; it throws on an unparsable or `null` blob |
| Blob.GateIsStrict | src/content/videoquality/VideoQuality.ts:45 | a truthy non-boolean `enabled` does not open the gate |
| Blob.Handle | src/content/videoquality/VideoQuality.ts:38-55 | the handler syncs, then injects iff the gate of the synced blob opens, and throws iff that gate throws |
| Blob.HandleFollowsStorage | src/content/volume/Volume.ts:37-54 | when storage holds the feature as an object, the handler injects exactly when its stored `enabled` is `true` |
| Blob.SubForUpdate | src/content/videoquality/VideoQuality.ts:66-71 | a truthy sub-object is reused, a missing or falsy one becomes `{}`, and `null` or primitive blobs throw |
| Blob.SetFields | src/content/videoquality/VideoQuality.ts:75-76 | on an object the keys grow by exactly the assigned fields and unassigned fields keep their value; an array is unchanged; a primitive throws on the first assignment |
| Blob.SetFieldsApply | src/content/videoquality/VideoQuality.ts:75-76 | on an object, the assignments never throw and are exactly the map updates, in order |
| Blob.ApplyConcat | src/content/audionormalizer/AudioNormalizer.ts:70-91 | assigning `a` and then `b` is assigning `a + b` |
| Blob.SetFieldsLastWins | src/content/audionormalizer/AudioNormalizer.ts:70-91 | a field ends with the value of its last assignment |
| Bridges.UpdateSub | src/content/videoquality/VideoQuality.ts:64-79 | on an object blob only the feature key changes, assigned over the existing sub-object or `{}`; an unparsable, `null` or primitive blob throws; an array blob is written back unchanged |
| Bridges.QualityMessage | src/content/videoquality/VideoQuality.ts:58-79 | accepted iff the message is a `videoQuality` object with a string `quality` and a boolean `enabled`; exactly `enabled` and `value` are set; every other field and key is kept |
| Bridges.QualityListener | src/content/videoquality/VideoQuality.ts:58-85 | after a write that did not throw, the handler runs; on an object blob the feature ends as the stored value when storage holds a truthy one, else as the message set it, and the script is injected iff that value's `enabled` is `true` |
| Bridges.SpeedMessage | src/content/videospeed/VideoSpeed.ts:71-97 | accepted iff the message is a `videoSpeed` object with a numeric `speed` and a boolean `enabled`; `applyToShorts` is set only when a boolean one is given |
| Bridges.SpeedListener | src/content/videospeed/VideoSpeed.ts:71-103 | after a write that did not throw, the speed handler runs; on an object blob the stored value wins over the message's, and the script is injected iff that value is enabled and the page is not a Shorts page that value excludes |
| Bridges.HandleVideoSpeed | src/content/videospeed/VideoSpeed.ts:38-68 | injects iff the gate opens and the page is not `/shorts...` with `applyToShorts` exactly `false` |
| Bridges.SpeedShortsGate | src/content/videospeed/VideoSpeed.ts:51-61 | a missing `applyToShorts` still injects on Shorts; `false` blocks Shorts but not `/watch` |
| Bridges.NormalizerMessage | src/content/audionormalizer/AudioNormalizer.ts:57-94 | accepted for any non-null `audioNormalizer` object; posts the update iff a boolean `toggleState` came and nothing threw before it; throws iff the blob update throws |
| Bridges.NormalizerListener | src/content/audionormalizer/AudioNormalizer.ts:57-99 | after a write that did not throw, the handler runs; on an object blob the stored value wins over the message's assignments, and the script is injected iff that value's `enabled` is `true` |
| Bridges.NormalizerApplyChain | src/content/audionormalizer/AudioNormalizer.ts:70-91 | the normalizer's assignments equal the chain of conditional map updates in source order |
| Bridges.NormalizerApplyRules | src/content/audionormalizer/AudioNormalizer.ts:70-91 | each typed message field is written; `active` is `toggleState` when given, else `false` when `manualActivation` is given |
| Bridges.NormalizerApplyKeeps | src/content/audionormalizer/AudioNormalizer.ts:70-91 | no key other than the four fields is added, and every field the message does not assign keeps its value |
| Bridges.NormalizerMessageWrites | src/content/audionormalizer/AudioNormalizer.ts:61-94 | on an object blob only `audioNormalizer` changes, to the sub-object updated by the field rules |
| Bridges.NormalizerIgnoresCustomSettings | src/content/audionormalizer/AudioNormalizer.ts:70-91 | a `customSettings` object in the message changes nothing that is written |
| Bridges.QualityMessageClobbered | src/content/videoquality/VideoQuality.ts:75-82 | when storage holds a truthy `videoQuality`, the handler's re-sync overwrites the message's write with the stored value |
| Bridges.SyncSubtitles | src/content/subtitles/SubtitlesPreference.ts:10-22 | writes `yds-subtitlesLanguage` only when the stored preference is enabled; every other entry is unchanged |
| Bridges.HandleSubtitles | src/content/subtitles/SubtitlesPreference.ts:25-31 | syncs, then always injects the script |
| Bridges.SubtitlesMessage | src/content/subtitles/SubtitlesPreference.ts:34-49 | accepted iff it is a `subtitlesPreference` object with a string `language`; that language stays unless the stored preference is enabled, in which case the re-sync overwrites it |
| QualityScript.IndexOf | src/content/videoquality/VideoQualityScript.js:52-54 | the position of the first level with that key, or -1 iff the key is not a quality level |
| QualityScript.FirstOrNull | src/content/videoquality/VideoQualityScript.js:55 | `available[0] \|\| null`: present iff the list is non-empty and its head is not the empty string |
| QualityScript.BestBelow | src/content/videoquality/VideoQualityScript.js:56-60 | the highest available level strictly below the position, or none iff no lower level is available |
| QualityScript.Closest | src/content/videoquality/VideoQualityScript.js:51-62 | the preference itself when available; otherwise the highest available level below it; otherwise the first listed level; the result is always available |
| QualityScript.ClosestFallbackMayBeHigher | src/content/videoquality/VideoQualityScript.js:61 | with nothing below the preference available, the fallback is the first listed level, which may be higher |
| QualityScript.PreferredAvailable | src/content/videoquality/VideoQualityScript.js:64-71 | the first custom-order entry that is available; otherwise the first listed level |
| QualityScript.Label | src/content/videoquality/VideoQualityScript.js:73-76 | the display label of a known level; any other key is returned unchanged |
| QualityScript.LabelsDistinct | src/content/videoquality/VideoQualityScript.js:32-42 | different known levels have different labels |
| QualityScript.PlayerTargetId | src/content/videoquality/VideoQualityScript.js:85-90 | `shorts-player` under `/shorts`, else `c4-player` under `/@`, else `movie_player` |
| QualityScript.ReadQualityPrefs | src/content/videoquality/VideoQualityScript.js:94-105 | enabled iff `enabled === true`; the preference defaults to `auto`; the custom order is active only when it is enabled and non-empty |
| QualityScript.SetVideoQuality | src/content/videoquality/VideoQualityScript.js:84-158 | no player: nothing; an unparsable or `null` blob throws outside the `try`; a disabled feature sets nothing. With a custom order, its first available entry (else the first listed level) is set through the range setter unless it is already current. Otherwise `auto` succeeds without a change, and any other preference sets its closest available level. No listing method, no usable level or no range setter sets nothing |
| QualityScript.CustomOrderSettles | src/content/videoquality/VideoQualityScript.js:109-126 | once the player reports the level the custom order chose, another run reports success and sets nothing |
| SpeedScript.RuleMinutes | src/content/videospeed/VideoSpeedScript.js:76 | `parseInt` of the rule-minutes entry, 60 when it is missing |
| SpeedScript.RuleBlocksCases | src/content/videospeed/VideoSpeedScript.js:125-126 | the rule blocks iff `greater` and longer, or `less` and shorter; never at equality, and never for another rule type |
| SpeedScript.ShouldApplySpeed | src/content/videospeed/VideoSpeedScript.js:72-92 | true unless the rule is on, the player reports a duration, and the rule, defaulting to `less`, blocks it |
| SpeedScript.PreferredSpeed | src/content/videospeed/VideoSpeedScript.js:106 | `parseFloat` of the speed entry, of `1` when it is missing |
| SpeedScript.ElementSet | src/content/videospeed/VideoSpeedScript.js:161-193 | assigning the `<video>` rate succeeds iff the rate is not `NaN` and the browser supports it; a refused rate throws into the `catch`, which reports failure with nothing set |
| SpeedScript.SetPlaybackSpeed | src/content/videospeed/VideoSpeedScript.js:94-194 | nothing for live streams or a disabled feature. Out of 0.25..2 the `<video>` is assigned the speed, or rate 1 when the rule (default `greater`) matches its duration. In range without the player API, the `<video>` is assigned the speed and its absence means failure. With the API, a rule matched on the player's duration assigns rate 1 to the `<video>`, if any; otherwise the API gets the speed. Every element assignment fails, with nothing set, when the rate is refused |
| SpeedScript.SpeedRates | src/content/videospeed/VideoSpeedScript.js:94-194 | success needs an enabled, non-live run with a `<video>` or an in-range speed and the player API, and such a run succeeds whenever the element takes the speed and rate 1; a failure sets nothing; the only rates set are the preferred speed and the rate 1 of an enabled duration rule |
| SpeedScript.NaNSpeedFailsOnElement | src/content/videospeed/VideoSpeedScript.js:106-193 | an unparsable speed passes the range test, and without the player API its `<video>` assignment throws, so the run reports failure |
| SpeedScript.FallbackSkipsRule | src/content/videospeed/VideoSpeedScript.js:153-164 | in range without the player API, the element is assigned the preferred speed with no duration-rule check |
| SpeedScript.DefaultRuleTypesDisagree | src/content/videospeed/VideoSpeedScript.js:167-184 | with no rule type stored, a two-hour video at 1.5x is "apply" for `shouldApplySpeed` but gets rate 1 from `setPlaybackSpeed` |
| VolumeScript.Clamp | src/content/volume/VolumeScript.js:35 | results are within 0..100, in-range values are unchanged, out-of-range values go to the nearer bound, and `NaN` stays `NaN` |
| VolumeScript.TargetVolume | src/content/volume/VolumeScript.js:34-35 | the clamped `parseFloat` of the stored value, of `100` when it is missing |
| VolumeScript.SetDefaultVolume | src/content/volume/VolumeScript.js:29-50 | nothing when disabled or without a player; `setVolume` receives the clamped target iff it differs (by `!==`) from the current volume |
| VolumeScript.VolumeSettles | src/content/volume/VolumeScript.js:38-45 | once the player holds the target, later runs set nothing |
| VolumeScript.NaNNeverSettles | src/content/volume/VolumeScript.js:34-41 | an unparsable stored value makes every run call `setVolume(NaN)` |
| SubtitlesScript.ChooseTrack | src/content/subtitles/SubtitlesScript.js:217-256 | only manual tracks are chosen; `original` picks the first manual track in the language of the first ASR track, else the empty track; a language picks its first manual track, else the empty track |
| SubtitlesScript.OriginalNeedsSameLanguage | src/content/subtitles/SubtitlesScript.js:217-240 | an ASR track with a manual track in another language only turns subtitles off, while a matching manual track is picked |
| SubtitlesScript.SetPreferredSubtitles | src/content/subtitles/SubtitlesScript.js:186-275 | no player: false; `disabled` sets the empty track; missing captions: false; a throw in the caption read is reported to the retry; a chosen track without a `name` throws in its log line and is retried; otherwise the chosen track, or the empty track, is set |
| SubtitlesScript.CurrentPreference | src/content/subtitles/SubtitlesScript.js:198-200 | `YCS_SETTINGS.subtitlesPreference?.value`, `original` when falsy; throws on an unparsable or `null` blob |
| SubtitlesScript.OlderPreference | src/content/Subtitles/SubtitlesScript.js:79 | the flat `subtitlesLanguage` entry, `original` when missing or empty |
| SubtitlesScript.AttemptWithRetry | src/content/subtitles/SubtitlesScript.js:257-274 | a failed attempt advances the retry counter; any other outcome leaves it alone |
| SubtitlesScript.OrchNext | src/content/subtitles/SubtitlesScript.js:72-183 | one orchestration step keeps the invariant, starts the settings at most once, and counts a failed poll, staying due only up to 25 retries |
| SubtitlesScript.AppliedAtMostOnce | src/content/subtitles/SubtitlesScript.js:97-114 | whatever the callbacks and polls do, the settings are started at most once per injection |
| SubtitlesScript.PollingGivesUp | src/content/subtitles/SubtitlesScript.js:83-91 | a player that never appears is polled 26 times and then no more |
| SubtitlesScript.StaysStopped | src/content/subtitles/SubtitlesScript.js:83-91 | once no poll is due, none ever is again |
| Retry.OnFailure | src/content/audioTrack/AudioTrackScript.ts:104-115 | below five retries the counter grows by one and a retry is scheduled after 50·n ms; at five the counter resets and nothing is scheduled |
| Retry.FailingChain | src/content/audioTrack/AudioTrackScript.ts:104-115 | a run of failures from counter c schedules exactly 5 − c retries, the i-th after 50·(c + i + 1) ms |
| Retry.FreshChain | src/content/audioTrack/AudioTrackScript.ts:18-19 | from a fresh counter the retries come after 50, 100, 150, 200 and 250 ms, and the sixth failure resets the counter |
| AudioTrackScript.FindTrack | src/content/audioTrack/AudioTrackScript.ts:70-93 | the first wanted track, with every track before it decoded and unwanted; none iff every track decodes and is unwanted |
| AudioTrackScript.FindTrackThrows | src/content/audioTrack/AudioTrackScript.ts:70-93 | the search throws iff a decode fails before any wanted track |
| AudioTrackScript.AudioLanguage | src/content/audioTrack/AudioTrackScript.ts:37-39 | `audioTrack?.language`, `original` when falsy; throws on an unparsable or `null` blob |
| AudioTrackScript.SetPreferredTrack | src/content/audioTrack/AudioTrackScript.ts:25-116 | no player: false; one track or none: true with no change; a throwing `getAvailableAudioTracks` or `getAudioTrack`, an undecodable current id or an unreadable preference: a retried throw; a wanted current track: true with no change; otherwise the first wanted track is set, unless `setAudioTrack` throws, which is a retried throw; no wanted track gives false, and a decode failure during the search is a retried throw |
| AudioTrackScript.AttemptWithRetry | src/content/audioTrack/AudioTrackScript.ts:104-115 | a throw advances the retry counter as `OnFailure` does; any other outcome leaves it alone |
| AudioTrackScript.SettlesAfterSet | src/content/audioTrack/AudioTrackScript.ts:48-67 | once the chosen track is current, the next run returns true and changes nothing |
| VideoListener.InitialInv | src/content/observers.ts:17-36 | the initial module state satisfies the listener invariant |
| VideoListener.Cleanup | src/content/observers.ts:98-112 | detaches the media listener, clears the flag and its timer, and keeps the invariant |
| VideoListener.Setup | src/content/observers.ts:38-96 | attaches the listener to exactly the current event list and registers one more click listener |
| VideoListener.MenuClick | src/content/observers.ts:44-58 | a settings-menu click sets the flag with exactly one fresh 2000 ms reset timer pending |
| VideoListener.MenuClicks | src/content/observers.ts:44-58 | all registered click listeners react in turn, leaving exactly the last reset timer pending |
| VideoListener.Accepted | src/content/observers.ts:73-86 | the first accepted event narrows the listener to `loadstart`; later ones change nothing |
| VideoListener.Next | src/content/observers.ts:60-89 | settings are applied iff an accepted media event arrives; a cleared timer never runs; the event list never widens again; click listeners only accumulate |
| VideoListener.MenuClickOpensWindow | src/content/observers.ts:44-58 | a menu click opens the user-change window with one fresh pending timer |
| VideoListener.RunPreservesInv | src/content/observers.ts:38-112 | the invariant holds after any sequence of events, and once narrowed the listener stays on `loadstart` |
| VideoListener.NoApplyInsideWindow | src/content/observers.ts:64-68 | while the window is open, media events and clicks never apply the settings |
| VideoListener.ClickHandlersAccumulate | src/content/observers.ts:44-58 | each setup adds a click listener that is never removed |
| PageObservers.HandleUrlChange | src/content/observers.ts:307-353 | always cleans up first; channel and feed pages start the grid observer iff hiding is on; `/watch` starts the sidebar observer iff hiding is on; the flag read throws exactly when it is unusable; every other path only cleans up |
| PageObservers.WatchIsNotChannel | src/content/observers.ts:315 | `/watch` is not a channel path |
| PageObservers.ChannelWins | src/content/observers.ts:315-321 | a path containing `/@` is routed as a channel |
| PageObservers.NoSnapshotOnlyCleansUp | src/content/observers.ts:319-347 | with no snapshot, only the cleanup happens, on every path |
| PageObservers.LocalDefaultsUrlChange | src/content/observers.ts:307-353 | with the content script's local defaults as the snapshot, every page that would start an observer throws after the cleanup |
| PageObservers.CleanupPageVideos | src/content/observers.ts:231-241 | grid observers are off and the grid debounce is cleared; follow-ups and everything else are untouched |
| PageObservers.CleanupSuggestions | src/content/observers.ts:243-251 | the sidebar observer is off and its debounce is cleared; everything else is untouched |
| PageObservers.ObserversCleanup | src/content/observers.ts:253-258 | both debounces are cleared and both observers are off; only grid follow-ups may remain pending |
| PageObservers.Cancel | src/content/observers.ts:185-187 | `clearTimeout` removes exactly the recorded timer |
| PageObservers.ScheduleFresh | src/content/observers.ts:188-195 | `setTimeout` adds a fresh id, and nothing else changes |
| PageObservers.PageVideosObserver | src/content/observers.ts:127-181 | with no grid present it adds one more wait for the first grid, whether or not the parent is there, and observes nothing; otherwise it runs one hiding pass and attaches one observer per grid, and observes the parent iff it is present |
| PageObservers.AttachGrids | src/content/observers.ts:161-180 | one observer is added per grid found, and the parent is observed when present; a parent observer already held is overwritten and leaks |
| PageObservers.ResolveGridWaits | src/content/observers.ts:147-180 | k resumed waits add k observers per grid; with the parent present, every parent observer but the one finally held leaks |
| PageObservers.SuggestionsAttach | src/content/observers.ts:198-228 | every pending sidebar wait resumes and creates an observer; all but the one finally held leak |
| PageObservers.WaitThenAttach | src/content/observers.ts:144-180 | a page without a grid waits even with the parent present; when the grid appears, each pending wait gives every grid a pass and an observer, and the parent is observed iff present then |
| PageObservers.TwoWaitsAttachTwice | src/content/observers.ts:147-180 | two grid-page visits before the grid renders give two passes and two observers per grid, and leak the first parent observer |
| PageObservers.LeakedObserverOutlivesCleanup | src/content/observers.ts:231-235 | a parent observer overwritten at line 176 without a disconnect is out of this cleanup's reach: after a URL change its mutations still schedule a debounce |
| PageObservers.HandleGridMutation | src/content/observers.ts:184-196 | a grid mutation leaves exactly one fresh grid debounce pending |
| PageObservers.HandleSuggestionsMutation | src/content/observers.ts:213-222 | a sidebar mutation leaves exactly one fresh sidebar debounce pending |
| PageObservers.FireTimer | src/content/observers.ts:188-221 | a cleared timer does nothing; a pending one runs one pass; a grid debounce also schedules the 650 ms follow-up |
| PageObservers.OnVisibilityChange | src/content/observers.ts:365-371 | a pass runs iff the listener is set up, the tab is visible and hiding is on |
| PageObservers.Next | src/content/observers.ts:127-375 | every event keeps the timer invariant, in which a debounce is pending only while a held or leaked observer can schedule it |
| PageObservers.UrlChangeCleansFirst | src/content/observers.ts:307-312 | a URL change drops every debounce scheduled before it, while grid follow-ups stay pending |
| PageObservers.BurstCoalesces | src/content/observers.ts:184-196 | any burst of grid mutations leaves a single debounce pending |
| PageObservers.FollowUpSurvivesCleanup | src/content/observers.ts:191-193 | the 650 ms follow-up outlives a URL change's cleanup and still runs its pass |
| MemberVideos.Target | src/content/memberVideos/MemberVideos.ts:23-24 | the closest rich-item container when there is one, else the item itself |
| MemberVideos.BadgedTargetsMembers | src/content/memberVideos/MemberVideos.ts:18-29 | an element is a badged target iff some badged item targets it |
| MemberVideos.PassStateHidden | src/content/memberVideos/MemberVideos.ts:18-29 | the pass, item by item, hides exactly the targets of the badged items |
| MemberVideos.PassStateCount | src/content/memberVideos/MemberVideos.ts:25-28 | the pass, item by item, counts exactly the badged targets that were not hidden before |
| MemberVideos.HideMembersOnlyVideos | src/content/memberVideos/MemberVideos.ts:13-36 | exactly the targets of badged items are hidden in addition; the count is the number of distinct targets not hidden before; it is logged iff positive |
| MemberVideos.SecondPassCountsNothing | src/content/memberVideos/MemberVideos.ts:25-28 | a second pass over the same items counts zero |
| MemberVideos.SharedContainerCountsOnce | src/content/memberVideos/MemberVideos.ts:23-28 | two badged videos in one container hide it once |
| Sponsorship.BadgeMatch | src/content/memberVideos/MembersFetchInterceptorScript.ts:23-27 | throws iff the badge is `null`; matches iff its icon type is `SPONSORSHIP_STAR` |
| Sponsorship.AnyBadge | src/content/memberVideos/MembersFetchInterceptorScript.ts:23-27 | no match iff every badge is tested without a match |
| Sponsorship.AnyBadgeTrue | src/content/memberVideos/MembersFetchInterceptorScript.ts:23-27 | a match iff some badge matches and all earlier ones do not |
| Sponsorship.AnyBadgeThrows | src/content/memberVideos/MembersFetchInterceptorScript.ts:23-27 | throws iff a `null` badge is reached before any match |
| Sponsorship.IsSponsorshipVideo | src/content/memberVideos/MembersFetchInterceptorScript.ts:21-28 | a falsy renderer or non-array `badges` is no sponsorship video; otherwise the badges decide |
| Sponsorship.Index0 | src/content/memberVideos/MembersFetchInterceptorScript.ts:32-33 | `v[0]` on arrays, objects and strings; `undefined` otherwise |
| Sponsorship.VideoTitle | src/content/memberVideos/MembersFetchInterceptorScript.ts:31-36 | the placeholder whenever the renderer or its `title.runs` is falsy |
| Sponsorship.VideoTitleOfRuns | src/content/memberVideos/MembersFetchInterceptorScript.ts:31-36 | the usual shape gives the first run's text; empty runs give the placeholder |
| Sponsorship.Removable | src/content/memberVideos/MembersFetchInterceptorScript.ts:43-68 | an item goes iff its rich-item video is a sponsorship video, or that test says no and its direct video is one; non-objects always stay |
| Sponsorship.Kept | src/content/memberVideos/MembersFetchInterceptorScript.ts:43-68 | the items the filter keeps, in order: each one is from the input and not removable |
| Sponsorship.Filter | src/content/memberVideos/MembersFetchInterceptorScript.ts:39-79 | non-containers are returned as they are; arrays stay arrays and objects stay objects |
| Sponsorship.FilterObject | src/content/memberVideos/MembersFetchInterceptorScript.ts:73-78 | an object keeps exactly its keys, each mapped to its filtered value, and fails iff one of them does |
| Sponsorship.FilterArray | src/content/memberVideos/MembersFetchInterceptorScript.ts:42-69 | an array fails iff its items' filtering does, and otherwise becomes it |
| Sponsorship.FilterItemsSpec | src/content/memberVideos/MembersFetchInterceptorScript.ts:42-69 | a filtered array holds, in order, the filtered kept items |
| Sponsorship.FilterItemsThrows | src/content/memberVideos/MembersFetchInterceptorScript.ts:42-69 | the array filtering throws iff some item's removal test throws, or a kept item's filtering throws, before any earlier failure |
| Sponsorship.RemovableFiltered | src/content/memberVideos/MembersFetchInterceptorScript.ts:43-69 | a kept item is still kept after it has been filtered |
| Sponsorship.FilterIsClean | src/content/memberVideos/MembersFetchInterceptorScript.ts:39-79 | the filter's result holds no removable item at any depth |
| Sponsorship.CleanIsFixed | src/content/memberVideos/MembersFetchInterceptorScript.ts:39-79 | the filter returns a clean value unchanged |
| Sponsorship.FilterIdempotent | src/content/memberVideos/MembersFetchInterceptorScript.ts:39-79 | filtering twice is filtering once |
| Sponsorship.FilterDropsStarItem | src/content/memberVideos/MembersFetchInterceptorScript.ts:45-56 | a rich item carrying the star is dropped, and a plain object after it stays |
| Sponsorship.FilterRejectsNullBadge | src/content/memberVideos/MembersFetchInterceptorScript.ts:23-27 | a `null` badge ahead of the star makes the whole filtering throw |
| Sponsorship.InterceptFetch | src/content/memberVideos/MembersFetchInterceptorScript.ts:83-108 | responses are rewritten iff the URL contains one of the four endpoints; a rewritten body is the filtered data, clean and a fixed point of the filter, and fails iff the filtering throws |
| Sponsorship.EndpointUrlIntercepted | src/content/memberVideos/MembersFetchInterceptorScript.ts:95 | any URL with one of the endpoints inside it is intercepted, whatever comes before or after |
| Sponsorship.InterceptedExamples | src/content/memberVideos/MembersFetchInterceptorScript.ts:13-18 | a search request with a query string is intercepted; the guide endpoint is not |
| Shorts.HideShorts | src/content/Shorts/hideShorts.ts:89-105 | hiding only grows; a newly hidden element belongs to a pass the page runs; every Shorts element of such a pass is hidden; other pages are left alone |
| Shorts.PassesExclusive | src/content/Shorts/hideShorts.ts:89-105 | the search page runs only the search passes, and the feed pages only the feed pass |
| Shorts.HideShortsIdempotent | src/content/Shorts/hideShorts.ts:89-105 | hiding again on an unchanged page changes nothing |
| Shorts.OnlyFirstBadgeTextCounts | src/content/Shorts/hideShorts.ts:73-76 | only the first badge text is read, so a later `SHORTS` badge is missed |
| Pages.PagesExclusive | src/utils/pageDetection.ts:11-21 | at most one page predicate holds, and a trailing slash defeats all three |
| Pages.PagesExactMatch | src/utils/pageDetection.ts:11-21 | a query string or sub-path is a different pathname |
| ShortsLoop.Cleanup | src/content/Shorts/preventShortsLoop.ts:96-106 | both module variables are cleared together |
| ShortsLoop.Setup | src/content/Shorts/preventShortsLoop.ts:18-91 | off Shorts pages nothing happens; no video yet means a retry in 500 ms; the same element changes nothing; a new element has its loop turned off and both variables point at it |
| ShortsLoop.OnMutations | src/content/Shorts/preventShortsLoop.ts:68-78 | a `loop` attribute record on the watched element turns the loop off; other records, or an element no longer watched, change nothing |
| ShortsLoop.LoopStaysOff | src/content/Shorts/preventShortsLoop.ts:49-83 | once attached, setup on the same element changes nothing, and a re-enabled loop is turned off by the observer |
| ShortsLoop.CleanupStopsObserver | src/content/Shorts/preventShortsLoop.ts:96-106 | after cleanup a late observer callback changes nothing |
| Text.PrefixBefore | src/content/audioTrack/AudioTrackScript.ts:61 | `s.split(c)[0]`: the text before the first `c`, holding no `c`, or all of `s` |
| Text.ParseIntShowInt | src/content/videospeed/VideoSpeedScript.js:76 | `parseInt` reads back the decimal text of every integer |
| Seqs.FirstIndex | src/content/subtitles/SubtitlesScript.js:219 | `find`: the first element passing the test, or none iff no element passes |
| LocalItems.ItemOr | src/content/volume/VolumeScript.js:34 | `getItem(k) \|\| d`: the stored text unless it is missing or empty |

## Left out

- I/O is not modelled: extension storage, `localStorage`, script injection, `postMessage`, logging and `fetch` itself. They are inputs or outputs of the model functions.
- JSON text (`JSON.parse`/`JSON.stringify`), `parseFloat`, `atob` and the audio-track language regular expression are parameters or abstract states. The model does not parse text.
- Floating point is approximated: numbers are reals, and `NaN` appears only where the volume and speed scripts can produce it (as `None`). Infinities are not modelled: `parseFloat` never yields one, so a stored `Infinity` speed, which the `<video>` setter would refuse, is out of reach.
- Concurrency is left out, except for the page observers' waits listed next. Each other asynchronous function runs to completion at the point it is called, and awaited promises resolve in call order.
- The page observers' asynchronous waits (`waitForElement`, the grid-appearance observer) are counted, and their resumption is an event. Every pending wait resumes when its element appears and runs its own attach. A cleanup during a wait does not cancel it, as in the code. `waitForElement` (`src/utils/dom.ts`) is not part of this model; each call is taken to resolve its own promise once the element exists.
- AudioTrackScript.SetPreferredTrack: a track id is always a string in the model. An `undefined` id, whose `split` throws in the code, is represented by `decode` returning `None` for it, which gives the same retried throw.
- The audio normalizer page script (`AudioNormalizerScript.js`) is not part of this model. It is Web Audio signal processing.
- The popup, background page, logger and the older duplicate `VideoSpeed`/`VideoQuality` scripts are not part of this model.
- `src/content/utils.ts` duplicates `migrateSettings` and `applyVideoPlayerSettings` of `src/utils/utils.ts` line for line. One model serves both.
- `isLiveStream` is a boolean input of `SpeedScript.SetPlaybackSpeed`. Its three DOM checks are not modelled.
- The `try`/`catch` blocks of `hideShorts` are not modelled, because the model's queries do not throw.
- `querySelectorAll` and `closest` become records of what they find: an item, its badge, its container.
- The first-`<video>` selector list of the Shorts loop prevention becomes one optional video.
- `setupUrlObserver`'s wrapping of `history.pushState`/`replaceState` and its event listeners become a `UrlChanged` event.
- `shouldApplySpeed`, `setupUrlObserver`, `setupVisibilityChangeListener`, `hideShorts`, `handleVolume` and `handleAudioTrack` have no callers in these sources. They are modelled as if called.
- The subtitles orchestration's 3000 ms and 7000 ms fallbacks and its player-state checks become events of `SubtitlesScript.OrchNext`. Their delays are not tracked.
- Sponsorship.VideoTitle: only the falsy-path cases are stated, because the title feeds nothing but a log line.
- Sponsorship.Filter: the code replaces object properties in place. The model builds a new value, which is the same for JSON data without shared references.
- Strict mode is assumed for the TypeScript modules, so assigning a property on a primitive throws.
- Migration.MigrateSettings: an array as the stored record, or as a feature value whose default has properties, is a failed migration (`Throw`, so the defaults are loaded). In the code neither throws: `prop in []` is legal, and the missing defaults become named properties of the array, which JSON cannot hold. The model states nothing about that array-with-properties result.
- QualityScript.SetVideoQuality: the player's methods never throw in the model, and `getAvailableQualityLevels` always returns a list of strings. So the `catch` at `VideoQualityScript.js:159-162` is never reached. In the code that `catch` returns `false`, like the model's `NothingSet`, but whether a throwing range setter changed the quality first is not modelled.
- Orchestrator.ListenerSetUpAtMostOnce: only initialisation and message events are sequenced. The initial fetch is a separate function.

=== FILE: audio_track_script.dfy ===
/** The audio-track page script: `setPreferredTrack` over the decoded track ids. The
    base64 decoding of an id's second `;`-field and the `lang..([-a-zA-Z]+)` match are
    parameters: `decode` yields `None` where `atob` throws, `langOf` the captured group. */
module AudioTrackScript {
  import opened Wrappers
  import opened JsonValue
  import opened Text
  import opened Blob
  import Retry

  /** The track ids the player lists, `None` when `getAvailableAudioTracks()` returned
      something other than an array; `listThrows`, `getThrows` and `setThrows` say
      whether `getAvailableAudioTracks()`, `getAudioTrack()` and `setAudioTrack(...)`
      throw (a missing method included). */
  datatype AudioPlayer = AudioPlayer(tracks: Option<seq<string>>, current: Option<string>,
                                     listThrows: bool, getThrows: bool, setThrows: bool)

  /** The language code of a decoded id: the captured group up to its first `-`. */
  function LangCode(langOf: string -> Option<string>, decoded: string): Option<string> {
    if langOf(decoded).Some? then Some(PrefixBefore(langOf(decoded).value, '-')) else None
  }

  /** The track test of the search: the decoded id mentions `original`, or its language
      code is the preferred language. */
  predicate Wanted(language: Json, langOf: string -> Option<string>, decoded: string) {
    if language == JStr("original") then Contains(decoded, "original")
    else language.JStr? && LangCode(langOf, decoded) == Some(language.s)
  }

  /** The track test for a preferred language, as the function `find` is given. */
  function WantedFor(language: Json, langOf: string -> Option<string>): string -> bool {
    (d: string) => Wanted(language, langOf, d)
  }

  /** Every track before position `i` decodes and is not wanted. */
  predicate UnwantedBefore(ids: seq<string>, decode: string -> Option<string>, wanted: string -> bool, i: nat)
    requires i <= |ids|
  {
    forall k :: 0 <= k < i ==> decode(ids[k]).Some? && !wanted(decode(ids[k]).value)
  }

  lemma UnwantedBeforeCons(ids: seq<string>, decode: string -> Option<string>, wanted: string -> bool, i: nat)
    requires 1 <= i <= |ids|
    ensures UnwantedBefore(ids, decode, wanted, i) <==>
      decode(ids[0]).Some? && !wanted(decode(ids[0]).value) && UnwantedBefore(ids[1..], decode, wanted, i - 1)
  {
    assert forall k :: 1 <= k < i ==> ids[k] == ids[1..][k - 1];
  }

  /** `tracks.find(...)` with a test that decodes each id in turn: the first wanted track,
      none, or a throw from a decode reached before any wanted track. */
  function FindTrack(ids: seq<string>, decode: string -> Option<string>, wanted: string -> bool): (r: Completion<Option<nat>>)
    ensures r.Normal? && r.value.Some? ==>
      r.value.value < |ids| && decode(ids[r.value.value]).Some? && wanted(decode(ids[r.value.value]).value)
      && UnwantedBefore(ids, decode, wanted, r.value.value)
    ensures r == Normal(None) <==> UnwantedBefore(ids, decode, wanted, |ids|)
    decreases |ids|
  {
    if ids == [] then Normal(None)
    else match decode(ids[0])
      case None => Throw
      case Some(d) =>
        if wanted(d) then Normal(Some(0))
        else
          var rest := FindTrack(ids[1..], decode, wanted);
          UnwantedBeforeCons(ids, decode, wanted, |ids|);
          match rest
          case Throw => Throw
          case Normal(None) => Normal(None)
          case Normal(Some(i)) =>
            UnwantedBeforeCons(ids, decode, wanted, i + 1);
            Normal(Some(i + 1))
  }

  /** The search throws exactly when a decode fails before any wanted track. */
  lemma {:induction false} FindTrackThrows(ids: seq<string>, decode: string -> Option<string>, wanted: string -> bool)
    ensures FindTrack(ids, decode, wanted).Throw? <==>
      exists i: nat :: i < |ids| && decode(ids[i]).None? && UnwantedBefore(ids, decode, wanted, i)
    decreases |ids|
  {
    if ids != [] {
      var tl := ids[1..];
      FindTrackThrows(tl, decode, wanted);
      if FindTrack(ids, decode, wanted).Throw? && decode(ids[0]).Some? {
        var j: nat :| j < |tl| && decode(tl[j]).None? && UnwantedBefore(tl, decode, wanted, j);
        UnwantedBeforeCons(ids, decode, wanted, j + 1);
        assert ids[j + 1] == tl[j];
      }
      if decode(ids[0]).None? {
        assert UnwantedBefore(ids, decode, wanted, 0);
      }
      if i: nat :| i < |ids| && decode(ids[i]).None? && UnwantedBefore(ids, decode, wanted, i) {
        if i > 0 {
          UnwantedBeforeCons(ids, decode, wanted, i);
          assert tl[i - 1] == ids[i];
        }
      }
    }
  }

  /** One attempt: its return value, the track passed to `setAudioTrack`, and whether the
      `try` block threw (which starts a retry). */
  datatype TrackAttempt = TrackAttempt(returned: bool, chosen: Option<nat>, threw: bool)

  /** `audioTrack?.language || 'original'` of the blob, inside the `try`. */
  function AudioLanguage(blob: BlobState): (r: Completion<Json>)
    ensures r.Throw? <==> blob.Unparsable? || blob == Stored(JNull)
    ensures r.Normal? && !TruthyOpt(GetOpt(Get(ReadBlob(blob).value, "audioTrack"), "language")) ==> r.value == JStr("original")
    ensures r.Normal? && TruthyOpt(GetOpt(Get(ReadBlob(blob).value, "audioTrack"), "language")) ==>
      r.value == GetOpt(Get(ReadBlob(blob).value, "audioTrack"), "language").value
  {
    match ReadBlob(blob)
    case Throw => Throw
    case Normal(v) =>
      match ReadProp(v, "audioTrack")
      case Throw => Throw
      case Normal(sub) =>
        var l := GetOpt(sub, "language");
        Normal(if TruthyOpt(l) then l.value else JStr("original"))
  }

  /** `setPreferredTrack()`; `player` is `None` when the element or its
      `getAvailableAudioTracks` is missing. */
  function SetPreferredTrack(player: Option<AudioPlayer>, blob: BlobState,
                             decode: string -> Option<string>, langOf: string -> Option<string>): (r: TrackAttempt)
    ensures player.None? ==> r == TrackAttempt(false, None, false)
    // a chosen track is a listed one that passes the test, and it is the first such
    ensures r.chosen.Some? ==>
      && player.Some? && player.value.tracks.Some? && AudioLanguage(blob).Normal?
      && r.returned && !r.threw && !player.value.listThrows && !player.value.getThrows && !player.value.setThrows
      && var ids := player.value.tracks.value;
         var i := r.chosen.value;
         i < |ids| && decode(ids[i]).Some? && Wanted(AudioLanguage(blob).value, langOf, decode(ids[i]).value)
         && forall k :: 0 <= k < i ==> decode(ids[k]).Some? && !Wanted(AudioLanguage(blob).value, langOf, decode(ids[k]).value)
    // zero or one track, or no array: success without a change
    ensures player.Some? && AudioLanguage(blob).Normal? && !player.value.listThrows
            && (player.value.tracks.None? || |player.value.tracks.value| <= 1) ==>
      r == TrackAttempt(true, None, false)
    // a throwing `getAvailableAudioTracks()` is caught and retried
    ensures player.Some? && AudioLanguage(blob).Normal? && player.value.listThrows ==> r == TrackAttempt(false, None, true)
    // a throwing `getAudioTrack()` is caught and retried
    ensures Searching(player, blob) && player.value.getThrows ==> r == TrackAttempt(false, None, true)
    // a current track that already satisfies the preference is kept
    ensures Searching(player, blob) && !player.value.getThrows && player.value.current.Some? && decode(player.value.current.value).Some?
            && Wanted(AudioLanguage(blob).value, langOf, decode(player.value.current.value).value) ==>
      r == TrackAttempt(true, None, false)
    // an unreadable blob or an undecodable current id is a throw, caught and retried
    ensures player.Some? && AudioLanguage(blob).Throw? ==> r == TrackAttempt(false, None, true)
    ensures Searching(player, blob) && !player.value.getThrows && player.value.current.Some? && decode(player.value.current.value).None? ==>
      r == TrackAttempt(false, None, true)
    // otherwise, with the current track absent or unwanted, the search decides: its hit
    // is set and reported unless `setAudioTrack` throws, no hit reports failure, and a
    // throw during the search or the set is retried
    ensures Searching(player, blob) && !player.value.getThrows && CurrentUnwanted(player.value.current, decode, WantedFor(AudioLanguage(blob).value, langOf)) ==>
      var found := FindTrack(player.value.tracks.value, decode, WantedFor(AudioLanguage(blob).value, langOf));
      && (found.Normal? && found.value.Some? ==>
            r == if player.value.setThrows then TrackAttempt(false, None, true) else TrackAttempt(true, found.value, false))
      && (found == Normal(None) ==> r == TrackAttempt(false, None, false))
      && (found.Throw? ==> r == TrackAttempt(false, None, true))
    ensures r.threw ==> !r.returned && r.chosen.None?
  {
    if player.None? then TrackAttempt(false, None, false)
    else
      var p := player.value;
      match AudioLanguage(blob)
      case Throw => TrackAttempt(false, None, true)
      case Normal(language) =>
        if p.listThrows then TrackAttempt(false, None, true)
        else if p.tracks.None? || |p.tracks.value| <= 1 then TrackAttempt(true, None, false)
        else
          var ids := p.tracks.value;
          var wanted := WantedFor(language, langOf);
          if p.getThrows then TrackAttempt(false, None, true)
          else if p.current.Some? && decode(p.current.value).None? then TrackAttempt(false, None, true)
          else if p.current.Some? && wanted(decode(p.current.value).value) then TrackAttempt(true, None, false)
          else match FindTrack(ids, decode, wanted)
            case Throw => TrackAttempt(false, None, true)
            case Normal(None) => TrackAttempt(false, None, false)
            case Normal(Some(i)) => if p.setThrows then TrackAttempt(false, None, true) else TrackAttempt(true, Some(i), false)
  }

  /** The preference reads and the player lists more than one track without throwing:
      the attempt goes on to look at the current track and search. */
  predicate Searching(player: Option<AudioPlayer>, blob: BlobState) {
    player.Some? && AudioLanguage(blob).Normal? && !player.value.listThrows && player.value.tracks.Some? && |player.value.tracks.value| > 1
  }

  /** No current track, or one that decodes and fails the test. */
  predicate CurrentUnwanted(current: Option<string>, decode: string -> Option<string>, wanted: string -> bool) {
    current.None? || (decode(current.value).Some? && !wanted(decode(current.value).value))
  }

  /** An attempt followed by the retry bookkeeping of its `catch`. */
  function AttemptWithRetry(count: nat, player: Option<AudioPlayer>, blob: BlobState,
                            decode: string -> Option<string>, langOf: string -> Option<string>): (r: (TrackAttempt, Retry.AfterFailure))
    ensures r.0 == SetPreferredTrack(player, blob, decode, langOf)
    ensures !r.0.threw ==> r.1 == Retry.AfterFailure(count, None)
    ensures r.0.threw ==> r.1 == Retry.OnFailure(count)
  {
    var a := SetPreferredTrack(player, blob, decode, langOf);
    (a, if a.threw then Retry.OnFailure(count) else Retry.AfterFailure(count, None))
  }

  /** After the chosen track becomes the current one, the next run changes nothing. */
  lemma SettlesAfterSet(player: AudioPlayer, blob: BlobState, decode: string -> Option<string>, langOf: string -> Option<string>)
    requires SetPreferredTrack(Some(player), blob, decode, langOf).chosen.Some?
    ensures var i := SetPreferredTrack(Some(player), blob, decode, langOf).chosen.value;
      SetPreferredTrack(Some(player.(current := Some(player.tracks.value[i]))), blob, decode, langOf) == TrackAttempt(true, None, false)
  {
  }
}

=== FILE: blob.dfy ===
/** The `YCS_SETTINGS` entry of the page's `localStorage`: the JSON blob the bridges
    share with the injected page scripts, and the three operations every bridge repeats
    on it: overwrite one key from extension storage, gate the injection on a strict
    `enabled === true`, and set fields of one sub-object. */
module Blob {
  import opened Wrappers
  import opened JsonValue
  import opened Storage

  /** The entry as `raw ? JSON.parse(raw) : {}` sees it: absent or empty, text that
      parses to a value, or text that does not parse. */
  datatype BlobState = NoBlob | Stored(v: Json) | Unparsable

  /** `raw ? JSON.parse(raw) : {}`. */
  function ReadBlob(b: BlobState): (r: Completion<Json>)
    ensures r.Throw? <==> b.Unparsable?
    ensures b.NoBlob? ==> r == Normal(JObj(map[]))
    ensures b.Stored? ==> r == Normal(b.v)
  {
    match b
    case NoBlob => Normal(JObj(map[]))
    case Stored(v) => Normal(v)
    case Unparsable => Throw
  }

  /** `target.p = x` followed by `JSON.stringify`: an object gains or overwrites the
      property; an array takes it but `JSON.stringify` drops it; assigning a property of
      `null` or of a primitive throws (the modules run in strict mode). */
  function SetProp(target: Json, p: string, x: Json): (r: Completion<Json>)
    ensures target.JObj? ==> r == Normal(JObj(target.m[p := x]))
    ensures target.JArr? ==> r == Normal(target)
    ensures !target.JObj? && !target.JArr? ==> r.Throw?
  {
    match target
    case JObj(m) => Normal(JObj(m[p := x]))
    case JArr(_) => Normal(target)
    case _ => Throw
  }

  /** `obj.key` where `obj` itself may be `null`: reading a property of `null` throws. */
  function ReadProp(v: Json, key: string): (r: Completion<Option<Json>>)
    ensures r.Throw? <==> v.JNull?
    ensures r.Normal? ==> r.value == Get(v, key)
  {
    if v.JNull? then Throw else Normal(Get(v, key))
  }

  /** The `sync...Preference()` functions: when extension storage holds a truthy value
      under `key`, overwrite that one key of the blob with it; every failure (storage
      read, parse, assignment) is caught and leaves the blob as it was. */
  function Sync(key: string, read: StorageGet, blob: BlobState): (r: BlobState)
    // nothing is written unless storage holds a truthy value for the key
    ensures !TruthyOpt(GetOpt(StoredSettings(read), key)) ==> r == blob
    // an object blob gains exactly that key; every other key keeps its value
    ensures TruthyOpt(GetOpt(StoredSettings(read), key)) && ReadBlob(blob).Normal? && ReadBlob(blob).value.JObj? ==>
      r == Stored(JObj(ReadBlob(blob).value.m[key := GetOpt(StoredSettings(read), key).value]))
    // a failed parse or an assignment that throws is swallowed
    ensures blob.Unparsable? ==> r == blob
    ensures blob.Stored? && !blob.v.JObj? && !blob.v.JArr? ==> r == blob
  {
    var value := GetOpt(StoredSettings(read), key);
    if !TruthyOpt(value) then blob
    else
      match ReadBlob(blob)
      case Throw => blob
      case Normal(v) =>
        match SetProp(v, key, value.value)
        case Throw => blob
        case Normal(v') => Stored(v')
  }

  /** Syncing twice from the same storage read is syncing once. */
  lemma SyncIdempotent(key: string, read: StorageGet, blob: BlobState)
    ensures Sync(key, read, Sync(key, read, blob)) == Sync(key, read, blob)
  {
    var value := GetOpt(StoredSettings(read), key);
    if TruthyOpt(value) && ReadBlob(blob).Normal? && ReadBlob(blob).value.JObj? {
      var m := ReadBlob(blob).value.m;
      assert m[key := value.value][key := value.value] == m[key := value.value];
    }
  }

  /** Syncs of two different keys commute: each touches only its own key. */
  lemma SyncsCommute(k1: string, k2: string, read: StorageGet, m: map<string, Json>)
    requires k1 != k2
    ensures Sync(k1, read, Sync(k2, read, Stored(JObj(m)))) == Sync(k2, read, Sync(k1, read, Stored(JObj(m))))
  {
    var v1 := GetOpt(StoredSettings(read), k1);
    var v2 := GetOpt(StoredSettings(read), k2);
    if TruthyOpt(v1) && TruthyOpt(v2) {
      assert m[k2 := v2.value][k1 := v1.value] == m[k1 := v1.value][k2 := v2.value];
    }
  }

  /** The injection gate `blob.<key>?.enabled === true`: a parse failure and a `null`
      blob throw; anything but the boolean `true` keeps the script out. */
  function Gate(key: string, blob: BlobState): (r: Completion<bool>)
    ensures r.Throw? <==> blob.Unparsable? || blob == Stored(JNull)
    ensures r == Normal(true) <==> ReadBlob(blob).Normal? && IsStrictTrue(GetOpt(Get(ReadBlob(blob).value, key), "enabled"))
  {
    match ReadBlob(blob)
    case Throw => Throw
    case Normal(v) =>
      match ReadProp(v, key)
      case Throw => Throw
      case Normal(sub) => Normal(IsStrictTrue(GetOpt(sub, "enabled")))
  }

  /** A truthy non-boolean `enabled` (1, "true", an object) does not open the gate. */
  lemma GateIsStrict(key: string, m: map<string, Json>, enabled: Json)
    requires enabled != JBool(true)
    ensures Gate(key, Stored(JObj(m[key := JObj(map["enabled" := enabled])]))) == Normal(false)
  {
  }

  /** The blob after a handler and whether it injected its page script. */
  datatype Handled = Handled(blob: BlobState, injected: bool, threw: bool)

  /** `handle...()` for the bridges with a plain gate: sync, then re-read the blob and
      inject iff the gate opens; a parse failure after the sync rejects. */
  function Handle(key: string, read: StorageGet, blob: BlobState): (r: Handled)
    ensures r.blob == Sync(key, read, blob)
    ensures r.injected <==> Gate(key, Sync(key, read, blob)) == Normal(true)
    ensures r.threw <==> Gate(key, Sync(key, read, blob)).Throw?
  {
    var synced := Sync(key, read, blob);
    match Gate(key, synced)
    case Throw => Handled(synced, false, true)
    case Normal(on) => Handled(synced, on, false)
  }

  /** When storage holds the feature as an object, the handler injects exactly when that
      stored object's own `enabled` is `true`, whatever the blob held for it before. */
  lemma HandleFollowsStorage(key: string, read: StorageGet, m: map<string, Json>)
    requires GetOpt(StoredSettings(read), key).Some? && GetOpt(StoredSettings(read), key).value.JObj?
    ensures Handle(key, read, Stored(JObj(m))).injected
            <==> IsStrictTrue(Get(GetOpt(StoredSettings(read), key).value, "enabled"))
  {
  }

  /** `if (!blob.key) blob.key = {}` followed by reading `blob.key`: the sub-object the
      message listeners update. A `null` blob throws; a primitive blob throws on the
      assignment. */
  function SubForUpdate(v: Json, key: string): (r: Completion<Json>)
    ensures v.JObj? && TruthyOpt(Get(v, key)) ==> r == Normal(v.m[key])
    ensures v.JObj? && !TruthyOpt(Get(v, key)) ==> r == Normal(JObj(map[]))
    ensures v.JArr? ==> r == Normal(JObj(map[]))
    ensures !v.JObj? && !v.JArr? ==> r.Throw?
  {
    match ReadProp(v, key)
    case Throw => Throw
    case Normal(sub) =>
      if TruthyOpt(sub) then Normal(sub.value)
      else if SetProp(v, key, JObj(map[])).Throw? then Throw
      else Normal(JObj(map[]))
  }

  /** A sequence of `sub.p = x` assignments, in order. */
  function SetFields(sub: Json, fields: seq<(string, Json)>): (r: Completion<Json>)
    ensures sub.JObj? ==> r.Normal? && r.value.JObj?
    ensures sub.JObj? ==> r.value.m.Keys == sub.m.Keys + (set i | 0 <= i < |fields| :: fields[i].0)
    // the last assignment to a field wins; fields not assigned keep their value
    ensures sub.JObj? ==> forall p :: p in sub.m && (forall i :: 0 <= i < |fields| ==> fields[i].0 != p) ==> r.value.m[p] == sub.m[p]
    ensures sub.JArr? ==> r == Normal(sub)
    ensures !sub.JObj? && !sub.JArr? && |fields| > 0 ==> r.Throw?
    decreases |fields|
  {
    if fields == [] then Normal(sub)
    else
      match SetProp(sub, fields[|fields| - 1].0, fields[|fields| - 1].1)
      case Throw => Throw
      case Normal(_) =>
        match SetFields(sub, fields[..|fields| - 1])
        case Throw => Throw
        case Normal(prefix) =>
          assert forall i :: 0 <= i < |fields| - 1 ==> fields[..|fields| - 1][i] == fields[i];
          SetProp(prefix, fields[|fields| - 1].0, fields[|fields| - 1].1)
  }

  /** The property map a run of assignments leaves on an object, as plain map updates. */
  function Apply(m: map<string, Json>, fields: seq<(string, Json)>): map<string, Json>
    decreases |fields|
  {
    if fields == [] then m
    else Apply(m, fields[..|fields| - 1])[fields[|fields| - 1].0 := fields[|fields| - 1].1]
  }

  /** On an object, the assignments never throw and perform exactly those map updates. */
  lemma {:induction false} SetFieldsApply(m: map<string, Json>, fields: seq<(string, Json)>)
    ensures SetFields(JObj(m), fields) == Normal(JObj(Apply(m, fields)))
    decreases |fields|
  {
    if fields != [] {
      SetFieldsApply(m, fields[..|fields| - 1]);
    }
  }

  /** Assigning `a` and then `b` is assigning `a + b`. */
  lemma {:induction false} ApplyConcat(m: map<string, Json>, a: seq<(string, Json)>, b: seq<(string, Json)>)
    ensures Apply(m, a + b) == Apply(Apply(m, a), b)
    decreases |b|
  {
    if b == [] {
      assert a + b == a;
    } else {
      assert (a + b)[..|a + b| - 1] == a + b[..|b| - 1];
      ApplyConcat(m, a, b[..|b| - 1]);
    }
  }

  lemma ApplyOne(m: map<string, Json>, x: (string, Json))
    ensures Apply(m, [x]) == m[x.0 := x.1]
  {
    assert [x][..0] == [];
  }

  lemma ApplyPair(m: map<string, Json>, x: (string, Json), y: (string, Json))
    ensures Apply(m, [x, y]) == m[x.0 := x.1][y.0 := y.1]
  {
    assert [x, y][..1] == [x];
    ApplyOne(m, x);
  }

  /** The property map of `blob.key` when it is an object, and `{}` otherwise: the map
      the listeners' assignments start from whenever they do not throw. */
  function Prev(v: Json, key: string): map<string, Json> {
    if v.JObj? && key in v.m && v.m[key].JObj? then v.m[key].m else map[]
  }

  /** The value a field ends with: the last assignment to it. */
  lemma SetFieldsLastWins(sub: map<string, Json>, fields: seq<(string, Json)>, i: nat)
    requires i < |fields|
    requires forall j :: i < j < |fields| ==> fields[j].0 != fields[i].0
    ensures SetFields(JObj(sub), fields).value.m[fields[i].0] == fields[i].1
    decreases |fields|
  {
    if i < |fields| - 1 {
      SetFieldsLastWins(sub, fields[..|fields| - 1], i);
    }
  }
}

=== FILE: bridges.dfy ===
/** The per-feature preference bridges of the content script: the message listeners
    that update one sub-object of the `YCS_SETTINGS` blob field by field, the Shorts-aware
    speed handler, and the subtitles bridge that writes a flat `localStorage` key. */
module Bridges {
  import opened Wrappers
  import opened JsonValue
  import opened Text
  import opened Storage
  import opened Blob
  import opened LocalItems

  /** What a feature message listener did: whether the guard accepted the message, the
      blob after its write, and whether an exception escaped (then nothing was written
      and the handler was not called). The listener answers `true` unless it threw. */
  datatype Reply = Reply(accepted: bool, blob: BlobState, threw: bool)

  /** `blob.key` can take assignments: the blob is an object and the sub-object is
      either an object or falsy (then `{}` replaces it). */
  predicate SubIsObject(v: Json, key: string) {
    v.JObj? && (!TruthyOpt(Get(v, key)) || v.m[key].JObj?)
  }

  /** Read the blob, make sure `blob.key` is an object, assign `fields` on it in order,
      and write the blob back. */
  function UpdateSub(key: string, fields: seq<(string, Json)>, blob: BlobState): (r: Completion<BlobState>)
    ensures blob.Unparsable? ==> r.Throw?
    // a `null` or primitive blob throws; an array blob is written back unchanged
    ensures blob.Stored? && !blob.v.JObj? && !blob.v.JArr? ==> r.Throw?
    ensures blob.Stored? && blob.v.JArr? ==> r == Normal(blob)
    // an object blob: only `key` changes, and its fields are assigned over the existing
    // sub-object, or over `{}` when it was missing or falsy
    ensures ReadBlob(blob).Normal? && SubIsObject(ReadBlob(blob).value, key) ==>
      var v := ReadBlob(blob).value;
      r == Normal(Stored(JObj(v.m[key := JObj(Apply(Prev(v, key), fields))])))
    // a truthy primitive sub-object throws on the first assignment
    ensures (ReadBlob(blob).Normal? && ReadBlob(blob).value.JObj? && !SubIsObject(ReadBlob(blob).value, key)
             && !ReadBlob(blob).value.m[key].JArr? && |fields| > 0) ==> r.Throw?
  {
    match ReadBlob(blob)
    case Throw => Throw
    case Normal(v) =>
      match SubForUpdate(v, key)
      case Throw => Throw
      case Normal(sub) =>
        SetFieldsApply(Prev(v, key), fields);
        match SetFields(sub, fields)
        case Throw => Throw
        case Normal(sub') =>
          match SetProp(v, key, sub')
          case Throw => Throw
          case Normal(v') => Normal(Stored(v'))
  }

  function ReplyOf(accepted: bool, blob: BlobState, write: Completion<BlobState>): Reply {
    if !accepted then Reply(false, blob, false)
    else match write
      case Throw => Reply(true, blob, true)
      case Normal(b) => Reply(true, b, false)
  }

  /** The `videoQuality` message guard: a non-null object with that feature, a string
      `quality` and a boolean `enabled`. */
  predicate IsQualityMessage(msg: Json) {
    IsNonNullObject(msg) && Get(msg, "feature") == Some(JStr("videoQuality"))
    && GetString(msg, "quality").Some? && GetBool(msg, "enabled").Some?
  }

  /** The write of the `videoQuality` listener, up to its `setItem`: set `enabled` and
      `value` of `blob.videoQuality`, creating it when missing. */
  function QualityMessage(msg: Json, blob: BlobState): (r: Reply)
    ensures r.accepted <==> IsQualityMessage(msg)
    ensures !r.accepted ==> r == Reply(false, blob, false)
    ensures r.accepted && blob.Unparsable? ==> r == Reply(true, blob, true)
    // exactly `enabled` and `value` are set; every other field (`customOrder`, ...) and
    // every other key of the blob is kept
    ensures r.accepted && ReadBlob(blob).Normal? && SubIsObject(ReadBlob(blob).value, "videoQuality") ==>
      var v := ReadBlob(blob).value;
      r == Reply(true, Stored(JObj(v.m["videoQuality" :=
             JObj(Prev(v, "videoQuality")["enabled" := msg.m["enabled"]]["value" := msg.m["quality"]])])), false)
  {
    if !IsQualityMessage(msg) then Reply(false, blob, false)
    else
      var fields := [("enabled", msg.m["enabled"]), ("value", msg.m["quality"])];
      if ReadBlob(blob).Normal? then
        ApplyPair(Prev(ReadBlob(blob).value, "videoQuality"), fields[0], fields[1]);
        ReplyOf(true, blob, UpdateSub("videoQuality", fields, blob))
      else ReplyOf(true, blob, UpdateSub("videoQuality", fields, blob))
  }

  /** The `videoSpeed` message guard: a non-null object with that feature, a number
      `speed` and a boolean `enabled`. */
  predicate IsSpeedMessage(msg: Json) {
    IsNonNullObject(msg) && Get(msg, "feature") == Some(JStr("videoSpeed"))
    && GetNumber(msg, "speed").Some? && GetBool(msg, "enabled").Some?
  }

  /** The write of the `videoSpeed` listener, up to its `setItem`: set `enabled` and
      `value`, and `applyToShorts` only when the message carries a boolean one. */
  function SpeedMessage(msg: Json, blob: BlobState): (r: Reply)
    ensures r.accepted <==> IsSpeedMessage(msg)
    ensures !r.accepted ==> r == Reply(false, blob, false)
    ensures r.accepted && blob.Unparsable? ==> r == Reply(true, blob, true)
    ensures r.accepted && ReadBlob(blob).Normal? && SubIsObject(ReadBlob(blob).value, "videoSpeed") ==>
      var v := ReadBlob(blob).value;
      var sub := Prev(v, "videoSpeed")["enabled" := msg.m["enabled"]]["value" := msg.m["speed"]];
      r == Reply(true, Stored(JObj(v.m["videoSpeed" := JObj(
             if GetBool(msg, "applyToShorts").Some? then sub["applyToShorts" := msg.m["applyToShorts"]] else sub)])), false)
  {
    if !IsSpeedMessage(msg) then Reply(false, blob, false)
    else
      var base := [("enabled", msg.m["enabled"]), ("value", msg.m["speed"])];
      var extra := if GetBool(msg, "applyToShorts").Some? then [("applyToShorts", msg.m["applyToShorts"])] else [];
      var fields := base + extra;
      if ReadBlob(blob).Normal? then
        var prev := Prev(ReadBlob(blob).value, "videoSpeed");
        ApplyPair(prev, base[0], base[1]);
        ApplyConcat(prev, base, extra);
        if extra == [] then
          assert fields == base;
          ReplyOf(true, blob, UpdateSub("videoSpeed", fields, blob))
        else
          ApplyOne(Apply(prev, base), extra[0]);
          ReplyOf(true, blob, UpdateSub("videoSpeed", fields, blob))
      else ReplyOf(true, blob, UpdateSub("videoSpeed", fields, blob))
  }

  /** The speed handler: the plain gate, then no injection on a `/shorts...` path when
      the blob's `applyToShorts` is exactly `false` (a missing one counts as true). */
  function HandleVideoSpeed(path: string, read: StorageGet, blob: BlobState): (r: Handled)
    ensures r.blob == Sync("videoSpeed", read, blob)
    ensures r.threw <==> Gate("videoSpeed", r.blob).Throw?
    ensures r.injected <==>
      Gate("videoSpeed", r.blob) == Normal(true)
      && !(StartsWith(path, "/shorts")
           && GetOpt(Get(ReadBlob(r.blob).value, "videoSpeed"), "applyToShorts") == Some(JBool(false)))
  {
    var h := Handle("videoSpeed", read, blob);
    if !h.injected then h
    else
      var v := ReadBlob(h.blob).value;
      var applyToShorts := GetOpt(Get(v, "videoSpeed"), "applyToShorts") != Some(JBool(false));
      if StartsWith(path, "/shorts") && !applyToShorts then h.(injected := false) else h
  }

  /** With `applyToShorts` missing the speed script is injected on Shorts too, and any
      path that merely starts with `/shorts` (such as `/shortsx`) counts as Shorts. */
  lemma SpeedShortsGate(m: map<string, Json>, path: string)
    requires StartsWith(path, "/shorts")
    ensures HandleVideoSpeed(path, GetFailed, Stored(JObj(m["videoSpeed" := JObj(map["enabled" := JBool(true)])]))).injected
    ensures !HandleVideoSpeed(path, GetFailed,
              Stored(JObj(m["videoSpeed" := JObj(map["enabled" := JBool(true), "applyToShorts" := JBool(false)])]))).injected
    ensures HandleVideoSpeed("/watch", GetFailed,
              Stored(JObj(m["videoSpeed" := JObj(map["enabled" := JBool(true), "applyToShorts" := JBool(false)])]))).injected
  {
    assert !StartsWith("/watch", "/shorts") by {
      assert "/watch"[1] != "/shorts"[1];
    }
  }

  /** The `audioNormalizer` message guard: any non-null object with that feature. */
  predicate IsNormalizerMessage(msg: Json) {
    IsNonNullObject(msg) && Get(msg, "feature") == Some(JStr("audioNormalizer"))
  }

  /** The assignments the normalizer listener makes, in order: `enabled` and `value`
      when well typed, `manualActivation` together with `active = false`, then
      `active = toggleState`. */
  function NormalizerFields(msg: Json): seq<(string, Json)> {
    (if GetBool(msg, "enabled").Some? then [("enabled", msg.m["enabled"])] else [])
    + (if GetString(msg, "value").Some? then [("value", msg.m["value"])] else [])
    + (if GetBool(msg, "manualActivation").Some? then [("manualActivation", msg.m["manualActivation"]), ("active", JBool(false))] else [])
    + (if GetBool(msg, "toggleState").Some? then [("active", msg.m["toggleState"])] else [])
  }

  /** The normalizer listener's outcome and the `YCS_AUDIO_NORMALIZER_UPDATE` it posted. */
  datatype NormalizerReply = NormalizerReply(reply: Reply, posted: Option<bool>)

  /** The write of the `audioNormalizer` listener, up to its `setItem`. */
  function NormalizerMessage(msg: Json, blob: BlobState): (r: NormalizerReply)
    ensures r.reply.accepted <==> IsNormalizerMessage(msg)
    ensures !r.reply.accepted ==> r == NormalizerReply(Reply(false, blob, false), None)
    // an update is posted iff a boolean `toggleState` came and nothing threw before it
    ensures r.posted.Some? <==> r.reply.accepted && !r.reply.threw && GetBool(msg, "toggleState").Some?
    ensures r.posted.Some? ==> r.posted.value == GetBool(msg, "toggleState").value
    ensures r.reply.accepted ==> (r.reply.threw <==> UpdateSub("audioNormalizer", NormalizerFields(msg), blob).Throw?)
    ensures r.reply.accepted && !r.reply.threw ==>
      UpdateSub("audioNormalizer", NormalizerFields(msg), blob) == Normal(r.reply.blob)
  {
    if !IsNormalizerMessage(msg) then NormalizerReply(Reply(false, blob, false), None)
    else
      var reply := ReplyOf(true, blob, UpdateSub("audioNormalizer", NormalizerFields(msg), blob));
      NormalizerReply(reply, if !reply.threw && GetBool(msg, "toggleState").Some? then GetBool(msg, "toggleState") else None)
  }

  /** The normalizer's assignments as a chain of conditional map updates, in source order. */
  function NormalizerChain(msg: Json, m: map<string, Json>): map<string, Json> {
    var m1 := if GetBool(msg, "enabled").Some? then m["enabled" := msg.m["enabled"]] else m;
    var m2 := if GetString(msg, "value").Some? then m1["value" := msg.m["value"]] else m1;
    var m3 := if GetBool(msg, "manualActivation").Some?
              then m2["manualActivation" := msg.m["manualActivation"]]["active" := JBool(false)] else m2;
    if GetBool(msg, "toggleState").Some? then m3["active" := msg.m["toggleState"]] else m3
  }

  /** The assignments the listener makes are exactly the chain of map updates. */
  lemma NormalizerApplyChain(msg: Json, m: map<string, Json>)
    ensures Apply(m, NormalizerFields(msg)) == NormalizerChain(msg, m)
  {
    var e := if GetBool(msg, "enabled").Some? then [("enabled", msg.m["enabled"])] else [];
    var v := if GetString(msg, "value").Some? then [("value", msg.m["value"])] else [];
    var ma := if GetBool(msg, "manualActivation").Some? then [("manualActivation", msg.m["manualActivation"]), ("active", JBool(false))] else [];
    var t := if GetBool(msg, "toggleState").Some? then [("active", msg.m["toggleState"])] else [];
    assert NormalizerFields(msg) == ((e + v) + ma) + t;
    ApplyConcat(m, e + v + ma, t);
    ApplyConcat(m, e + v, ma);
    ApplyConcat(m, e, v);
    var m1 := Apply(m, e);
    if e != [] { ApplyOne(m, e[0]); }
    var m2 := Apply(m1, v);
    if v != [] { ApplyOne(m1, v[0]); }
    var m3 := Apply(m2, ma);
    if ma != [] { ApplyPair(m2, ma[0], ma[1]); }
    if t != [] { ApplyOne(m3, t[0]); }
  }

  /** The four field names the normalizer assigns are pairwise different. */
  lemma NormalizerNamesDistinct()
    ensures |"enabled"| == 7 && |"value"| == 5 && |"manualActivation"| == 16 && |"active"| == 6
  {
  }

  /** The field rules of the normalizer's assignments: a field changes only when the
      message carries it with the right type, and a `manualActivation` resets `active`
      unless a `toggleState` (assigned later) sets it. */
  lemma NormalizerApplyRules(msg: Json, m: map<string, Json>)
    ensures var r := Apply(m, NormalizerFields(msg));
      && (GetBool(msg, "enabled").Some? ==> "enabled" in r && r["enabled"] == msg.m["enabled"])
      && (GetString(msg, "value").Some? ==> "value" in r && r["value"] == msg.m["value"])
      && (GetBool(msg, "manualActivation").Some? ==> "manualActivation" in r && r["manualActivation"] == msg.m["manualActivation"])
      && (GetBool(msg, "toggleState").Some? ==> "active" in r && r["active"] == msg.m["toggleState"])
      && (GetBool(msg, "toggleState").None? && GetBool(msg, "manualActivation").Some? ==> "active" in r && r["active"] == JBool(false))
  {
    NormalizerApplyChain(msg, m);
    NormalizerNamesDistinct();
  }

  /** The normalizer's assignments add no other key, and every field they do not assign
      keeps its value. */
  lemma NormalizerApplyKeeps(msg: Json, m: map<string, Json>)
    ensures var r := Apply(m, NormalizerFields(msg));
      && r.Keys <= m.Keys + {"enabled", "value", "manualActivation", "active"}
      && (forall p :: p in m && !(p == "enabled" && GetBool(msg, "enabled").Some?) && !(p == "value" && GetString(msg, "value").Some?)
            && !(p == "manualActivation" && GetBool(msg, "manualActivation").Some?)
            && !(p == "active" && (GetBool(msg, "manualActivation").Some? || GetBool(msg, "toggleState").Some?))
            ==> p in r && r[p] == m[p])
  {
    NormalizerApplyChain(msg, m);
  }

  /** The normalizer listener on an object blob whose sub-object takes assignments: it
      does not throw, and only `audioNormalizer` changes, by the assignments whose rules
      `NormalizerApplyRules` states. */
  lemma NormalizerMessageWrites(msg: Json, blob: BlobState)
    requires IsNormalizerMessage(msg)
    requires ReadBlob(blob).Normal? && SubIsObject(ReadBlob(blob).value, "audioNormalizer")
    ensures var v := ReadBlob(blob).value;
      var r := NormalizerMessage(msg, blob).reply;
      && !r.threw && r.blob.Stored? && r.blob.v.JObj?
      && r.blob.v.m == v.m["audioNormalizer" := JObj(Apply(Prev(v, "audioNormalizer"), NormalizerFields(msg)))]
  {
    var u := UpdateSub("audioNormalizer", NormalizerFields(msg), blob);
    assert u.Normal?;
  }

  /** A `customSettings` object in the message is ignored: with it or without it the
      listener makes the same assignments. */
  lemma NormalizerIgnoresCustomSettings(msg: Json, custom: Json)
    requires msg.JObj?
    ensures NormalizerFields(JObj(msg.m["customSettings" := custom])) == NormalizerFields(msg)
  {
    var msg' := JObj(msg.m["customSettings" := custom]);
    assert GetBool(msg', "enabled") == GetBool(msg, "enabled");
    assert GetString(msg', "value") == GetString(msg, "value");
    assert GetBool(msg', "manualActivation") == GetBool(msg, "manualActivation");
    assert GetBool(msg', "toggleState") == GetBool(msg, "toggleState");
  }

  /** The handler's re-sync overwrites a message's write: when extension storage holds a
      truthy `videoQuality`, the blob the handler leaves holds the stored value, whatever
      the message set. */
  lemma QualityMessageClobbered(msg: Json, read: StorageGet, m: map<string, Json>)
    requires IsQualityMessage(msg)
    requires TruthyOpt(GetOpt(StoredSettings(read), "videoQuality"))
    requires SubIsObject(JObj(m), "videoQuality")
    ensures var written := QualityMessage(msg, Stored(JObj(m))).blob;
      var after := Handle("videoQuality", read, written).blob;
      after.Stored? && after.v.JObj? && after.v.m["videoQuality"] == GetOpt(StoredSettings(read), "videoQuality").value
  {
  }

  /** A feature listener run to completion: the reply to its write, the
      `YCS_AUDIO_NORMALIZER_UPDATE` it posted, and the handler it called after the
      write (`None` when the message was rejected or the write threw). */
  datatype Listened = Listened(reply: Reply, posted: Option<bool>, handled: Option<Handled>)

  /** The feature value a listener's handler leaves in the blob: the stored one when
      extension storage holds a truthy one (the re-sync), else the one the message wrote. */
  function Effective(read: StorageGet, key: string, written: map<string, Json>): Json {
    var stored := GetOpt(StoredSettings(read), key);
    if TruthyOpt(stored) then stored.value else JObj(written)
  }

  /** A handler run on an object blob whose feature was just written: the re-sync
      leaves the effective value under the key, and the gate reads its `enabled`. */
  lemma HandleAfterWrite(key: string, read: StorageGet, m: map<string, Json>, written: map<string, Json>)
    ensures var synced := Sync(key, read, Stored(JObj(m[key := JObj(written)])));
      && synced == Stored(JObj(m[key := Effective(read, key, written)]))
      && Gate(key, synced) == Normal(IsStrictTrue(Get(Effective(read, key, written), "enabled")))
  {
    var e := Effective(read, key, written);
    assert m[key := JObj(written)][key := e] == m[key := e];
  }

  /** The whole `videoQuality` listener: the write, then `handleVideoQuality()`. */
  function QualityListener(msg: Json, read: StorageGet, blob: BlobState): (r: Listened)
    ensures r.reply == QualityMessage(msg, blob) && r.posted.None?
    // the handler runs exactly after an accepted write that did not throw
    ensures r.handled.Some? <==> r.reply.accepted && !r.reply.threw
    ensures r.handled.Some? ==> r.handled.value == Handle("videoQuality", read, r.reply.blob)
    // on an object blob the feature ends as the stored value when storage holds one,
    // else as the message set it, and the script is injected iff that value's
    // `enabled` is `true`
    ensures IsQualityMessage(msg) && ReadBlob(blob).Normal? && SubIsObject(ReadBlob(blob).value, "videoQuality") ==>
      var v := ReadBlob(blob).value;
      var e := Effective(read, "videoQuality", Prev(v, "videoQuality")["enabled" := msg.m["enabled"]]["value" := msg.m["quality"]]);
      && r.handled.Some? && !r.handled.value.threw
      && r.handled.value.blob == Stored(JObj(v.m["videoQuality" := e]))
      && (r.handled.value.injected <==> IsStrictTrue(Get(e, "enabled")))
  {
    var reply := QualityMessage(msg, blob);
    if !reply.accepted || reply.threw then Listened(reply, None, None)
    else
      if ReadBlob(blob).Normal? && SubIsObject(ReadBlob(blob).value, "videoQuality") then
        var v := ReadBlob(blob).value;
        HandleAfterWrite("videoQuality", read, v.m, Prev(v, "videoQuality")["enabled" := msg.m["enabled"]]["value" := msg.m["quality"]]);
        Listened(reply, None, Some(Handle("videoQuality", read, reply.blob)))
      else Listened(reply, None, Some(Handle("videoQuality", read, reply.blob)))
  }

  /** The whole `videoSpeed` listener: the write, then `handleVideoSpeed()` on the
      current path. */
  function SpeedListener(msg: Json, path: string, read: StorageGet, blob: BlobState): (r: Listened)
    ensures r.reply == SpeedMessage(msg, blob) && r.posted.None?
    ensures r.handled.Some? <==> r.reply.accepted && !r.reply.threw
    ensures r.handled.Some? ==> r.handled.value == HandleVideoSpeed(path, read, r.reply.blob)
    // on an object blob: the stored value wins over the message's, and the script is
    // injected iff that value is enabled and this is not a Shorts page it excludes
    ensures IsSpeedMessage(msg) && ReadBlob(blob).Normal? && SubIsObject(ReadBlob(blob).value, "videoSpeed") ==>
      var v := ReadBlob(blob).value;
      var sub := Prev(v, "videoSpeed")["enabled" := msg.m["enabled"]]["value" := msg.m["speed"]];
      var e := Effective(read, "videoSpeed",
                 if GetBool(msg, "applyToShorts").Some? then sub["applyToShorts" := msg.m["applyToShorts"]] else sub);
      && r.handled.Some? && !r.handled.value.threw
      && r.handled.value.blob == Stored(JObj(v.m["videoSpeed" := e]))
      && (r.handled.value.injected <==>
            IsStrictTrue(Get(e, "enabled")) && !(StartsWith(path, "/shorts") && Get(e, "applyToShorts") == Some(JBool(false))))
  {
    var reply := SpeedMessage(msg, blob);
    if !reply.accepted || reply.threw then Listened(reply, None, None)
    else
      if ReadBlob(blob).Normal? && SubIsObject(ReadBlob(blob).value, "videoSpeed") then
        var v := ReadBlob(blob).value;
        var sub := Prev(v, "videoSpeed")["enabled" := msg.m["enabled"]]["value" := msg.m["speed"]];
        HandleAfterWrite("videoSpeed", read, v.m,
          if GetBool(msg, "applyToShorts").Some? then sub["applyToShorts" := msg.m["applyToShorts"]] else sub);
        Listened(reply, None, Some(HandleVideoSpeed(path, read, reply.blob)))
      else Listened(reply, None, Some(HandleVideoSpeed(path, read, reply.blob)))
  }

  /** The whole `audioNormalizer` listener: the write (with its post), then
      `handleAudioNormalizer()`. */
  function NormalizerListener(msg: Json, read: StorageGet, blob: BlobState): (r: Listened)
    ensures r.reply == NormalizerMessage(msg, blob).reply && r.posted == NormalizerMessage(msg, blob).posted
    ensures r.handled.Some? <==> r.reply.accepted && !r.reply.threw
    ensures r.handled.Some? ==> r.handled.value == Handle("audioNormalizer", read, r.reply.blob)
    // on an object blob: the stored value wins over the message's assignments, and the
    // script is injected iff that value's `enabled` is `true`
    ensures IsNormalizerMessage(msg) && ReadBlob(blob).Normal? && SubIsObject(ReadBlob(blob).value, "audioNormalizer") ==>
      var v := ReadBlob(blob).value;
      var e := Effective(read, "audioNormalizer", Apply(Prev(v, "audioNormalizer"), NormalizerFields(msg)));
      && r.handled.Some? && !r.handled.value.threw
      && r.handled.value.blob == Stored(JObj(v.m["audioNormalizer" := e]))
      && (r.handled.value.injected <==> IsStrictTrue(Get(e, "enabled")))
  {
    var n := NormalizerMessage(msg, blob);
    if !n.reply.accepted || n.reply.threw then Listened(n.reply, n.posted, None)
    else
      if ReadBlob(blob).Normal? && SubIsObject(ReadBlob(blob).value, "audioNormalizer") then
        var v := ReadBlob(blob).value;
        NormalizerMessageWrites(msg, blob);
        HandleAfterWrite("audioNormalizer", read, v.m, Apply(Prev(v, "audioNormalizer"), NormalizerFields(msg)));
        Listened(n.reply, n.posted, Some(Handle("audioNormalizer", read, n.reply.blob)))
      else Listened(n.reply, n.posted, Some(Handle("audioNormalizer", read, n.reply.blob)))
  }

  /** The flat `localStorage` key the subtitles bridge writes. */
  const SubtitlesLanguageKey: string := "yds-subtitlesLanguage"

  /** `localStorage.setItem(k, v)` stores `String(v)`; the text of a number or an array
      is left to `otherText`. */
  function StorageText(v: Option<Json>, otherText: Json -> string): string {
    match v
    case None => "undefined"
    case Some(JNull) => "null"
    case Some(JBool(b)) => if b then "true" else "false"
    case Some(JStr(s)) => s
    case Some(JObj(_)) => "[object Object]"
    case Some(j) => otherText(j)
  }

  /** `syncSubtitlesLanguagePreference()`: when the stored subtitles preference is
      enabled, write its value to the flat key; nothing else changes. */
  function SyncSubtitles(read: StorageGet, flat: Flat, otherText: Json -> string): (r: Flat)
    ensures var pref := GetOpt(StoredSettings(read), "subtitlesPreference");
      (TruthyOpt(GetOpt(pref, "enabled")) ==> r == flat[SubtitlesLanguageKey := StorageText(GetOpt(pref, "value"), otherText)])
      && (!TruthyOpt(GetOpt(pref, "enabled")) ==> r == flat)
    ensures forall k :: k != SubtitlesLanguageKey && k in flat ==> k in r && r[k] == flat[k]
  {
    var pref := GetOpt(StoredSettings(read), "subtitlesPreference");
    if TruthyOpt(GetOpt(pref, "enabled")) then flat[SubtitlesLanguageKey := StorageText(GetOpt(pref, "value"), otherText)]
    else flat
  }

  /** `handleSubtitlesPreference()`: sync, then inject the script unconditionally. */
  function HandleSubtitles(read: StorageGet, flat: Flat, otherText: Json -> string): (r: (Flat, bool))
    ensures r.1
    ensures r.0 == SyncSubtitles(read, flat, otherText)
  {
    (SyncSubtitles(read, flat, otherText), true)
  }

  /** The `subtitlesPreference` message guard: a non-null object with that feature and a
      string `language`. */
  predicate IsSubtitlesMessage(msg: Json) {
    IsNonNullObject(msg) && Get(msg, "feature") == Some(JStr("subtitlesPreference")) && GetString(msg, "language").Some?
  }

  /** The `subtitlesPreference` listener: store the language, then re-run the handler;
      the result is the flat storage after both and whether the script was injected. */
  function SubtitlesMessage(msg: Json, read: StorageGet, flat: Flat, otherText: Json -> string)
    : (r: (Flat, bool))
    ensures !IsSubtitlesMessage(msg) ==> r == (flat, false)
    // when the stored preference is not enabled, the message's language is what stays
    ensures IsSubtitlesMessage(msg) && !TruthyOpt(GetOpt(GetOpt(StoredSettings(read), "subtitlesPreference"), "enabled")) ==>
      r.1 && r.0 == flat[SubtitlesLanguageKey := GetString(msg, "language").value]
    // when it is enabled, the handler's sync overwrites it with the stored value
    ensures IsSubtitlesMessage(msg) && TruthyOpt(GetOpt(GetOpt(StoredSettings(read), "subtitlesPreference"), "enabled")) ==>
      r.1 && SubtitlesLanguageKey in r.0 && r.0[SubtitlesLanguageKey]
             == StorageText(GetOpt(GetOpt(StoredSettings(read), "subtitlesPreference"), "value"), otherText)
  {
    if !IsSubtitlesMessage(msg) then (flat, false)
    else HandleSubtitles(read, flat[SubtitlesLanguageKey := GetString(msg, "language").value], otherText)
  }
}

=== FILE: defaults.dfy ===
/** `DEFAULT_SETTINGS`, the schema default the settings store migrates against. */
module Defaults {
  import opened Wrappers
  import opened JsonValue
  import opened Migration

  const VideoQualityDefault: Record := map["enabled" := JBool(false), "value" := JStr("hd2160")]
  const VideoSpeedDefault: Record := map["enabled" := JBool(false), "value" := JNum(1.0), "applyToShorts" := JBool(true)]
  const SubtitlesDefault: Record := map["enabled" := JBool(false), "value" := JStr("original")]
  const CustomSettingsDefault: Record := map[
    "threshold" := JNum(-30.0), "boost" := JNum(1.2), "ratio" := JNum(4.0),
    "attack" := JNum(0.01), "release" := JNum(0.25)]
  const AudioNormalizerDefault: Record := map[
    "enabled" := JBool(false), "value" := JStr("custom"), "manualActivation" := JBool(true),
    "customSettings" := JObj(CustomSettingsDefault)]
  const VolumeDefault: Record := map["enabled" := JBool(false), "value" := JNum(50.0)]
  const HideMembersDefault: Record := map["enabled" := JBool(false)]

  /** The default record: six features, no `audioTrack` entry. */
  const DEFAULT_SETTINGS: Defaults := map[
    "videoQuality" := VideoQualityDefault,
    "videoSpeed" := VideoSpeedDefault,
    "subtitlesPreference" := SubtitlesDefault,
    "audioNormalizer" := AudioNormalizerDefault,
    "volume" := VolumeDefault,
    "hideMembersOnlyVideos" := HideMembersDefault]

  /** The defaults as the JSON object `DEFAULT_SETTINGS` is. */
  function DefaultsAsJson(d: Defaults): (r: Json)
    ensures r.JObj? && r.m.Keys == d.Keys
    ensures forall k :: k in d ==> r.m[k] == JObj(d[k])
  {
    JObj(map k | k in d :: JObj(d[k]))
  }

  /** Every feature of the defaults starts disabled. */
  lemma DefaultsAllDisabled()
    ensures forall k :: k in DEFAULT_SETTINGS ==> Lookup(DEFAULT_SETTINGS[k], "enabled") == Some(JBool(false))
  {
  }

  /** Speed defaults to 1x and applies to Shorts; volume defaults to 50, inside the
      0..100 range the volume script clamps to; the normalizer defaults to the
      `custom` preset with manual activation and a full custom-settings record. */
  lemma DefaultValues()
    ensures DEFAULT_SETTINGS["videoSpeed"]["value"] == JNum(1.0)
    ensures DEFAULT_SETTINGS["videoSpeed"]["applyToShorts"] == JBool(true)
    ensures DEFAULT_SETTINGS["volume"]["value"].JNum?
    ensures 0.0 <= DEFAULT_SETTINGS["volume"]["value"].n <= 100.0
    ensures DEFAULT_SETTINGS["audioNormalizer"]["value"] == JStr("custom")
    ensures DEFAULT_SETTINGS["audioNormalizer"]["manualActivation"] == JBool(true)
    ensures DEFAULT_SETTINGS["audioNormalizer"]["customSettings"].JObj?
    ensures DEFAULT_SETTINGS["audioNormalizer"]["customSettings"].m.Keys
            == {"threshold", "boost", "ratio", "attack", "release"}
  {
  }

  /** Migrating against the defaults never backfills `audioTrack`: it is in the result
      exactly when the stored record had it, and then unchanged. */
  lemma {:induction false} NoAudioTrackBackfill(user: Json)
    requires MigrateSettings(user, DEFAULT_SETTINGS).Normal?
    ensures "audioTrack" in MigrateSettings(user, DEFAULT_SETTINGS).value.settings <==> "audioTrack" in user.m
    ensures "audioTrack" in user.m ==>
      MigrateSettings(user, DEFAULT_SETTINGS).value.settings["audioTrack"] == user.m["audioTrack"]
  {
    AudioTrackNotDefault();
  }

  lemma AudioTrackNotDefault()
    ensures "audioTrack" !in DEFAULT_SETTINGS
  {
    var a := "audioTrack";
    assert |a| == 10 && a[0] == 'a';
    assert |"videoQuality"| == 12 && |"subtitlesPreference"| == 19 && |"audioNormalizer"| == 15;
    assert |"volume"| == 6 && |"hideMembersOnlyVideos"| == 21;
    assert "videoSpeed"[0] == 'v';
  }

  /** After a successful migration against the defaults, every default feature is an
      object carrying `enabled`. */
  lemma MigratedHasEnabled(user: Json)
    requires MigrateSettings(user, DEFAULT_SETTINGS).Normal?
    ensures forall k :: k in DEFAULT_SETTINGS ==>
      k in MigrateSettings(user, DEFAULT_SETTINGS).value.settings &&
      Get(MigrateSettings(user, DEFAULT_SETTINGS).value.settings[k], "enabled").Some?
  {
    DefaultsHaveEnabled();
    MigratedHasProperty(user, DEFAULT_SETTINGS, "enabled");
  }

  lemma DefaultsHaveEnabled()
    ensures forall k :: k in DEFAULT_SETTINGS ==> "enabled" in DEFAULT_SETTINGS[k]
  {
    DefaultsAllDisabled();
  }
}

=== FILE: dispatch.dfy ===
/** `applyVideoPlayerSettings`: one handler call per enabled player feature of the
    settings snapshot, in a fixed order. */
module Dispatch {
  import opened Wrappers
  import opened JsonValue

  /** The four features whose handlers the snapshot drives. */
  datatype Feature = VideoQuality | VideoSpeed | SubtitlesPreference | AudioNormalizer

  function Key(f: Feature): string {
    match f
    case VideoQuality => "videoQuality"
    case VideoSpeed => "videoSpeed"
    case SubtitlesPreference => "subtitlesPreference"
    case AudioNormalizer => "audioNormalizer"
  }

  /** Position of a feature in the dispatch order. */
  function Rank(f: Feature): nat {
    match f
    case VideoQuality => 0
    case VideoSpeed => 1
    case SubtitlesPreference => 2
    case AudioNormalizer => 3
  }

  /** The dispatch order: quality, speed, subtitles, normalizer. */
  const PlayerFeatures: seq<Feature> := [VideoQuality, VideoSpeed, SubtitlesPreference, AudioNormalizer]

  /** `fs` lists features in strictly increasing dispatch order. */
  predicate InOrder(fs: seq<Feature>) {
    forall i, j :: 0 <= i < j < |fs| ==> Rank(fs[i]) < Rank(fs[j])
  }

  /** `settings.<key>.enabled` where only the snapshot itself is optional-chained:
      reading `enabled` of an `undefined` or `null` feature throws a TypeError; of any
      other non-object it is `undefined`. The result is the truthiness `&&` tests. */
  function EnabledAt(s: Json, key: string): (r: Completion<bool>)
    ensures r.Throw? <==> Get(s, key).None? || Get(s, key) == Some(JNull)
    ensures r == Normal(true) <==> Get(s, key).Some? && TruthyOpt(Get(Get(s, key).value, "enabled"))
  {
    match Get(s, key)
    case None => Throw
    case Some(JNull) => Throw
    case Some(v) => Normal(TruthyOpt(Get(v, "enabled")))
  }

  function EnabledRead(s: Json, f: Feature): Completion<bool> {
    EnabledAt(s, Key(f))
  }

  predicate Enabled(s: Json, f: Feature) {
    EnabledRead(s, f) == Normal(true)
  }

  /** The handlers called, and whether a feature read threw before the end. */
  datatype Dispatched = Dispatched(handlers: seq<Feature>, threw: bool)

  /** Index of the first feature of `fs` whose read throws, or `|fs|`. */
  function FirstThrow(s: Json, fs: seq<Feature>): (n: nat)
    ensures n <= |fs|
    ensures forall j :: 0 <= j < n ==> EnabledRead(s, fs[j]).Normal?
    ensures n < |fs| ==> EnabledRead(s, fs[n]).Throw?
  {
    if fs == [] || EnabledRead(s, fs[0]).Throw? then 0
    else
      var n := FirstThrow(s, fs[1..]);
      assert forall j :: 1 <= j < |fs| ==> fs[j] == fs[1..][j - 1];
      1 + n
  }

  /** `s.f1.enabled && handle1(); s.f2.enabled && handle2(); ...` over `fs`. */
  function DispatchEach(s: Json, fs: seq<Feature>): (r: Dispatched)
    requires InOrder(fs)
    // it throws iff some read throws, and then at the first such read
    ensures r.threw <==> FirstThrow(s, fs) < |fs|
    // the handlers called are exactly the enabled features read before any throw
    ensures forall f :: f in r.handlers <==> f in fs[..FirstThrow(s, fs)] && Enabled(s, f)
    // each at most once, in dispatch order
    ensures InOrder(r.handlers)
  {
    if fs == [] then Dispatched([], false)
    else
      match EnabledRead(s, fs[0])
      case Throw => Dispatched([], true)
      case Normal(on) =>
        var rest := DispatchEach(s, fs[1..]);
        DispatchStep(s, fs, rest.handlers);
        if on then Dispatched([fs[0]] + rest.handlers, rest.threw) else rest
  }

  /** The inductive step of `DispatchEach`: a read that does not throw extends the
      prefix read before the first throw by one feature, and that feature ranks below
      everything dispatched after it. */
  lemma DispatchStep(s: Json, fs: seq<Feature>, rest: seq<Feature>)
    requires InOrder(fs) && |fs| > 0 && EnabledRead(s, fs[0]).Normal?
    requires forall f :: f in rest <==> f in fs[1..][..FirstThrow(s, fs[1..])] && Enabled(s, f)
    requires InOrder(rest)
    ensures InOrder(fs[1..])
    ensures fs[..FirstThrow(s, fs)] == [fs[0]] + fs[1..][..FirstThrow(s, fs[1..])]
    ensures InOrder([fs[0]] + rest)
  {
    TailInOrder(fs);
    FirstThrowStep(s, fs);
    forall f | f in rest ensures Rank(fs[0]) < Rank(f) {
      TailRanksAbove(fs, f);
    }
    ConsInOrder(fs[0], rest);
  }

  lemma TailInOrder(fs: seq<Feature>)
    requires InOrder(fs) && |fs| > 0
    ensures InOrder(fs[1..])
  {
    forall i, j | 0 <= i < j < |fs[1..]| ensures Rank(fs[1..][i]) < Rank(fs[1..][j]) {
      assert fs[1..][i] == fs[i + 1] && fs[1..][j] == fs[j + 1];
    }
  }

  lemma FirstThrowStep(s: Json, fs: seq<Feature>)
    requires |fs| > 0 && EnabledRead(s, fs[0]).Normal?
    ensures fs[..FirstThrow(s, fs)] == [fs[0]] + fs[1..][..FirstThrow(s, fs[1..])]
  {
    var n := FirstThrow(s, fs[1..]);
    assert FirstThrow(s, fs) == 1 + n;
    assert fs[..1 + n] == [fs[0]] + fs[1..][..n];
  }

  lemma TailRanksAbove(fs: seq<Feature>, f: Feature)
    requires InOrder(fs) && |fs| > 0
    requires exists j :: 0 <= j < |fs| - 1 && fs[1..][j] == f
    ensures Rank(fs[0]) < Rank(f)
  {
    var j :| 0 <= j < |fs| - 1 && fs[1..][j] == f;
    assert fs[j + 1] == f;
  }

  lemma ConsInOrder(x: Feature, rest: seq<Feature>)
    requires InOrder(rest)
    requires forall f :: f in rest ==> Rank(x) < Rank(f)
    ensures InOrder([x] + rest)
  {
    var h := [x] + rest;
    forall i, j | 0 <= i < j < |h| ensures Rank(h[i]) < Rank(h[j]) {
      assert h[j] == rest[j - 1];
      if i > 0 { assert h[i] == rest[i - 1]; }
    }
  }

  /** Every feature is in the dispatch order. */
  lemma AllPlayerFeatures()
    ensures forall f: Feature :: f in PlayerFeatures
    ensures InOrder(PlayerFeatures)
  {
    forall f: Feature ensures f in PlayerFeatures {
      match f
      case VideoQuality => assert PlayerFeatures[0] == f;
      case VideoSpeed => assert PlayerFeatures[1] == f;
      case SubtitlesPreference => assert PlayerFeatures[2] == f;
      case AudioNormalizer => assert PlayerFeatures[3] == f;
    }
  }

  /** `applyVideoPlayerSettings()` over the snapshot; a `null` snapshot short-circuits
      the whole optional chain, so nothing is called. */
  function ApplyVideoPlayerSettings(snapshot: Option<Json>): (r: Dispatched)
    ensures snapshot.None? ==> r == Dispatched([], false)
    ensures snapshot.Some? && FirstThrow(snapshot.value, PlayerFeatures) == |PlayerFeatures| ==>
      !r.threw && forall f :: f in r.handlers <==> Enabled(snapshot.value, f)
    ensures InOrder(r.handlers)
  {
    AllPlayerFeatures();
    if snapshot.None? then Dispatched([], false)
    else
      assert PlayerFeatures[..|PlayerFeatures|] == PlayerFeatures;
      DispatchEach(snapshot.value, PlayerFeatures)
  }

  /** A snapshot holding all four features as objects dispatches, without throwing,
      exactly the handlers of the features whose `enabled` is truthy. */
  lemma DispatchWellFormed(s: Json)
    requires forall f :: Get(s, Key(f)).Some? && Get(s, Key(f)).value.JObj?
    ensures !ApplyVideoPlayerSettings(Some(s)).threw
    ensures forall f :: f in ApplyVideoPlayerSettings(Some(s)).handlers <==> TruthyOpt(Get(Get(s, Key(f)).value, "enabled"))
  {
    assert FirstThrow(s, PlayerFeatures) == 4 by {
      assert forall f :: EnabledRead(s, f).Normal?;
    }
  }
}

=== FILE: json.dfy ===
/** JSON-like values as the extension handles them after `JSON.parse`, with the
    JavaScript notions the code relies on: truthiness, property reads and `typeof`. */
module JsonValue {
  import opened Wrappers

  datatype Json =
    | JNull
    | JBool(b: bool)
    | JNum(n: real)
    | JStr(s: string)
    | JArr(a: seq<Json>)
    | JObj(m: map<string, Json>)

  /** JavaScript truthiness of a value (NaN is not a JSON value and is not modelled). */
  predicate Truthy(j: Json) {
    match j
    case JNull => false
    case JBool(b) => b
    case JNum(n) => n != 0.0
    case JStr(s) => s != ""
    case _ => true
  }

  /** Truthiness of a possibly-`undefined` value: `undefined` is falsy. */
  predicate TruthyOpt(v: Option<Json>) {
    v.Some? && Truthy(v.value)
  }

  /** The property read `v.key` (or `v?.key`) for a key that is not a built-in
      property of strings or arrays: only an object holding the key yields a value. */
  function Get(v: Json, key: string): (r: Option<Json>)
    ensures r.Some? <==> v.JObj? && key in v.m
    ensures r.Some? ==> r.value == v.m[key]
  {
    if v.JObj? && key in v.m then Some(v.m[key]) else None
  }

  /** `v?.key` where `v` itself may be `undefined`. */
  function GetOpt(v: Option<Json>, key: string): (r: Option<Json>)
    ensures v.None? ==> r.None?
    ensures v.Some? ==> r == Get(v.value, key)
  {
    if v.Some? then Get(v.value, key) else None
  }

  /** Entry `k` of an object's property map, `undefined` when missing. */
  function Lookup(m: map<string, Json>, k: string): (r: Option<Json>)
    ensures r.Some? <==> k in m
    ensures k in m ==> r.value == m[k]
  {
    if k in m then Some(m[k]) else None
  }

  /** `x === true` on a possibly-`undefined` value. */
  predicate IsStrictTrue(v: Option<Json>) {
    v == Some(JBool(true))
  }

  /** `typeof x === 'object'` (which holds for `null` and arrays as well). */
  predicate TypeofObject(j: Json) {
    j.JNull? || j.JArr? || j.JObj?
  }

  /** `typeof x === 'object' && x !== null`, the guard of every feature message listener. */
  predicate IsNonNullObject(j: Json) {
    j.JArr? || j.JObj?
  }

  /** `typeof v.key === 'string'`, giving the string when it holds. */
  function GetString(v: Json, key: string): (r: Option<string>)
    ensures r.Some? <==> Get(v, key).Some? && Get(v, key).value.JStr?
    ensures r.Some? ==> Get(v, key) == Some(JStr(r.value))
  {
    match Get(v, key)
    case Some(JStr(s)) => Some(s)
    case _ => None
  }

  /** `typeof v.key === 'boolean'`, giving the boolean when it holds. */
  function GetBool(v: Json, key: string): (r: Option<bool>)
    ensures r.Some? <==> Get(v, key).Some? && Get(v, key).value.JBool?
    ensures r.Some? ==> Get(v, key) == Some(JBool(r.value))
  {
    match Get(v, key)
    case Some(JBool(b)) => Some(b)
    case _ => None
  }

  /** `typeof v.key === 'number'`, giving the number when it holds. */
  function GetNumber(v: Json, key: string): (r: Option<real>)
    ensures r.Some? <==> Get(v, key).Some? && Get(v, key).value.JNum?
    ensures r.Some? ==> Get(v, key) == Some(JNum(r.value))
  {
    match Get(v, key)
    case Some(JNum(n)) => Some(n)
    case _ => None
  }
}

=== FILE: local_items.dfy ===
/** The page's flat `localStorage` entries and the JavaScript numbers read from them. */
module LocalItems {
  import opened Wrappers

  /** The page's flat `localStorage` entries. */
  type Flat = map<string, string>

  /** `localStorage.getItem(k) || d`: a missing or empty entry yields the default. */
  function ItemOr(flat: Flat, k: string, d: string): (r: string)
    ensures k in flat && flat[k] != "" ==> r == flat[k]
    ensures !(k in flat && flat[k] != "") ==> r == d
  {
    if k in flat && flat[k] != "" then flat[k] else d
  }

  /** `localStorage.getItem(k) === 'true'`. */
  predicate IsTrueItem(flat: Flat, k: string) {
    k in flat && flat[k] == "true"
  }

  /** A JavaScript number that may be `NaN` (`None`): every comparison with `NaN` is false. */
  type Num = Option<real>

  predicate Gt(a: Num, b: Num) {
    a.Some? && b.Some? && a.value > b.value
  }

  predicate Lt(a: Num, b: Num) {
    a.Some? && b.Some? && a.value < b.value
  }
}

=== FILE: member_videos.dfy ===
/** The DOM pass that hides members-only videos: every grid or search video item
    carrying the members-only badge has its nearest rich-item container (or itself)
    hidden, and the pass counts the elements it newly hid. */
module MemberVideos {
  import opened Wrappers

  /** An element of the page, identified by its position in document order. */
  type Element = nat

  /** A `ytd-rich-grid-media` or `ytd-video-renderer` match: the element, whether a
      `.badge-style-type-members-only` descendant exists, and the closest
      `ytd-rich-item-renderer` ancestor when there is one. */
  datatype VideoItem = VideoItem(element: Element, membersBadge: bool, richParent: Option<Element>)

  /** The element whose `display` the pass sets: the grid container, else the item. */
  function Target(item: VideoItem): (e: Element)
    ensures item.richParent.Some? ==> e == item.richParent.value
    ensures item.richParent.None? ==> e == item.element
  {
    item.richParent.GetOr(item.element)
  }

  /** The targets of the badged items, gathered from the last item backwards. */
  function BadgedTargets(items: seq<VideoItem>): set<Element>
    decreases |items|
  {
    if items == [] then {}
    else
      var last := items[|items| - 1];
      BadgedTargets(items[..|items| - 1]) + (if last.membersBadge then {Target(last)} else {})
  }

  /** An element is a badged target exactly when some badged item targets it. */
  lemma {:induction false} BadgedTargetsMembers(items: seq<VideoItem>, e: Element)
    ensures e in BadgedTargets(items) <==>
      exists i :: 0 <= i < |items| && items[i].membersBadge && Target(items[i]) == e
    decreases |items|
  {
    if items != [] {
      var init := items[..|items| - 1];
      BadgedTargetsMembers(init, e);
      assert forall i :: 0 <= i < |init| ==> init[i] == items[i];
    }
  }

  lemma BadgedTargetsSnoc(items: seq<VideoItem>, item: VideoItem)
    ensures BadgedTargets(items + [item]) == BadgedTargets(items) + (if item.membersBadge then {Target(item)} else {})
  {
    assert (items + [item])[..|items|] == items;
  }

  /** Adding target `t` to the badged targets grows the newly hidden ones by one exactly
      when `t` was not hidden yet. */
  lemma NewlyHiddenStep(before: set<Element>, hidden: set<Element>, t: Element)
    ensures t !in hidden + before ==> |(before + {t}) - hidden| == |before - hidden| + 1
    ensures t in hidden + before ==> (before + {t}) - hidden == before - hidden
  {
    if t !in hidden + before {
      assert (before + {t}) - hidden == (before - hidden) + {t};
    }
  }

  /** The pass as a reference definition over its prefix: the hidden set and the count
      after the last item. */
  function PassState(items: seq<VideoItem>, hidden: set<Element>): (set<Element>, nat)
    decreases |items|
  {
    if items == [] then (hidden, 0)
    else
      var prev := PassState(items[..|items| - 1], hidden);
      var t := Target(items[|items| - 1]);
      if items[|items| - 1].membersBadge && t !in prev.0 then (prev.0 + {t}, prev.1 + 1) else prev
  }

  /** The reference pass hides exactly the badged targets. */
  lemma {:induction false} PassStateHidden(items: seq<VideoItem>, hidden: set<Element>)
    ensures PassState(items, hidden).0 == hidden + BadgedTargets(items)
    decreases |items|
  {
    if items != [] {
      var n := |items| - 1;
      var init, t := items[..n], Target(items[n]);
      PassStateHidden(init, hidden);
      BadgedTargetsSnoc(init, items[n]);
      assert init + [items[n]] == items;
      if items[n].membersBadge {
        var before := BadgedTargets(init);
        assert hidden + (before + {t}) == (hidden + before) + {t};
      }
    }
  }

  /** The reference pass counts the badged targets that were not hidden before. */
  lemma {:induction false} PassStateCount(items: seq<VideoItem>, hidden: set<Element>)
    ensures PassState(items, hidden).1 == |BadgedTargets(items) - hidden|
    decreases |items|
  {
    if items != [] {
      var n := |items| - 1;
      var init, t := items[..n], Target(items[n]);
      var before := BadgedTargets(init);
      PassStateCount(init, hidden);
      PassStateHidden(init, hidden);
      BadgedTargetsSnoc(init, items[n]);
      assert init + [items[n]] == items;
      if items[n].membersBadge {
        NewlyHiddenStep(before, hidden, t);
      }
    }
  }

  /** `hideMembersOnlyVideos()` over the items in document order; `hidden` is the set of
      elements whose `display` is already `none`. Returns the new hidden set, the
      `hiddenCount` and whether the count was logged. */
  method HideMembersOnlyVideos(items: seq<VideoItem>, hidden: set<Element>)
      returns (nowHidden: set<Element>, count: nat, logged: bool)
    // exactly the targets of badged items are hidden in addition
    ensures nowHidden == hidden + BadgedTargets(items)
    // the count is the number of distinct targets that were not hidden before
    ensures count == |BadgedTargets(items) - hidden|
    ensures logged <==> count > 0
  {
    nowHidden, count := hidden, 0;
    var i := 0;
    while i < |items|
      invariant 0 <= i <= |items|
      invariant (nowHidden, count) == PassState(items[..i], hidden)
    {
      assert items[..i + 1][..i] == items[..i];
      var t := Target(items[i]);
      if items[i].membersBadge && t !in nowHidden {
        nowHidden := nowHidden + {t};
        count := count + 1;
      }
      i := i + 1;
    }
    assert items[..|items|] == items;
    PassStateHidden(items, hidden);
    PassStateCount(items, hidden);
    logged := count > 0;
  }

  /** Running the pass again on the same items hides nothing more: the count is zero and
      nothing is logged. */
  lemma SecondPassCountsNothing(items: seq<VideoItem>, hidden: set<Element>)
    ensures |BadgedTargets(items) - (hidden + BadgedTargets(items))| == 0
  {
    assert BadgedTargets(items) - (hidden + BadgedTargets(items)) == {};
  }

  /** Two badged videos in the same grid container hide it once and count one. */
  lemma SharedContainerCountsOnce(a: Element, b: Element, container: Element)
    requires container != a && container != b
    ensures BadgedTargets([VideoItem(a, true, Some(container)), VideoItem(b, true, Some(container))]) == {container}
  {
    var items := [VideoItem(a, true, Some(container)), VideoItem(b, true, Some(container))];
    assert items[..1] == [items[0]];
    assert items[..1][..0] == [];
    assert BadgedTargets([]) == {};
    assert BadgedTargets(items[..1]) == {container};
    assert BadgedTargets(items) == BadgedTargets(items[..1]) + {container};
  }
}

=== FILE: migration.dfy ===
/** `migrateSettings`: the additive merge of a stored settings record against a
    default record, with the flag that decides whether the result is written back. */
module Migration {
  import opened Wrappers
  import opened JsonValue

  /** A JSON object's property map. */
  type Record = map<string, Json>

  /** A default schema: feature name to its default sub-record. */
  type Defaults = map<string, Record>

  /** The migrated record and whether anything was added (`hasChanges`). */
  datatype Migrated = Migrated(settings: Record, changed: bool)

  /** The feature value is absent or falsy, so the whole default sub-record replaces it. */
  predicate Missing(v: Option<Json>) {
    !TruthyOpt(v)
  }

  /** The inner loop would use `prop in value` on a truthy non-object: `in` throws a
      TypeError on a primitive, and on an array it would attach named properties
      JSON cannot hold; both are a failed migration here. */
  predicate Unmergeable(v: Option<Json>, d: Record) {
    TruthyOpt(v) && !v.value.JObj? && |d| > 0
  }

  /** The default properties the user's feature value lacks. */
  function MissingProps(v: Option<Json>, d: Record): set<string> {
    if TruthyOpt(v) && v.value.JObj? then d.Keys - v.value.m.Keys else {}
  }

  /** The merged value of one default feature. */
  function MergeFeature(v: Option<Json>, d: Record): (r: Json)
    requires !Unmergeable(v, d)
    ensures Missing(v) ==> r == JObj(d)
    ensures !Missing(v) && !v.value.JObj? ==> r == v.value
    ensures !Missing(v) && v.value.JObj? ==>
      && r.JObj?
      && r.m.Keys == v.value.m.Keys + d.Keys
      && (forall p :: p in v.value.m ==> r.m[p] == v.value.m[p])
      && (forall p :: p in d && p !in v.value.m ==> r.m[p] == d[p])
  {
    if Missing(v) then JObj(d)
    else if !v.value.JObj? then v.value
    else JObj(v.value.m + map p | p in d.Keys - v.value.m.Keys :: d[p])
  }

  /** Some default feature is missing or lacks a property: `hasChanges` ends true. */
  predicate SomethingAdded(user: Record, defaults: Defaults) {
    exists k | k in defaults :: Missing(Lookup(user, k)) || MissingProps(Lookup(user, k), defaults[k]) != {}
  }

  /** `migrateSettings(userSettings, defaultSettings)` on a deep copy of the user record.
      A user value that is not an object, or a feature value the inner loop cannot
      handle, throws. */
  function MigrateSettings(user: Json, defaults: Defaults): (r: Completion<Migrated>)
    ensures r.Normal? <==> user.JObj? && forall k :: k in defaults ==> !Unmergeable(Lookup(user.m, k), defaults[k])
    // nothing is deleted; exactly the default features are added
    ensures r.Normal? ==> r.value.settings.Keys == user.m.Keys + defaults.Keys
    // keys the defaults do not mention survive unchanged
    ensures r.Normal? ==> forall k :: k in user.m && k !in defaults ==> r.value.settings[k] == user.m[k]
    // an absent or falsy feature is replaced wholesale by its default
    ensures r.Normal? ==> forall k :: k in defaults && Missing(Lookup(user.m, k)) ==> r.value.settings[k] == JObj(defaults[k])
    // a present feature keeps every property it has, even a falsy one, and gains the missing ones
    ensures r.Normal? ==> forall k :: k in defaults && !Missing(Lookup(user.m, k)) && user.m[k].JObj? ==>
      && r.value.settings[k].JObj?
      && r.value.settings[k].m.Keys == user.m[k].m.Keys + defaults[k].Keys
      && (forall p :: p in user.m[k].m ==> r.value.settings[k].m[p] == user.m[k].m[p])
      && (forall p :: p in defaults[k] && p !in user.m[k].m ==> r.value.settings[k].m[p] == defaults[k][p])
    // a truthy non-object feature with an empty default record is left alone
    ensures r.Normal? ==> forall k :: k in defaults && !Missing(Lookup(user.m, k)) && !user.m[k].JObj? ==>
      r.value.settings[k] == user.m[k]
    // the write-back happens iff something was added
    ensures r.Normal? ==> (r.value.changed <==> SomethingAdded(user.m, defaults))
  {
    if !user.JObj? then Throw
    else if exists k | k in defaults :: Unmergeable(Lookup(user.m, k), defaults[k]) then Throw
    else
      var settings := map k | k in user.m.Keys + defaults.Keys ::
        if k in defaults then MergeFeature(Lookup(user.m, k), defaults[k]) else user.m[k];
      Normal(Migrated(settings, SomethingAdded(user.m, defaults)))
  }

  /** Re-merging a merged feature against the same default adds nothing. */
  lemma MergeFeatureStable(v: Option<Json>, d: Record)
    requires !Unmergeable(v, d)
    ensures !Unmergeable(Some(MergeFeature(v, d)), d)
    ensures !Missing(Some(MergeFeature(v, d)))
    ensures MissingProps(Some(MergeFeature(v, d)), d) == {}
    ensures MergeFeature(Some(MergeFeature(v, d)), d) == MergeFeature(v, d)
  {
    var r := MergeFeature(v, d);
    if r.JObj? {
      MergeObjectStable(r.m, d);
    }
  }

  /** An object already holding every default property merges to itself. */
  lemma MergeObjectStable(m: Record, d: Record)
    requires d.Keys <= m.Keys
    ensures MissingProps(Some(JObj(m)), d) == {}
    ensures MergeFeature(Some(JObj(m)), d) == JObj(m)
  {
    var r := MergeFeature(Some(JObj(m)), d);
    assert r.m.Keys == m.Keys;
    assert r.m == m;
  }

  /** Migrating a migrated record again with the same defaults adds nothing,
      returns an equal record and asks for no write-back. */
  lemma {:induction false} MigrateIdempotent(user: Json, defaults: Defaults)
    requires MigrateSettings(user, defaults).Normal?
    ensures MigrateSettings(JObj(MigrateSettings(user, defaults).value.settings), defaults)
            == Normal(Migrated(MigrateSettings(user, defaults).value.settings, false))
  {
    var once := MigrateSettings(user, defaults).value.settings;
    assert forall k | k in defaults :: once[k] == MergeFeature(Lookup(user.m, k), defaults[k]);
    forall k | k in defaults
      ensures !Unmergeable(Lookup(once, k), defaults[k])
      ensures !Missing(Lookup(once, k))
      ensures MissingProps(Lookup(once, k), defaults[k]) == {}
      ensures MergeFeature(Lookup(once, k), defaults[k]) == once[k]
    {
      MergeFeatureStable(Lookup(user.m, k), defaults[k]);
    }
    assert !SomethingAdded(once, defaults);
    var twice := MigrateSettings(JObj(once), defaults).value.settings;
    assert twice == once;
  }

  /** A property every default sub-record has is present in every default feature of
      a successful migration. */
  lemma MigratedHasProperty(user: Json, defaults: Defaults, p: string)
    requires MigrateSettings(user, defaults).Normal?
    requires forall k :: k in defaults ==> p in defaults[k]
    ensures forall k :: k in defaults ==>
      k in MigrateSettings(user, defaults).value.settings &&
      Get(MigrateSettings(user, defaults).value.settings[k], p).Some?
  {
    var r := MigrateSettings(user, defaults).value.settings;
    forall k | k in defaults
      ensures k in r && Get(r[k], p).Some?
    {
      assert !Unmergeable(Lookup(user.m, k), defaults[k]);
    }
  }
}

=== FILE: orchestrator.dfy ===
/** The content-script entry point: the settings snapshot it holds, the local four-feature
    defaults it migrates against, the initial apply, the one-time player-listener setup
    and the `updateSettings` message handler. */
module Orchestrator {
  import opened Wrappers
  import opened JsonValue
  import opened Migration
  import opened Storage
  import opened Dispatch

  /** The content script's own defaults: four player features only. */
  const LocalDefaults: Defaults := map[
    "videoQuality" := map["enabled" := JBool(false), "value" := JStr("auto")],
    "videoSpeed" := map["enabled" := JBool(false), "value" := JNum(1.0), "applyToShorts" := JBool(true)],
    "subtitlesPreference" := map["enabled" := JBool(false), "value" := JStr("original")],
    "audioNormalizer" := map["enabled" := JBool(false), "value" := JStr("medium"), "manualActivation" := JBool(false)]]

  function LocalDefaultsJson(): (r: Json)
    ensures r.JObj? && r.m.Keys == LocalDefaults.Keys
    ensures forall k :: k in LocalDefaults ==> r.m[k] == JObj(LocalDefaults[k])
  {
    JObj(map k | k in LocalDefaults :: JObj(LocalDefaults[k]))
  }

  /** The local defaults hold exactly the four player features, all disabled, quality
      `auto`; `volume`, `hideMembersOnlyVideos` and `audioTrack` are absent. */
  lemma LocalDefaultsShape()
    ensures LocalDefaults.Keys == set f: Feature :: Key(f)
    ensures "volume" !in LocalDefaults && "hideMembersOnlyVideos" !in LocalDefaults && "audioTrack" !in LocalDefaults
    ensures forall k :: k in LocalDefaults ==> Lookup(LocalDefaults[k], "enabled") == Some(JBool(false))
    ensures LocalDefaults["videoQuality"]["value"] == JStr("auto")
  {
    assert LocalDefaults.Keys == {Key(VideoQuality), Key(VideoSpeed), Key(SubtitlesPreference), Key(AudioNormalizer)};
    AllPlayerFeatures();
  }

  lemma LocalDefaultsHaveEnabled()
    ensures forall k :: k in LocalDefaults ==> "enabled" in LocalDefaults[k]
  {
    LocalDefaultsShape();
  }

  /** Outside effects, in the order they are issued. */
  datatype Effect =
    | PersistSettings(settings: Json)   // the migration's fire-and-forget write-back
    | PostSettings(settings: Json)      // `YDS_SETTINGS_UPDATE` posted to the page
    | Handle(feature: Feature)          // a feature handler called
    | SetupVideoListener                // `setupVideoPlayerListener()` called

  /** `fetchSettings()`'s outcome: the new snapshot and the write-back the migration issued. */
  datatype Fetched = Fetched(snapshot: Json, writeBack: Option<Json>)

  /** `fetchSettings()`. Unlike `loadExtensionSettings` it has no `catch`: a failed read
      or a migration that throws rejects. */
  function FetchSettings(read: StorageGet): (r: Completion<Fetched>)
    ensures read.GetFailed? ==> r.Throw?
    ensures read.Got? && !TruthyOpt(read.settings) ==> r == Normal(Fetched(LocalDefaultsJson(), None))
    ensures read.Got? && TruthyOpt(read.settings) ==>
      (r.Normal? <==> MigrateSettings(read.settings.value, LocalDefaults).Normal?)
    ensures read.Got? && TruthyOpt(read.settings) && r.Normal? ==>
      var m := MigrateSettings(read.settings.value, LocalDefaults).value;
      r.value.snapshot == JObj(m.settings) && (r.value.writeBack.Some? <==> m.changed)
      && (r.value.writeBack.Some? ==> r.value.writeBack.value == r.value.snapshot)
  {
    match read
    case GetFailed => Throw
    case Got(stored) =>
      if !TruthyOpt(stored) then Normal(Fetched(LocalDefaultsJson(), None))
      else
        match MigrateSettings(stored.value, LocalDefaults)
        case Throw => Throw
        case Normal(m) => Normal(Fetched(JObj(m.settings), if m.changed then Some(JObj(m.settings)) else None))
  }

  /** A fetched snapshot holds every player feature as an object. */
  lemma FetchedFeaturesAreObjects(read: StorageGet)
    requires FetchSettings(read).Normal?
    ensures forall f :: Get(FetchSettings(read).value.snapshot, Key(f)).Some?
                     && Get(FetchSettings(read).value.snapshot, Key(f)).value.JObj?
  {
    LocalDefaultsShape();
    var stored := read.settings;
    if TruthyOpt(stored) {
      LocalDefaultsHaveEnabled();
      MigratedHasProperty(stored.value, LocalDefaults, "enabled");
    }
  }

  /** The `handle...` effects of a list of features, in order. */
  function Handles(fs: seq<Feature>): (r: seq<Effect>)
    ensures |r| == |fs| && forall i :: 0 <= i < |fs| ==> r[i] == Handle(fs[i])
  {
    seq(|fs|, i requires 0 <= i < |fs| => Handle(fs[i]))
  }

  /** The effects issued and whether an exception escaped. */
  datatype Applied = Applied(effects: seq<Effect>, threw: bool)

  /** `applyStoredSettings()`: nothing on a null snapshot; otherwise post the snapshot
      to the page, then test each feature's `enabled` with no optional chaining. */
  function ApplyStoredSettings(snapshot: Option<Json>): (r: Applied)
    ensures !TruthyOpt(snapshot) ==> r == Applied([], false)
    // the post comes first, then exactly the handlers `applyVideoPlayerSettings` would call
    ensures TruthyOpt(snapshot) ==>
      && r.effects == [PostSettings(snapshot.value)] + Handles(ApplyVideoPlayerSettings(snapshot).handlers)
      && r.threw == ApplyVideoPlayerSettings(snapshot).threw
  {
    if !TruthyOpt(snapshot) then Applied([], false)
    else
      AllPlayerFeatures();
      var d := DispatchEach(snapshot.value, PlayerFeatures);
      Applied([PostSettings(snapshot.value)] + Handles(d.handlers), d.threw)
  }

  /** The orchestrator's module state. */
  datatype State = State(snapshot: Option<Json>, listenerInitialized: bool)

  const Initial: State := State(None, false)

  /** One step: the new state, its effects and whether an exception escaped. */
  datatype Step = Step(state: State, effects: seq<Effect>, threw: bool)

  /** `s?.f1.enabled || s?.f2.enabled || ...`: a null snapshot makes every operand
      `undefined`; otherwise the first enabled feature stops the chain and a missing
      one reached before that throws. */
  function AnyEnabled(snapshot: Option<Json>, fs: seq<Feature>): Completion<bool> {
    if snapshot.None? || fs == [] then Normal(false)
    else
      match EnabledRead(snapshot.value, fs[0])
      case Throw => Throw
      case Normal(on) => if on then Normal(true) else AnyEnabled(snapshot, fs[1..])
  }

  /** The `||` chain and the dispatch agree: the chain is true iff some handler is
      dispatched, and it throws iff no handler is dispatched before a read throws. */
  lemma {:induction false} AnyEnabledMatchesDispatch(s: Json, fs: seq<Feature>)
    requires InOrder(fs)
    ensures AnyEnabled(Some(s), fs) == Normal(true) <==> DispatchEach(s, fs).handlers != []
    ensures AnyEnabled(Some(s), fs) == Throw <==> DispatchEach(s, fs).handlers == [] && DispatchEach(s, fs).threw
    decreases |fs|
  {
    if fs != [] && EnabledRead(s, fs[0]).Normal? {
      TailInOrder(fs);
      AnyEnabledMatchesDispatch(s, fs[1..]);
    }
  }

  /** `initializeVideoPlayerListener()`: sets the listener up the first time some player
      feature is enabled, and never again. */
  function InitializeVideoPlayerListener(st: State): (r: Step)
    ensures r.state.snapshot == st.snapshot
    ensures r.effects == [SetupVideoListener] <==> !st.listenerInitialized && AnyEnabled(st.snapshot, PlayerFeatures) == Normal(true)
    ensures r.effects == [] || r.effects == [SetupVideoListener]
    ensures r.state.listenerInitialized <==> st.listenerInitialized || r.effects != []
    ensures r.threw <==> !st.listenerInitialized && AnyEnabled(st.snapshot, PlayerFeatures).Throw?
  {
    if st.listenerInitialized then Step(st, [], false)
    else
      match AnyEnabled(st.snapshot, PlayerFeatures)
      case Throw => Step(st, [], true)
      case Normal(any) =>
        if any then Step(st.(listenerInitialized := true), [SetupVideoListener], false) else Step(st, [], false)
  }

  /** What `initializeFeatures()` does once the snapshot is in place: apply it, then
      set up the listener unless the apply threw. */
  function Start(snapshot: Json, persist: seq<Effect>): (r: Step)
    ensures r.state.snapshot == Some(snapshot)
  {
    var st := State(Some(snapshot), false);
    var a := ApplyStoredSettings(st.snapshot);
    if a.threw then Step(st, persist + a.effects, true)
    else
      var init := InitializeVideoPlayerListener(st);
      Step(init.state, persist + a.effects + init.effects, init.threw)
  }

  /** `initializeFeatures()` on a fresh content script: fetch, apply, then set up the
      listener; a rejection or throw abandons the remaining steps. */
  function InitializeFeatures(read: StorageGet): (r: Step)
    ensures FetchSettings(read).Throw? ==> r == Step(Initial, [], true)
    ensures FetchSettings(read).Normal? ==> r.state.snapshot == Some(FetchSettings(read).value.snapshot)
    // the migration's write-back, when there is one, is issued first
    ensures FetchSettings(read).Normal? && FetchSettings(read).value.writeBack.Some? ==>
      |r.effects| > 0 && r.effects[0] == PersistSettings(FetchSettings(read).value.writeBack.value)
  {
    match FetchSettings(read)
    case Throw => Step(Initial, [], true)
    case Normal(f) =>
      Start(f.snapshot, if f.writeBack.Some? then [PersistSettings(f.writeBack.value)] else [])
  }

  lemma HandleInHandles(hs: seq<Feature>, g: Feature)
    ensures Handle(g) in Handles(hs) <==> g in hs
  {
    if g in hs {
      var i :| 0 <= i < |hs| && hs[i] == g;
      assert Handles(hs)[i] == Handle(g);
    }
  }

  /** Starting from a snapshot that holds every player feature as an object nothing
      throws: exactly the enabled features' handlers are called, and the listener is
      set up iff at least one of them is. */
  lemma StartWellFormed(s: Json, persist: seq<Effect>)
    requires forall f :: Get(s, Key(f)).Some? && Get(s, Key(f)).value.JObj?
    requires forall i :: 0 <= i < |persist| ==> persist[i].PersistSettings?
    ensures !Start(s, persist).threw
    ensures forall f :: Handle(f) in Start(s, persist).effects <==> Enabled(s, f)
    ensures SetupVideoListener in Start(s, persist).effects <==> exists f :: Enabled(s, f)
    ensures Start(s, persist).state.listenerInitialized <==> SetupVideoListener in Start(s, persist).effects
  {
    DispatchWellFormed(s);
    AllPlayerFeatures();
    AnyEnabledMatchesDispatch(s, PlayerFeatures);
    var d := ApplyVideoPlayerSettings(Some(s));
    var init := InitializeVideoPlayerListener(State(Some(s), false));
    assert Start(s, persist).effects == persist + ([PostSettings(s)] + Handles(d.handlers)) + init.effects;
    StartEffects(persist, s, d.handlers, init.effects);
    if d.handlers != [] {
      assert d.handlers[0] in d.handlers;
    }
  }

  /** Where the handler and setup effects of a start-up come from: the persisted
      write-back and the post contribute neither. */
  lemma StartEffects(persist: seq<Effect>, s: Json, hs: seq<Feature>, ie: seq<Effect>)
    requires forall i :: 0 <= i < |persist| ==> persist[i].PersistSettings?
    requires ie == [] || ie == [SetupVideoListener]
    ensures var e := persist + ([PostSettings(s)] + Handles(hs)) + ie;
      (forall g :: Handle(g) in e <==> g in hs) && (SetupVideoListener in e <==> ie != [])
  {
    var e := persist + ([PostSettings(s)] + Handles(hs)) + ie;
    forall g ensures Handle(g) in e <==> g in hs {
      HandleInHandles(hs, g);
    }
    assert forall i :: 0 <= i < |Handles(hs)| ==> Handles(hs)[i].Handle?;
  }

  /** After a successful fetch nothing throws: the enabled features' handlers are called,
      and the listener is set up iff at least one of them is. */
  lemma InitializeFeaturesAfterFetch(read: StorageGet)
    requires FetchSettings(read).Normal?
    ensures !InitializeFeatures(read).threw
    ensures var s := FetchSettings(read).value.snapshot;
      forall f :: Handle(f) in InitializeFeatures(read).effects <==> Enabled(s, f)
    ensures var s := FetchSettings(read).value.snapshot;
      (SetupVideoListener in InitializeFeatures(read).effects <==> exists f :: Enabled(s, f))
    ensures InitializeFeatures(read).state.listenerInitialized <==> SetupVideoListener in InitializeFeatures(read).effects
  {
    var f := FetchSettings(read).value;
    FetchedFeaturesAreObjects(read);
    StartWellFormed(f.snapshot, if f.writeBack.Some? then [PersistSettings(f.writeBack.value)] else []);
  }

  /** `isSettingsMessage(message)`: a truthy message whose `action` is `updateSettings`
      and whose `settings` has `typeof` `'object'` (so `null` and arrays pass). */
  predicate IsSettingsMessage(msg: Json) {
    Truthy(msg) && Get(msg, "action") == Some(JStr("updateSettings"))
    && Get(msg, "settings").Some? && TypeofObject(Get(msg, "settings").value)
  }

  /** Only an object message can pass the guard, and it needs both properties. */
  lemma SettingsMessageShape(msg: Json)
    ensures IsSettingsMessage(msg) <==>
      msg.JObj? && "action" in msg.m && msg.m["action"] == JStr("updateSettings")
      && "settings" in msg.m && (msg.m["settings"].JNull? || msg.m["settings"].JArr? || msg.m["settings"].JObj?)
  {
  }

  /** The `runtime.onMessage` listener. An accepted message replaces the snapshot
      wholesale (a `null` one nulls it) and re-applies; anything else is ignored.
      The listener answers `true` either way. */
  function OnMessage(st: State, msg: Json): (r: Step)
    ensures !IsSettingsMessage(msg) ==> r == Step(st, [], false)
    ensures IsSettingsMessage(msg) ==>
      && r.state.listenerInitialized == st.listenerInitialized
      && (r.state.snapshot.None? <==> msg.m["settings"].JNull?)
      && (r.state.snapshot.Some? ==> r.state.snapshot.value == msg.m["settings"])
      && r.effects == ApplyStoredSettings(r.state.snapshot).effects
    // `settings: null` passes the guard and the apply that follows does nothing
    ensures IsSettingsMessage(msg) && msg.m["settings"].JNull? ==> r.effects == [] && !r.threw
  {
    if !IsSettingsMessage(msg) then Step(st, [], false)
    else
      var s := msg.m["settings"];
      var snapshot := if s.JNull? then None else Some(s);
      var a := ApplyStoredSettings(snapshot);
      Step(st.(snapshot := snapshot), a.effects, a.threw)
  }

  /** The events the orchestrator reacts to after start-up. */
  datatype Event = InitListener | Message(msg: Json)

  function Count(effects: seq<Effect>, e: Effect): nat {
    if effects == [] then 0 else (if effects[0] == e then 1 else 0) + Count(effects[1..], e)
  }

  lemma {:induction false} CountAppend(a: seq<Effect>, b: seq<Effect>, e: Effect)
    ensures Count(a + b, e) == Count(a, e) + Count(b, e)
  {
    if a != [] {
      assert (a + b)[1..] == a[1..] + b;
      CountAppend(a[1..], b, e);
    } else {
      assert a + b == b;
    }
  }

  /** The state and all effects after a sequence of events; a throw ends only the
      handler it happened in. */
  function Run(st: State, evs: seq<Event>): (r: Step)
    decreases |evs|
  {
    if evs == [] then Step(st, [], false)
    else
      var one := match evs[0]
        case InitListener => InitializeVideoPlayerListener(st)
        case Message(m) => OnMessage(st, m);
      var rest := Run(one.state, evs[1..]);
      Step(rest.state, one.effects + rest.effects, one.threw || rest.threw)
  }

  /** Whatever the events, the player listener is set up at most once, and exactly once
      if the run ends with it initialized from an uninitialized start. */
  lemma {:induction false} ListenerSetUpAtMostOnce(st: State, evs: seq<Event>)
    ensures Count(Run(st, evs).effects, SetupVideoListener)
            == if !st.listenerInitialized && Run(st, evs).state.listenerInitialized then 1 else 0
    ensures st.listenerInitialized ==> Run(st, evs).state.listenerInitialized
    decreases |evs|
  {
    if evs != [] {
      var one := match evs[0]
        case InitListener => InitializeVideoPlayerListener(st)
        case Message(m) => OnMessage(st, m);
      ListenerSetUpAtMostOnce(one.state, evs[1..]);
      CountAppend(one.effects, Run(one.state, evs[1..]).effects, SetupVideoListener);
      if evs[0].Message? {
        NoSetupInApply(one.state.snapshot);
      }
    }
  }

  lemma NoSetupInApply(snapshot: Option<Json>)
    ensures Count(ApplyStoredSettings(snapshot).effects, SetupVideoListener) == 0
  {
    var e := ApplyStoredSettings(snapshot).effects;
    if e != [] {
      var hs := e[1..];
      assert e == [e[0]] + hs;
      assert forall i :: 0 <= i < |hs| ==> hs[i].Handle?;
      NoSetupInHandles(hs);
    }
  }

  lemma {:induction false} NoSetupInHandles(hs: seq<Effect>)
    requires forall i :: 0 <= i < |hs| ==> hs[i].Handle?
    ensures Count(hs, SetupVideoListener) == 0
  {
    if hs != [] {
      NoSetupInHandles(hs[1..]);
    }
  }
}

=== FILE: page_observers.dfy ===
/** The page observers that drive the members-only hiding pass: URL dispatch with
    cleanup first, the grid and suggestions mutation observers with their debounce
    timers, and the visibility listener. */
module PageObservers {
  import opened Wrappers
  import opened JsonValue
  import opened Text
  import opened Dispatch
  import Orchestrator

  const ObserversDebounceMs: nat := 100
  const FollowUpMs: nat := 650

  /** What a pending timer will do when it fires. */
  datatype TimerKind = GridDebounce | GridFollowUp | SuggestionsDebounce

  function Delay(k: TimerKind): nat {
    match k
    case GridDebounce => ObserversDebounceMs
    case GridFollowUp => FollowUpMs
    case SuggestionsDebounce => ObserversDebounceMs
  }

  /** The pathnames on which `handleUrlChange` starts the grid observer, besides any
      channel path containing `/@`. */
  const GridPaths: set<string> := {"/", "/feed/subscriptions", "/feed/trending"}

  /** The effects of a URL change, in order. */
  datatype UrlEffect = ObserversCleaned | StartGridObserver | StartSuggestionsObserver

  datatype UrlOutcome = UrlOutcome(effects: seq<UrlEffect>, threw: bool)

  /** `currentSettings?.hideMembersOnlyVideos.enabled && start()`. */
  function StartIfHiding(snapshot: Option<Json>, start: UrlEffect): UrlOutcome {
    if snapshot.None? then UrlOutcome([ObserversCleaned], false)
    else
      match EnabledAt(snapshot.value, "hideMembersOnlyVideos")
      case Throw => UrlOutcome([ObserversCleaned], true)
      case Normal(on) => UrlOutcome(if on then [ObserversCleaned, start] else [ObserversCleaned], false)
  }

  /** The members-only hiding is on in the snapshot. */
  predicate Hiding(snapshot: Option<Json>) {
    snapshot.Some? && EnabledAt(snapshot.value, "hideMembersOnlyVideos") == Normal(true)
  }

  /** Reading the hiding flag throws: a snapshot without a usable `hideMembersOnlyVideos`. */
  predicate HidingReadThrows(snapshot: Option<Json>) {
    snapshot.Some? && EnabledAt(snapshot.value, "hideMembersOnlyVideos").Throw?
  }

  /** `handleUrlChange()` for the pathname and the current snapshot. */
  function HandleUrlChange(path: string, snapshot: Option<Json>): (r: UrlOutcome)
    // the page observers are always cleaned up first, whatever happens next
    ensures |r.effects| >= 1 && r.effects[0] == ObserversCleaned
    // channel pages and the three feed pages start the grid observer iff hiding is on
    ensures Contains(path, "/@") || path in GridPaths ==>
      (r.effects == [ObserversCleaned, StartGridObserver] <==> Hiding(snapshot))
      && (r.effects == [ObserversCleaned] <==> !Hiding(snapshot))
      && (r.threw <==> HidingReadThrows(snapshot))
    // the watch page starts the suggestions observer iff hiding is on
    ensures path == "/watch" ==>
      (r.effects == [ObserversCleaned, StartSuggestionsObserver] <==> Hiding(snapshot))
      && (r.effects == [ObserversCleaned] <==> !Hiding(snapshot))
      && (r.threw <==> HidingReadThrows(snapshot))
    // every other path (search, history, playlist, embed, ...) only cleans up
    ensures !Contains(path, "/@") && path !in GridPaths && path != "/watch" ==> r == UrlOutcome([ObserversCleaned], false)
  {
    WatchIsNotChannel();
    if Contains(path, "/@") then StartIfHiding(snapshot, StartGridObserver)
    else if path == "/results" then UrlOutcome([ObserversCleaned], false)
    else if path in GridPaths then StartIfHiding(snapshot, StartGridObserver)
    else if path == "/watch" then StartIfHiding(snapshot, StartSuggestionsObserver)
    else UrlOutcome([ObserversCleaned], false)
  }

  lemma WatchIsNotChannel()
    ensures !Contains("/watch", "/@")
  {
    if Contains("/watch", "/@") {
      ContainsKeepsChars("/watch", "/@", '@');
    }
  }

  /** A channel path is routed as a channel even when it also looks like another page. */
  lemma ChannelWins(path: string)
    requires Contains(path, "/@")
    ensures HandleUrlChange(path, None) == UrlOutcome([ObserversCleaned], false)
    ensures forall s :: HandleUrlChange(path, s) == HandleUrlChange("/@" + path, s)
  {
    assert OccursAt("/@" + path, "/@", 0);
  }

  /** With no snapshot nothing but the cleanup happens, on any path. */
  lemma NoSnapshotOnlyCleansUp(path: string)
    ensures HandleUrlChange(path, None) == UrlOutcome([ObserversCleaned], false)
  {
  }

  /** With the content script's local defaults as the snapshot, which lack
      `hideMembersOnlyVideos`, every page that would start an observer throws after the
      cleanup, and every other page only cleans up. */
  lemma LocalDefaultsUrlChange(path: string)
    ensures var o := HandleUrlChange(path, Some(Orchestrator.LocalDefaultsJson()));
      o.effects == [ObserversCleaned]
      && (o.threw <==> Contains(path, "/@") || path in GridPaths || path == "/watch")
  {
    Orchestrator.LocalDefaultsShape();
    assert Get(Orchestrator.LocalDefaultsJson(), "hideMembersOnlyVideos").None?;
  }

  /** The page-observer state. */
  datatype State = State(
    gridObservers: nat,               // pageGridObservers, one per grid
    parentObserving: bool,            // pageGridParentObserver attached
    leakedGridObservers: nat,         // parent observers overwritten without a disconnect
    gridWaiting: nat,                 // pageVideosObserver calls awaiting the first grid
    gridDebounce: Option<nat>,        // pageVideosDebounceTimer
    suggestionsObserving: bool,       // suggestedVideosObserver attached
    leakedSuggestionsObservers: nat,  // sidebar observers overwritten without a disconnect
    suggestionsWaiting: nat,          // suggestedVidsObserver calls awaiting the sidebar
    suggestionsDebounce: Option<nat>, // suggestedVideosDebounceTimer
    pending: map<nat, TimerKind>,     // timers scheduled and neither cleared nor fired
    nextTimer: nat,
    visibilityListener: bool)

  const Initial: State := State(0, false, 0, 0, None, false, 0, 0, None, map[], 1, false)

  /** Some grid mutation observer the module still holds is attached, on a grid or on
      the grid parent; these are the ones a cleanup disconnects. */
  predicate GridObserving(s: State) {
    s.gridObservers > 0 || s.parentObserving
  }

  /** Some observer calls the grid debounce handler: a held one or a leaked one. */
  predicate GridWatched(s: State) {
    GridObserving(s) || s.leakedGridObservers > 0
  }

  /** Some observer schedules the sidebar debounce: the held one or a leaked one. */
  predicate SuggestionsWatched(s: State) {
    s.suggestionsObserving || s.leakedSuggestionsObservers > 0
  }

  /** The pending timers of one kind. */
  function TimersIn(pending: map<nat, TimerKind>, k: TimerKind): set<nat> {
    set t | t in pending && pending[t] == k
  }

  function TimersOf(s: State, k: TimerKind): set<nat> {
    TimersIn(s.pending, k)
  }

  lemma TimersRemove(pending: map<nat, TimerKind>, id: nat)
    ensures forall k :: TimersIn(pending - {id}, k) == TimersIn(pending, k) - {id}
  {
  }

  lemma TimersAdd(pending: map<nat, TimerKind>, id: nat, kind: TimerKind)
    requires id !in pending
    ensures TimersIn(pending[id := kind], kind) == TimersIn(pending, kind) + {id}
    ensures forall k :: k != kind ==> TimersIn(pending[id := kind], k) == TimersIn(pending, k)
  {
  }

  /** Each debounce variable names the only pending debounce timer of its kind, and a
      debounce is only pending while its observer is attached. */
  predicate Inv(s: State) {
    && TimersOf(s, GridDebounce) == (if s.gridDebounce.Some? then {s.gridDebounce.value} else {})
    && TimersOf(s, SuggestionsDebounce) == (if s.suggestionsDebounce.Some? then {s.suggestionsDebounce.value} else {})
    && (s.gridDebounce.Some? ==> GridWatched(s))
    && (s.suggestionsDebounce.Some? ==> SuggestionsWatched(s))
    && (forall t :: t in s.pending ==> 0 < t < s.nextTimer)
    && s.nextTimer > 0
  }

  lemma InitialInv()
    ensures Inv(Initial)
  {
  }

  /** `cleanupPageVideosObserver()`: disconnect the grid observers and clear the debounce
      timer. The follow-up timers, the leaked observers and an await in progress are not
      touched. */
  function CleanupPageVideos(s: State): (r: State)
    ensures !GridObserving(r) && r.gridDebounce.None? && TimersOf(r, GridDebounce) == {}
    ensures Inv(s) ==> Inv(r)
    ensures TimersOf(r, GridFollowUp) == TimersOf(s, GridFollowUp)
    ensures TimersOf(r, SuggestionsDebounce) == TimersOf(s, SuggestionsDebounce)
    ensures r.gridWaiting == s.gridWaiting && r.nextTimer == s.nextTimer
    ensures r.leakedGridObservers == s.leakedGridObservers && r.leakedSuggestionsObservers == s.leakedSuggestionsObservers
    ensures r.suggestionsObserving == s.suggestionsObserving && r.suggestionsDebounce == s.suggestionsDebounce
    ensures r.suggestionsWaiting == s.suggestionsWaiting && r.visibilityListener == s.visibilityListener
  {
    var pending := map t | t in s.pending && s.pending[t] != GridDebounce :: s.pending[t];
    s.(gridObservers := 0, parentObserving := false, gridDebounce := None, pending := pending)
  }

  /** `cleanupSuggestedVideosObserver()`. */
  function CleanupSuggestions(s: State): (r: State)
    ensures !r.suggestionsObserving && r.suggestionsDebounce.None? && TimersOf(r, SuggestionsDebounce) == {}
    ensures Inv(s) ==> Inv(r)
    ensures TimersOf(r, GridFollowUp) == TimersOf(s, GridFollowUp)
    ensures TimersOf(r, GridDebounce) == TimersOf(s, GridDebounce)
    ensures r.gridObservers == s.gridObservers && r.parentObserving == s.parentObserving && r.gridDebounce == s.gridDebounce
    ensures r.gridWaiting == s.gridWaiting && r.suggestionsWaiting == s.suggestionsWaiting
    ensures r.leakedGridObservers == s.leakedGridObservers && r.leakedSuggestionsObservers == s.leakedSuggestionsObservers
    ensures r.nextTimer == s.nextTimer && r.visibilityListener == s.visibilityListener
  {
    var pending := map t | t in s.pending && s.pending[t] != SuggestionsDebounce :: s.pending[t];
    s.(suggestionsObserving := false, suggestionsDebounce := None, pending := pending)
  }

  /** `observersCleanup()`: both debounces cleared, only follow-ups may remain pending. */
  function ObserversCleanup(s: State): (r: State)
    ensures !GridObserving(r) && !r.suggestionsObserving
    ensures TimersOf(r, GridDebounce) == {} && TimersOf(r, SuggestionsDebounce) == {}
    ensures TimersOf(r, GridFollowUp) == TimersOf(s, GridFollowUp)
    ensures Inv(s) ==> Inv(r)
  {
    CleanupSuggestions(CleanupPageVideos(s))
  }

  /** `clearTimeout(t)` when a timer is recorded. */
  function Cancel(pending: map<nat, TimerKind>, t: Option<nat>): (r: map<nat, TimerKind>)
    ensures forall k :: TimersIn(r, k) == TimersIn(pending, k) - (if t.Some? then {t.value} else {})
    ensures r.Keys <= pending.Keys
  {
    if t.Some? then TimersRemove(pending, t.value); pending - {t.value} else pending
  }

  /** `setTimeout` of the given kind: a fresh id is added to the pending timers. */
  function ScheduleFresh(s: State, k: TimerKind): (r: State)
    ensures r.nextTimer == s.nextTimer + 1 && r.pending == s.pending[s.nextTimer := k]
    ensures (forall t :: t in s.pending ==> t < s.nextTimer) ==>
      TimersOf(r, k) == TimersOf(s, k) + {s.nextTimer}
      && forall k' :: k' != k ==> TimersOf(r, k') == TimersOf(s, k')
    ensures r.gridObservers == s.gridObservers && r.parentObserving == s.parentObserving
    ensures r.suggestionsObserving == s.suggestionsObserving
    ensures r.gridWaiting == s.gridWaiting && r.suggestionsWaiting == s.suggestionsWaiting
    ensures r.leakedGridObservers == s.leakedGridObservers && r.leakedSuggestionsObservers == s.leakedSuggestionsObservers
    ensures r.gridDebounce == s.gridDebounce && r.suggestionsDebounce == s.suggestionsDebounce
    ensures r.visibilityListener == s.visibilityListener
  {
    if forall t :: t in s.pending ==> t < s.nextTimer then TimersAdd(s.pending, s.nextTimer, k); Schedule(s, k)
    else Schedule(s, k)
  }

  function Schedule(s: State, k: TimerKind): (r: State)
    ensures r.pending == s.pending[s.nextTimer := k] && r.nextTimer == s.nextTimer + 1
  {
    s.(pending := s.pending[s.nextTimer := k], nextTimer := s.nextTimer + 1)
  }

  /** The state, the number of `hideMembersOnlyVideos()` passes run, and whether an
      exception escaped. */
  datatype Step = Step(state: State, hidePasses: nat, threw: bool)

  /** `pageVideosObserver()` with `grids` grids present now: clean up; with no grid,
      add one more wait for the first one (whether or not the grid parent is there);
      otherwise run one hiding pass and attach one observer per grid, then observe the
      grid parent when it is present. */
  function PageVideosObserver(s: State, grids: nat, parent: bool): (r: Step)
    ensures !r.threw && TimersOf(r.state, GridDebounce) == {}
    // no grid yet: nothing is observed and no pass runs until the grid appears
    ensures grids == 0 ==> r.hidePasses == 0 && r.state.gridWaiting == s.gridWaiting + 1 && !GridObserving(r.state)
    ensures grids > 0 ==>
      && r.hidePasses == grids && r.state.gridObservers == grids
      && (r.state.parentObserving <==> parent) && r.state.gridWaiting == s.gridWaiting
    ensures r.state.leakedGridObservers == s.leakedGridObservers
    ensures Inv(s) ==> Inv(r.state)
  {
    var c := CleanupPageVideos(s);
    if grids == 0 then Step(c.(gridWaiting := c.gridWaiting + 1), 0, false)
    else Step(AttachGrids(c, grids, parent), grids, false)
  }

  /** One attach step after the grids are found: one observer per grid is added, and the
      parent observer is set when the parent is present; a parent observer already held
      is overwritten without a disconnect and keeps running. */
  function AttachGrids(s: State, grids: nat, parent: bool): (r: State)
    requires grids > 0
    ensures r.gridObservers == s.gridObservers + grids && GridObserving(r)
    ensures r.parentObserving <==> s.parentObserving || parent
    ensures r.leakedGridObservers == s.leakedGridObservers + (if parent && s.parentObserving then 1 else 0)
    ensures r.(gridObservers := s.gridObservers, parentObserving := s.parentObserving,
               leakedGridObservers := s.leakedGridObservers) == s
    ensures Inv(s) ==> Inv(r)
  {
    s.(gridObservers := s.gridObservers + grids, parentObserving := s.parentObserving || parent,
       leakedGridObservers := s.leakedGridObservers + if parent && s.parentObserving then 1 else 0)
  }

  /** The `k` awaiting `pageVideosObserver()` calls resuming one after the other, each
      running its attach step on the same grids: every call adds its observers, and each
      parent observer after the first held one replaces and leaks its predecessor. */
  function ResolveGridWaits(s: State, grids: nat, parent: bool, k: nat): (r: State)
    requires grids > 0
    ensures r.gridObservers == s.gridObservers + k * grids
    ensures r.parentObserving <==> s.parentObserving || (parent && k > 0)
    ensures r.leakedGridObservers == s.leakedGridObservers
      + (if parent && k > 0 then k - 1 + (if s.parentObserving then 1 else 0) else 0)
    ensures r.(gridObservers := s.gridObservers, parentObserving := s.parentObserving,
               leakedGridObservers := s.leakedGridObservers) == s
    ensures Inv(s) ==> Inv(r)
    decreases k
  {
    if k == 0 then s
    else
      var r := ResolveGridWaits(AttachGrids(s, grids, parent), grids, parent, k - 1);
      assert k * grids == grids + (k - 1) * grids;
      r
  }

  /** The events the page-observer machine sees. */
  datatype Event =
    | UrlChanged(path: string, snapshot: Option<Json>, gridsNow: nat, parentNow: bool)
    | GridsAppeared(grids: nat, parent: bool)   // the awaited grid shows up
    | SuggestionsAppeared                       // the awaited sidebar list shows up
    | GridMutation
    | SuggestionsMutation
    | TimerFired(id: nat)
    | SetupVisibility
    | VisibilityChanged(visible: bool, snapshot: Option<Json>)

  /** A grid mutation: cancel the pending debounce and schedule a fresh 100 ms one. */
  function HandleGridMutation(s: State): (r: State)
    ensures r.gridDebounce == Some(s.nextTimer)
    ensures Inv(s) ==> TimersOf(r, GridDebounce) == {s.nextTimer} && TimersOf(r, GridFollowUp) == TimersOf(s, GridFollowUp)
    ensures Inv(s) && GridWatched(s) ==> Inv(r)
  {
    ScheduleFresh(s.(pending := Cancel(s.pending, s.gridDebounce)), GridDebounce).(gridDebounce := Some(s.nextTimer))
  }

  function HandleSuggestionsMutation(s: State): (r: State)
    ensures r.suggestionsDebounce == Some(s.nextTimer)
    ensures Inv(s) ==> TimersOf(r, SuggestionsDebounce) == {s.nextTimer} && TimersOf(r, GridFollowUp) == TimersOf(s, GridFollowUp)
    ensures Inv(s) && SuggestionsWatched(s) ==> Inv(r)
  {
    ScheduleFresh(s.(pending := Cancel(s.pending, s.suggestionsDebounce)), SuggestionsDebounce).(suggestionsDebounce := Some(s.nextTimer))
  }

  /** A pending timer fires: a grid debounce runs a pass and schedules the untracked
      650 ms follow-up; a follow-up or a suggestions debounce runs one pass. */
  function FireTimer(s: State, id: nat): (r: Step)
    ensures id !in s.pending ==> r == Step(s, 0, false)
    ensures id in s.pending ==> r.hidePasses == 1
    ensures Inv(s) && id in s.pending ==> id !in r.state.pending
    ensures Inv(s) && id in s.pending && s.pending[id] == GridDebounce ==>
      TimersOf(r.state, GridFollowUp) == TimersOf(s, GridFollowUp) + {s.nextTimer}
    ensures Inv(s) ==> Inv(r.state)
    ensures !r.threw
  {
    if id !in s.pending then Step(s, 0, false)
    else
      TimersRemove(s.pending, id);
      assert id in TimersOf(s, s.pending[id]);
      var rest := s.(pending := s.pending - {id});
      match s.pending[id]
      case GridDebounce =>
        Step(ScheduleFresh(rest, GridFollowUp).(gridDebounce := None), 1, false)
      case GridFollowUp => Step(rest, 1, false)
      case SuggestionsDebounce => Step(rest.(suggestionsDebounce := None), 1, false)
  }

  /** The visibility listener: a pass when the tab becomes visible and hiding is on. */
  function OnVisibilityChange(s: State, visible: bool, snapshot: Option<Json>): (r: Step)
    ensures r.state == s
    ensures r.hidePasses > 0 <==> s.visibilityListener && visible && Hiding(snapshot)
    ensures r.threw <==> s.visibilityListener && visible && HidingReadThrows(snapshot)
  {
    if !s.visibilityListener || !visible || snapshot.None? then Step(s, 0, false)
    else
      match EnabledAt(snapshot.value, "hideMembersOnlyVideos")
      case Throw => Step(s, 0, true)
      case Normal(on) => Step(s, if on then 1 else 0, false)
  }

  function Next(s: State, ev: Event): (r: Step)
    ensures Inv(s) ==> Inv(r.state)
  {
    match ev
    case UrlChanged(path, snapshot, gridsNow, parentNow) =>
      var c := ObserversCleanup(s);
      var o := HandleUrlChange(path, snapshot);
      if o.effects == [ObserversCleaned, StartGridObserver] then PageVideosObserver(c, gridsNow, parentNow)
      else if o.effects == [ObserversCleaned, StartSuggestionsObserver] then
        Step(CleanupSuggestions(c).(suggestionsWaiting := c.suggestionsWaiting + 1), 0, false)
      else Step(c, 0, o.threw)
    case GridsAppeared(grids, parent) =>
      if s.gridWaiting > 0 && grids > 0 then
        Step(ResolveGridWaits(s, grids, parent, s.gridWaiting).(gridWaiting := 0), s.gridWaiting * grids, false)
      else Step(s, 0, false)
    case SuggestionsAppeared =>
      if s.suggestionsWaiting > 0 then Step(SuggestionsAttach(s), s.suggestionsWaiting, false)
      else Step(s, 0, false)
    case GridMutation =>
      Step(if GridWatched(s) then HandleGridMutation(s) else s, 0, false)
    case SuggestionsMutation =>
      Step(if SuggestionsWatched(s) then HandleSuggestionsMutation(s) else s, 0, false)
    case TimerFired(id) => FireTimer(s, id)
    case SetupVisibility => Step(s.(visibilityListener := true), 0, false)
    case VisibilityChanged(visible, snapshot) => OnVisibilityChange(s, visible, snapshot)
  }

  /** The awaiting `suggestedVidsObserver()` calls all resume when the sidebar list
      shows up: each runs a pass and creates an observer, and each observer but the last
      one stored replaces and leaks its predecessor. */
  function SuggestionsAttach(s: State): (r: State)
    requires s.suggestionsWaiting > 0
    ensures r.suggestionsObserving && r.suggestionsWaiting == 0
    ensures r.leakedSuggestionsObservers == s.leakedSuggestionsObservers + s.suggestionsWaiting - 1
      + (if s.suggestionsObserving then 1 else 0)
    ensures Inv(s) ==> Inv(r)
  {
    s.(suggestionsWaiting := 0, suggestionsObserving := true,
       leakedSuggestionsObservers := s.leakedSuggestionsObservers + s.suggestionsWaiting - 1
         + if s.suggestionsObserving then 1 else 0)
  }

  /** A grid page whose grid has not rendered yet waits, even with the grid parent
      present; when the grid shows up, each pending wait, this one included, attaches:
      every grid gets a pass and an observer per wait, and the parent is observed if it
      is there by then, the parent observers of all but the last attach leaking. */
  lemma WaitThenAttach(s: State, parentBefore: bool, grids: nat, parentAfter: bool)
    requires grids > 0
    ensures var waiting := PageVideosObserver(s, 0, parentBefore);
      var k := s.gridWaiting + 1;
      var appeared := Next(waiting.state, GridsAppeared(grids, parentAfter));
      && waiting.hidePasses == 0 && !GridObserving(waiting.state)
      && appeared.hidePasses == k * grids && appeared.state.gridWaiting == 0
      && appeared.state.gridObservers == k * grids && (appeared.state.parentObserving <==> parentAfter)
      && appeared.state.leakedGridObservers == s.leakedGridObservers + (if parentAfter then k - 1 else 0)
  {
  }

  /** Two grid-page visits before the grid renders: both waits attach when it appears,
      so every grid gets two passes and two observers, and with the parent present the
      first parent observer is overwritten without a disconnect. */
  lemma TwoWaitsAttachTwice(s: State, grids: nat, parent: bool)
    requires grids > 0 && s.gridWaiting == 0
    ensures var first := PageVideosObserver(s, 0, false).state;
      var second := PageVideosObserver(first, 0, false).state;
      var appeared := Next(second, GridsAppeared(grids, parent));
      && appeared.hidePasses == 2 * grids && appeared.state.gridObservers == 2 * grids
      && appeared.state.leakedGridObservers == s.leakedGridObservers + (if parent then 1 else 0)
  {
  }

  /** A leaked observer outlives every cleanup: after a URL change, a grid mutation it
      reports still schedules a debounce. */
  lemma LeakedObserverOutlivesCleanup(s: State, path: string, snapshot: Option<Json>, grids: nat, parent: bool)
    requires Inv(s) && s.leakedGridObservers > 0
    ensures var after := Next(s, UrlChanged(path, snapshot, grids, parent)).state;
      Next(after, GridMutation).state.gridDebounce == Some(after.nextTimer)
  {
  }

  /** A URL change drops every debounce scheduled before it, whatever the path; the
      grid follow-ups already scheduled stay pending. */
  lemma UrlChangeCleansFirst(s: State, path: string, snapshot: Option<Json>, grids: nat, parent: bool)
    requires Inv(s)
    ensures var r := Next(s, UrlChanged(path, snapshot, grids, parent)).state;
      TimersOf(r, GridDebounce) == {} && TimersOf(r, SuggestionsDebounce) == {}
      && TimersOf(r, GridFollowUp) == TimersOf(s, GridFollowUp)
  {
    var c := ObserversCleanup(s);
    var o := HandleUrlChange(path, snapshot);
    if o.effects == [ObserversCleaned, StartSuggestionsObserver] {
      var r := CleanupSuggestions(c).(suggestionsWaiting := c.suggestionsWaiting + 1);
      assert TimersOf(r, GridFollowUp) == TimersOf(CleanupSuggestions(c), GridFollowUp);
    } else if o.effects == [ObserversCleaned, StartGridObserver] {
      var r := PageVideosObserver(c, grids, parent).state;
      assert TimersOf(r, GridFollowUp) == TimersOf(CleanupPageVideos(c), GridFollowUp);
      assert TimersOf(r, SuggestionsDebounce) == TimersOf(CleanupPageVideos(c), SuggestionsDebounce);
    }
  }

  /** A run of `n` events, all grid mutations. */
  function Mutations(s: State, n: nat): (r: State)
    decreases n
  {
    if n == 0 then s else Mutations(Next(s, GridMutation).state, n - 1)
  }

  /** However many grid mutations arrive while the grid is observed, one debounce timer
      is pending and no pass has run. */
  lemma {:induction false} BurstCoalesces(s: State, n: nat)
    requires Inv(s) && GridObserving(s) && n > 0
    ensures var r := Mutations(s, n);
      Inv(r) && GridObserving(r) && |TimersOf(r, GridDebounce)| == 1
      && TimersOf(r, GridFollowUp) == TimersOf(s, GridFollowUp)
    decreases n
  {
    var one := Next(s, GridMutation).state;
    assert one == HandleGridMutation(s);
    if n > 1 {
      BurstCoalesces(one, n - 1);
    }
  }

  /** The 650 ms follow-up scheduled by a grid debounce outlives the cleanup of a URL
      change: it still fires and runs its pass. */
  lemma FollowUpSurvivesCleanup(s: State, id: nat, path: string, snapshot: Option<Json>, grids: nat, parent: bool)
    requires Inv(s) && id in s.pending && s.pending[id] == GridDebounce
    ensures var fired := Next(s, TimerFired(id)).state;
      var follow := s.nextTimer;
      var after := Next(fired, UrlChanged(path, snapshot, grids, parent)).state;
      follow in after.pending && after.pending[follow] == GridFollowUp
      && Next(after, TimerFired(follow)).hidePasses == 1
  {
    var fired := FireTimer(s, id).state;
    assert Next(s, TimerFired(id)).state == fired;
    assert s.nextTimer in TimersOf(fired, GridFollowUp);
    UrlChangeCleansFirst(fired, path, snapshot, grids, parent);
    var after := Next(fired, UrlChanged(path, snapshot, grids, parent)).state;
    assert s.nextTimer in TimersOf(after, GridFollowUp);
    assert Next(after, TimerFired(s.nextTimer)) == FireTimer(after, s.nextTimer);
  }
}

=== FILE: pages.dfy ===
/** Pathname classification: the three exact-match page predicates. */
module Pages {
  import opened Text

  predicate IsHomePage(path: string) {
    path == "/"
  }

  predicate IsSearchPage(path: string) {
    path == "/results"
  }

  predicate IsSubscriptionsPage(path: string) {
    path == "/feed/subscriptions"
  }

  /** Each predicate matches exactly one pathname, at most one of them holds, and a
      trailing slash added to any non-empty path defeats all three. */
  lemma PagesExclusive(path: string)
    ensures IsHomePage(path) ==> !IsSearchPage(path) && !IsSubscriptionsPage(path)
    ensures IsSearchPage(path) ==> !IsSubscriptionsPage(path)
    ensures path != "" ==>
      !IsHomePage(path + "/") && !IsSearchPage(path + "/") && !IsSubscriptionsPage(path + "/")
  {
    if path != "" {
      var p := path + "/";
      assert p[|p| - 1] == '/';
      assert |p| >= 2;
    }
  }

  /** A query string or a sub-path is a different pathname: `/results?x` and
      `/feed/subscriptions/x` match nothing. */
  lemma PagesExactMatch(suffix: string)
    requires suffix != ""
    ensures !IsSearchPage("/results" + suffix) && !IsSubscriptionsPage("/feed/subscriptions" + suffix)
    ensures !IsHomePage("/" + suffix)
  {
    assert |"/results" + suffix| > |"/results"|;
    assert |"/feed/subscriptions" + suffix| > |"/feed/subscriptions"|;
  }
}

=== FILE: quality_script.dfy ===
/** The video-quality page script: picking a quality from the player's available levels
    over the fixed nine-level order, and the decision flow of `setVideoQuality`. */
module QualityScript {
  import opened Wrappers
  import opened JsonValue
  import opened Text
  import opened Blob

  /** The quality levels from lowest to highest, each with its display label. */
  const QualityOrder: seq<(string, string)> := [
    ("tiny", "144p"), ("small", "240p"), ("medium", "360p"), ("large", "480p"),
    ("hd720", "720p"), ("hd1080", "1080p"), ("hd1440", "2K"), ("hd2160", "4K"), ("highres", "8K")]

  function KeyAt(i: nat): string
    requires i < |QualityOrder|
  {
    QualityOrder[i].0
  }

  predicate IsQualityKey(k: string) {
    exists i | 0 <= i < |QualityOrder| :: KeyAt(i) == k
  }

  /** `order.indexOf(k)`: the position of `k` in the order, or -1. */
  function IndexOf(k: string): (r: int)
    ensures -1 <= r < |QualityOrder|
    ensures r == -1 <==> !IsQualityKey(k)
    ensures r >= 0 ==> KeyAt(r) == k && forall i :: 0 <= i < r ==> KeyAt(i) != k
  {
    IndexFrom(k, 0)
  }

  function IndexFrom(k: string, from: nat): (r: int)
    requires from <= |QualityOrder|
    ensures -1 <= r < |QualityOrder|
    ensures r == -1 <==> forall i :: from <= i < |QualityOrder| ==> KeyAt(i) != k
    ensures r >= 0 ==> from <= r && KeyAt(r) == k && forall i :: from <= i < r ==> KeyAt(i) != k
    decreases |QualityOrder| - from
  {
    if from == |QualityOrder| then -1
    else if KeyAt(from) == k then from
    else IndexFrom(k, from + 1)
  }

  /** `available[0] || null`: the first listed level, unless the list is empty or that
      entry is the empty string. */
  function FirstOrNull(available: seq<string>): (r: Option<string>)
    ensures r.Some? <==> |available| > 0 && available[0] != ""
    ensures r.Some? ==> r.value == available[0]
  {
    if |available| > 0 && available[0] != "" then Some(available[0]) else None
  }

  /** The highest level strictly below position `i` that is available. */
  function BestBelow(i: nat, available: seq<string>): (r: Option<nat>)
    requires i <= |QualityOrder|
    ensures r.Some? ==>
      r.value < i && KeyAt(r.value) in available && forall k :: r.value < k < i ==> KeyAt(k) !in available
    ensures r.None? ==> forall k :: 0 <= k < i ==> KeyAt(k) !in available
    decreases i
  {
    if i == 0 then None
    else if KeyAt(i - 1) in available then Some(i - 1)
    else BestBelow(i - 1, available)
  }

  /** `getClosestAvailableQuality`. */
  function Closest(preferred: string, available: seq<string>): (r: Option<string>)
    // an available preference is taken as is
    ensures preferred in available ==> r == Some(preferred)
    // an unknown preference falls back to the first listed level
    ensures preferred !in available && !IsQualityKey(preferred) ==> r == FirstOrNull(available)
    // otherwise: the highest available level below the preference ...
    ensures preferred !in available && IsQualityKey(preferred)
            && (exists j :: 0 <= j < IndexOf(preferred) && KeyAt(j) in available) ==>
      exists j :: 0 <= j < IndexOf(preferred) && r == Some(KeyAt(j))
        && forall k :: j < k < IndexOf(preferred) ==> KeyAt(k) !in available
    // ... and the first listed one when there is none below
    ensures preferred !in available && IsQualityKey(preferred)
            && (forall j :: 0 <= j < IndexOf(preferred) ==> KeyAt(j) !in available) ==>
      r == FirstOrNull(available)
    // a result is always one of the available levels, and there is none without them
    ensures r.Some? ==> r.value in available
    ensures available == [] ==> r.None?
  {
    if preferred in available then Some(preferred)
    else
      var p := IndexOf(preferred);
      if p == -1 then FirstOrNull(available)
      else match BestBelow(p, available)
        case Some(j) => Some(KeyAt(j))
        case None => FirstOrNull(available)
  }

  /** The fallback is the first listed level, which may lie above the preference: with
      `tiny` preferred and `[hd720, small]` available the result is `hd720`. */
  lemma ClosestFallbackMayBeHigher()
    ensures Closest("tiny", ["hd720", "small"]) == Some("hd720")
    ensures Closest("hd1080", ["hd720", "small"]) == Some("hd720")
    ensures Closest("4k", ["hd720", "small"]) == Some("hd720")
  {
    assert IndexOf("tiny") == 0;
    assert IndexOf("hd1080") == 5 by {
      assert KeyAt(5) == "hd1080";
    }
    assert !IsQualityKey("4k");
  }

  /** A custom-order entry matches when it is a string among the available levels. */
  predicate IsAvailable(entry: Json, available: seq<string>) {
    entry.JStr? && entry.s in available
  }

  /** `getPreferredAvailableQuality`: the first entry of the preference list that is
      available, else the first listed level. */
  function PreferredAvailable(prefs: seq<Json>, available: seq<string>): (r: Option<string>)
    ensures (exists i :: 0 <= i < |prefs| && IsAvailable(prefs[i], available)) ==>
      exists i :: 0 <= i < |prefs| && IsAvailable(prefs[i], available) && r == Some(prefs[i].s)
        && forall k :: 0 <= k < i ==> !IsAvailable(prefs[k], available)
    ensures (forall i :: 0 <= i < |prefs| ==> !IsAvailable(prefs[i], available)) ==> r == FirstOrNull(available)
    ensures r.Some? ==> r.value in available
    decreases |prefs|
  {
    if prefs == [] then FirstOrNull(available)
    else if IsAvailable(prefs[0], available) then Some(prefs[0].s)
    else
      var r := PreferredAvailable(prefs[1..], available);
      assert forall i :: 1 <= i < |prefs| ==> prefs[i] == prefs[1..][i - 1];
      r
  }

  /** `getQualityLabel`: the label of a known level, anything else unchanged. */
  function Label(k: string): (r: string)
    ensures IsQualityKey(k) ==> r == QualityOrder[IndexOf(k)].1
    ensures !IsQualityKey(k) ==> r == k
  {
    var i := IndexOf(k);
    if i >= 0 then QualityOrder[i].1 else k
  }

  /** The labels tell the levels apart, so the label of a level names it. */
  lemma LabelsDistinct(a: string, b: string)
    requires IsQualityKey(a) && IsQualityKey(b) && a != b
    ensures Label(a) != Label(b)
  {
    assert forall p, q :: 0 <= p < q < |QualityOrder| ==> QualityOrder[p].1 != QualityOrder[q].1;
  }

  /** The player element the script looks for: the Shorts player under `/shorts...`, the
      channel player under `/@...`, the main player elsewhere. */
  function PlayerTargetId(path: string): (r: string)
    ensures StartsWith(path, "/shorts") ==> r == "shorts-player"
    ensures !StartsWith(path, "/shorts") && StartsWith(path, "/@") ==> r == "c4-player"
    ensures !StartsWith(path, "/shorts") && !StartsWith(path, "/@") ==> r == "movie_player"
  {
    if StartsWith(path, "/shorts") then "shorts-player"
    else if StartsWith(path, "/@") then "c4-player"
    else "movie_player"
  }

  /** What the player offers: whether `getAvailableQualityLevels` exists and what it
      lists, `getPlaybackQuality()` when it exists, and whether `setPlaybackQualityRange`
      exists. */
  datatype QualityPlayer = QualityPlayer(canList: bool, available: seq<string>, current: Option<string>, canSetRange: bool)

  /** The preferences read from the blob's `videoQuality` (or `{}`). */
  datatype QualityPrefs = QualityPrefs(enabled: bool, preferred: Json, customActive: bool, order: seq<Json>)

  function ReadQualityPrefs(v: Json): (r: QualityPrefs)
    ensures r.enabled <==> IsStrictTrue(GetOpt(Get(v, "videoQuality"), "enabled"))
    // a missing or falsy `value` means `auto`
    ensures !TruthyOpt(GetOpt(Get(v, "videoQuality"), "value")) ==> r.preferred == JStr("auto")
    ensures TruthyOpt(GetOpt(Get(v, "videoQuality"), "value")) ==> r.preferred == GetOpt(Get(v, "videoQuality"), "value").value
    // the custom order takes part only when enabled and a non-empty array
    ensures r.customActive ==> |r.order| > 0
  {
    var vq := if TruthyOpt(Get(v, "videoQuality")) then Get(v, "videoQuality").value else JObj(map[]);
    var preferred := if TruthyOpt(Get(vq, "value")) then Get(vq, "value").value else JStr("auto");
    var co := if TruthyOpt(Get(vq, "customOrder")) then Get(vq, "customOrder").value
              else JObj(map["enabled" := JBool(false), "order" := JArr([])]);
    var order := match Get(co, "order") case Some(JArr(a)) => a case _ => [];
    QualityPrefs(IsStrictTrue(Get(vq, "enabled")), preferred, TruthyOpt(Get(co, "enabled")) && |order| > 0, order)
  }

  /** The script's return value and the level passed to `setPlaybackQualityRange`. */
  datatype QualityOutcome = QualityOutcome(returned: bool, setTo: Option<string>)

  const NothingSet: QualityOutcome := QualityOutcome(false, None)

  /** The preferences of a blob that parses; `{}`'s preferences otherwise. */
  function Prefs(blob: BlobState): QualityPrefs {
    ReadQualityPrefs(if ReadBlob(blob).Normal? then ReadBlob(blob).value else JObj(map[]))
  }

  /** The player is there, the blob reads and the feature is enabled. */
  predicate Enabled(path: string, players: map<string, QualityPlayer>, blob: BlobState) {
    PlayerTargetId(path) in players && ReadBlob(blob).Normal? && Prefs(blob).enabled
  }

  /** A truthy level to set: present and not the empty string. */
  predicate Usable(q: Option<string>) {
    q.Some? && q.value != ""
  }

  /** `setVideoQuality()`; the blob is parsed outside the `try`, so a parse failure or a
      `null` blob escapes. */
  function SetVideoQuality(path: string, players: map<string, QualityPlayer>, blob: BlobState): (r: Completion<QualityOutcome>)
    ensures PlayerTargetId(path) !in players ==> r == Normal(NothingSet)
    ensures r.Throw? <==> PlayerTargetId(path) in players && (blob.Unparsable? || blob == Stored(JNull))
    // disabled: nothing is set
    ensures r.Normal? && PlayerTargetId(path) in players && !ReadQualityPrefs(ReadBlob(blob).value).enabled ==>
      r.value == NothingSet
    // only an available, non-empty level is ever set, and only through the range setter
    ensures r.Normal? && r.value.setTo.Some? ==>
      var p := players[PlayerTargetId(path)];
      r.value.returned && p.canSetRange && r.value.setTo.value in p.available && r.value.setTo.value != ""
    // the custom order wins over `value`; it never re-sets the current level
    ensures r.Normal? && r.value.setTo.Some? && ReadQualityPrefs(ReadBlob(blob).value).customActive ==>
      var p := players[PlayerTargetId(path)];
      Some(r.value.setTo.value) == PreferredAvailable(ReadQualityPrefs(ReadBlob(blob).value).order, p.available)
      && p.current != r.value.setTo
    // without a custom order, `auto` restricts nothing and reports success
    ensures r.Normal? && PlayerTargetId(path) in players && ReadQualityPrefs(ReadBlob(blob).value).enabled
            && !ReadQualityPrefs(ReadBlob(blob).value).customActive
            && ReadQualityPrefs(ReadBlob(blob).value).preferred == JStr("auto") ==>
      r.value == QualityOutcome(true, None)
    ensures r.Normal? && r.value.setTo.Some? && !ReadQualityPrefs(ReadBlob(blob).value).customActive ==>
      var prefs := ReadQualityPrefs(ReadBlob(blob).value);
      var p := players[PlayerTargetId(path)];
      prefs.preferred.JStr? ==> Some(r.value.setTo.value) == Closest(prefs.preferred.s, p.available)
    // no listing method: nothing is set, except that `auto` without a custom order
    // succeeds before the listing is needed
    ensures r.Normal? && Enabled(path, players, blob) && !players[PlayerTargetId(path)].canList
            && (Prefs(blob).customActive || Prefs(blob).preferred != JStr("auto")) ==>
      r.value == NothingSet
    // custom order: the chosen level is set through the range setter unless it is
    // already current; no usable level or no range setter sets nothing
    ensures r.Normal? && Enabled(path, players, blob) && Prefs(blob).customActive && players[PlayerTargetId(path)].canList ==>
      var p := players[PlayerTargetId(path)];
      var q := PreferredAvailable(Prefs(blob).order, p.available);
      && (!Usable(q) ==> r.value == NothingSet)
      && (Usable(q) && p.current == q ==> r.value == QualityOutcome(true, None))
      && (Usable(q) && p.current != q && p.canSetRange ==> r.value == QualityOutcome(true, q))
      && (Usable(q) && p.current != q && !p.canSetRange ==> r.value == NothingSet)
    // `value` other than `auto`: the closest level (the first listed one for a
    // non-string preference) is set through the range setter, whatever is current
    ensures r.Normal? && Enabled(path, players, blob) && !Prefs(blob).customActive && Prefs(blob).preferred != JStr("auto")
            && players[PlayerTargetId(path)].canList ==>
      var p := players[PlayerTargetId(path)];
      var q := if Prefs(blob).preferred.JStr? then Closest(Prefs(blob).preferred.s, p.available) else FirstOrNull(p.available);
      && (!Usable(q) ==> r.value == NothingSet)
      && (Usable(q) && p.canSetRange ==> r.value == QualityOutcome(true, q))
      && (Usable(q) && !p.canSetRange ==> r.value == NothingSet)
  {
    var id := PlayerTargetId(path);
    if id !in players then Normal(NothingSet)
    else
      var p := players[id];
      match ReadBlob(blob)
      case Throw => Throw
      case Normal(v) =>
        if v.JNull? then Throw
        else
          var prefs := ReadQualityPrefs(v);
          if !prefs.enabled then Normal(NothingSet)
          else if prefs.customActive then
            if !p.canList then Normal(NothingSet)
            else
              var q := PreferredAvailable(prefs.order, p.available);
              if q.None? || q.value == "" then Normal(NothingSet)
              else if p.current == q then Normal(QualityOutcome(true, None))
              else if p.canSetRange then Normal(QualityOutcome(true, q))
              else Normal(NothingSet)
          else if prefs.preferred == JStr("auto") then Normal(QualityOutcome(true, None))
          else if !p.canList then Normal(NothingSet)
          else
            var q := if prefs.preferred.JStr? then Closest(prefs.preferred.s, p.available) else FirstOrNull(p.available);
            if q.None? || q.value == "" then Normal(NothingSet)
            else if p.canSetRange then Normal(QualityOutcome(true, q))
            else Normal(NothingSet)
  }

  /** Running the script again after it set a level from the custom order, on a player
      that now reports that level, sets nothing more. */
  lemma CustomOrderSettles(path: string, players: map<string, QualityPlayer>, blob: BlobState)
    requires SetVideoQuality(path, players, blob).Normal?
    requires SetVideoQuality(path, players, blob).value.setTo.Some?
    requires ReadQualityPrefs(ReadBlob(blob).value).customActive
    ensures var p := players[PlayerTargetId(path)];
      var players' := players[PlayerTargetId(path) := p.(current := SetVideoQuality(path, players, blob).value.setTo)];
      SetVideoQuality(path, players', blob) == Normal(QualityOutcome(true, None))
  {
  }
}

=== FILE: retry.dfy ===
/** The bounded retry of the page scripts that pick a subtitle or audio track: a failed
    attempt schedules another one after 50·n ms, at most five times, and then the
    counter is reset and retrying stops. */
module Retry {
  import opened Wrappers

  const MaxRetries: nat := 5
  const RetryStepMs: nat := 50

  /** The counter after a failed attempt and the delay of the retry it schedules. */
  datatype AfterFailure = AfterFailure(count: nat, delay: Option<nat>)

  function OnFailure(count: nat): (r: AfterFailure)
    ensures count < MaxRetries ==> r == AfterFailure(count + 1, Some(RetryStepMs * (count + 1)))
    ensures count >= MaxRetries ==> r == AfterFailure(0, None)
    ensures r.count <= MaxRetries
  {
    if count < MaxRetries then AfterFailure(count + 1, Some(RetryStepMs * (count + 1)))
    else AfterFailure(0, None)
  }

  /** The delays scheduled when every attempt fails, starting from `count`: each retry
      runs only because the previous failure scheduled it. */
  function FailingChain(count: nat): (r: seq<nat>)
    requires count <= MaxRetries
    ensures |r| == MaxRetries - count
    ensures forall i :: 0 <= i < |r| ==> r[i] == RetryStepMs * (count + i + 1)
    decreases MaxRetries - count
  {
    var f := OnFailure(count);
    if f.delay.None? then []
    else
      var rest := FailingChain(f.count);
      assert forall i :: 1 <= i < |rest| + 1 ==> ([f.delay.value] + rest)[i] == rest[i - 1];
      [f.delay.value] + rest
  }

  /** From a fresh counter a run of failures retries exactly five times, after 50, 100,
      150, 200 and 250 ms, and the sixth failure resets the counter without retrying. */
  lemma FreshChain()
    ensures FailingChain(0) == [50, 100, 150, 200, 250]
    ensures OnFailure(MaxRetries) == AfterFailure(0, None)
  {
    var c := FailingChain(0);
    assert c[0] == 50 && c[1] == 100 && c[2] == 150 && c[3] == 200 && c[4] == 250;
  }
}

=== FILE: seqs.dfy ===
/** `array.find`: the first element that passes a test. */
module Seqs {
  import opened Wrappers

  /** The position of the first element of `s` that passes `p`, if any. */
  function FirstIndex<T>(s: seq<T>, p: T -> bool): (r: Option<nat>)
    ensures r.Some? ==> r.value < |s| && p(s[r.value]) && forall k :: 0 <= k < r.value ==> !p(s[k])
    ensures r.None? <==> forall k :: 0 <= k < |s| ==> !p(s[k])
    decreases |s|
  {
    if s == [] then None
    else if p(s[0]) then Some(0)
    else
      match FirstIndex(s[1..], p)
      case None => None
      case Some(i) =>
        assert forall k :: 1 <= k <= i + 1 ==> s[k] == s[1..][k - 1];
        Some(i + 1)
  }
}

=== FILE: settings_store.dfy ===
/** `loadExtensionSettings` and `saveExtensionSettings`: the settings store adapter. */
module SettingsStore {
  import opened Wrappers
  import opened JsonValue
  import opened Migration
  import opened Defaults
  import opened Storage

  /** What `load` returns, and the fire-and-forget write-back the migration asked for. */
  datatype Loaded = Loaded(settings: Json, writeBack: Option<Json>)

  /** `loadExtensionSettings()`: defaults when nothing (or something falsy) is stored,
      the migrated record otherwise; every failure, whether of the read or of the
      migration, is caught and yields the defaults. */
  function LoadExtensionSettings(read: StorageGet): (r: Loaded)
    // a failed read yields the defaults
    ensures read.GetFailed? ==> r == Loaded(DefaultsAsJson(DEFAULT_SETTINGS), None)
    // no stored record yields the defaults as is
    ensures read.Got? && !TruthyOpt(read.settings) ==> r == Loaded(DefaultsAsJson(DEFAULT_SETTINGS), None)
    // a stored record yields exactly its migration, written back iff something was added
    ensures read.Got? && TruthyOpt(read.settings) && MigrateSettings(read.settings.value, DEFAULT_SETTINGS).Normal? ==>
      var m := MigrateSettings(read.settings.value, DEFAULT_SETTINGS).value;
      r.settings == JObj(m.settings) && (r.writeBack.Some? <==> m.changed)
      && (r.writeBack.Some? ==> r.writeBack.value == r.settings)
    // a migration that throws is caught as well
    ensures read.Got? && TruthyOpt(read.settings) && MigrateSettings(read.settings.value, DEFAULT_SETTINGS).Throw? ==>
      r == Loaded(DefaultsAsJson(DEFAULT_SETTINGS), None)
  {
    match read
    case GetFailed => Loaded(DefaultsAsJson(DEFAULT_SETTINGS), None)
    case Got(stored) =>
      if !TruthyOpt(stored) then Loaded(DefaultsAsJson(DEFAULT_SETTINGS), None)
      else
        match MigrateSettings(stored.value, DEFAULT_SETTINGS)
        case Throw => Loaded(DefaultsAsJson(DEFAULT_SETTINGS), None)
        case Normal(m) =>
          Loaded(JObj(m.settings), if m.changed then Some(JObj(m.settings)) else None)
  }

  /** Whatever storage holds, `load` returns an object carrying every default feature,
      each with an `enabled` property. */
  lemma LoadAlwaysComplete(read: StorageGet)
    ensures LoadExtensionSettings(read).settings.JObj?
    ensures forall k :: k in DEFAULT_SETTINGS ==>
      k in LoadExtensionSettings(read).settings.m &&
      Get(LoadExtensionSettings(read).settings.m[k], "enabled").Some?
  {
    if read.Got? && TruthyOpt(read.settings) && MigrateSettings(read.settings.value, DEFAULT_SETTINGS).Normal? {
      MigratedHasEnabled(read.settings.value);
    } else {
      DefaultsJsonComplete();
    }
  }

  /** The defaults themselves carry every default feature with `enabled`. */
  lemma DefaultsJsonComplete()
    ensures forall k :: k in DEFAULT_SETTINGS ==>
      k in DefaultsAsJson(DEFAULT_SETTINGS).m && Get(DefaultsAsJson(DEFAULT_SETTINGS).m[k], "enabled").Some?
  {
    DefaultsHaveEnabled();
  }

  /** A write to the storage area: the items set. */
  datatype StorageSet = StorageSet(items: map<string, Json>)

  /** `saveExtensionSettings(settings)`: one write of the whole record under the single
      `settings` key; a storage failure is rethrown to the caller. */
  function SaveExtensionSettings(settings: Json, storageAccepts: bool): (r: Completion<StorageSet>)
    ensures r.Normal? <==> storageAccepts
    ensures r.Normal? ==> r.value.items.Keys == {"settings"} && r.value.items["settings"] == settings
  {
    if storageAccepts then Normal(StorageSet(map["settings" := settings])) else Throw
  }

  /** A saved record loads back as its own migration. */
  lemma SaveThenLoad(settings: Json)
    requires TruthyOpt(Some(settings))
    requires MigrateSettings(settings, DEFAULT_SETTINGS).Normal?
    ensures LoadExtensionSettings(Got(Some(SaveExtensionSettings(settings, true).value.items["settings"]))).settings
            == JObj(MigrateSettings(settings, DEFAULT_SETTINGS).value.settings)
  {
  }
}

=== FILE: shorts.dfy ===
/** Hiding Shorts: the feed sections on the home and subscriptions pages, and the
    shelves and individual results on the search page. Hiding only ever sets
    `display: none`, so the model tracks the set of hidden elements. */
module Shorts {
  import opened Wrappers
  import opened Text
  import opened Pages

  type Element = nat

  /** A `ytd-rich-section-renderer`: does it hold a `ytd-rich-shelf-renderer[is-shorts]`? */
  datatype Section = Section(element: Element, hasShortsShelf: bool)

  /** A `grid-shelf-view-model`: does it hold a Shorts lockup, or a link to `/shorts/`? */
  datatype Shelf = Shelf(element: Element, hasShortsLockup: bool, hasShortsLink: bool)

  /** A `ytd-video-renderer`: a link to `/shorts/`, the SHORTS time-status overlay, and
      the text content of its first `.yt-badge-shape__text` element when there is one. */
  datatype Renderer = Renderer(element: Element, hasShortsLink: bool, hasShortsOverlay: bool, badgeText: Option<string>)

  /** What the three `querySelectorAll` calls find. */
  datatype Page = Page(sections: seq<Section>, shelves: seq<Shelf>, renderers: seq<Renderer>)

  predicate IsShortsSection(s: Section) {
    s.hasShortsShelf
  }

  predicate IsShortsShelf(s: Shelf) {
    s.hasShortsLockup || s.hasShortsLink
  }

  /** The badge test reads only the first badge text, which must mention `SHORTS`. */
  predicate IsShortsRenderer(r: Renderer) {
    r.hasShortsLink || r.hasShortsOverlay || (r.badgeText.Some? && Contains(r.badgeText.value, "SHORTS"))
  }

  /** The feed pass on the home and subscriptions pages. */
  function FeedTargets(p: Page): set<Element> {
    set i | 0 <= i < |p.sections| && IsShortsSection(p.sections[i]) :: p.sections[i].element
  }

  /** The two search passes: shelves, then individual results. */
  function SearchTargets(p: Page): set<Element> {
    (set i | 0 <= i < |p.shelves| && IsShortsShelf(p.shelves[i]) :: p.shelves[i].element)
    + (set i | 0 <= i < |p.renderers| && IsShortsRenderer(p.renderers[i]) :: p.renderers[i].element)
  }

  /** `hideShorts()` on the given pathname: the elements hidden afterwards. */
  function HideShorts(path: string, p: Page, hidden: set<Element>): (r: set<Element>)
    // hiding never shows anything again
    ensures hidden <= r
    // an element becomes hidden only when it is a Shorts element of a pass the page runs
    ensures forall e :: e in r && e !in hidden ==>
      ((IsHomePage(path) || IsSubscriptionsPage(path)) && e in FeedTargets(p))
      || (IsSearchPage(path) && e in SearchTargets(p))
    // and every Shorts element of such a pass is hidden
    ensures IsHomePage(path) || IsSubscriptionsPage(path) ==> FeedTargets(p) <= r
    ensures IsSearchPage(path) ==> SearchTargets(p) <= r
    // any other page is left alone, a watch page or a channel included
    ensures !IsHomePage(path) && !IsSubscriptionsPage(path) && !IsSearchPage(path) ==> r == hidden
  {
    var feed := if IsHomePage(path) || IsSubscriptionsPage(path) then FeedTargets(p) else {};
    var search := if IsSearchPage(path) then SearchTargets(p) else {};
    hidden + feed + search
  }

  /** The search page never runs the feed pass, and the feed pages never run the
      search passes. */
  lemma PassesExclusive(path: string, p: Page, hidden: set<Element>)
    ensures IsSearchPage(path) ==> HideShorts(path, p, hidden) == hidden + SearchTargets(p)
    ensures IsHomePage(path) || IsSubscriptionsPage(path) ==> HideShorts(path, p, hidden) == hidden + FeedTargets(p)
  {
    PagesExclusive(path);
  }

  /** Running the hiding again on an unchanged page changes nothing. */
  lemma HideShortsIdempotent(path: string, p: Page, hidden: set<Element>)
    ensures HideShorts(path, p, HideShorts(path, p, hidden)) == HideShorts(path, p, hidden)
  {
  }

  /** A result whose SHORTS badge text is not the first badge text is missed when it has
      neither the link nor the overlay. */
  lemma OnlyFirstBadgeTextCounts(e: Element, first: string)
    requires !Contains(first, "SHORTS")
    ensures !IsShortsRenderer(Renderer(e, false, false, Some(first)))
  {
  }
}

=== FILE: shorts_loop.dfy ===
/** Loop prevention on Shorts: the module-level pair (current video element, loop
    observer), the setup that attaches to the player's `<video>`, the observer that
    clears a re-enabled `loop` attribute, and the cleanup. The `loop` property
    reflects the attribute, so one boolean stands for both. */
module ShortsLoop {
  import opened Wrappers
  import opened Text

  type Element = nat

  /** `currentVideoElement` and the element the live `loopObserver` watches. */
  datatype LoopState = LoopState(current: Option<Element>, observing: Option<Element>)

  const Detached: LoopState := LoopState(None, None)

  /** The two module variables are set and cleared together, and on the same element. */
  predicate Attached(s: LoopState) {
    s.current == s.observing
  }

  /** A `<video>` element and whether it loops. */
  datatype Video = Video(element: Element, loop: bool)

  const RetryDelayMs: nat := 500

  /** What one setup call did: nothing, a retry scheduled in 500 ms, or an attach. */
  datatype SetupResult = SetupResult(state: LoopState, video: Option<Video>, retryIn: Option<nat>)

  /** `cleanupLoopPrevention()`. */
  function Cleanup(s: LoopState): (r: LoopState)
    ensures r == Detached && Attached(r)
  {
    LoopState(None, None)
  }

  /** `setupLoopPrevention()` on the pathname with the first `<video>` the selectors find. */
  function Setup(path: string, s: LoopState, found: Option<Video>): (r: SetupResult)
    // off Shorts pages nothing happens, and nothing is retried
    ensures !StartsWith(path, "/shorts/") ==> r == SetupResult(s, found, None)
    // no video yet: retry in 500 ms, with no cap on the number of retries
    ensures StartsWith(path, "/shorts/") && found.None? ==> r == SetupResult(s, None, Some(RetryDelayMs))
    // already attached to this element: nothing happens
    ensures StartsWith(path, "/shorts/") && found.Some? && s.current == Some(found.value.element) ==>
      r == SetupResult(s, found, None)
    // a new element: the loop is off and both variables point at it
    ensures StartsWith(path, "/shorts/") && found.Some? && s.current != Some(found.value.element) ==>
      r.state == LoopState(Some(found.value.element), Some(found.value.element))
      && r.video == Some(found.value.(loop := false)) && r.retryIn.None?
    ensures Attached(s) ==> Attached(r.state)
  {
    if !StartsWith(path, "/shorts/") then SetupResult(s, found, None)
    else if found.None? then SetupResult(s, None, Some(RetryDelayMs))
    else if s.current == Some(found.value.element) then SetupResult(s, found, None)
    else
      var e := found.value.element;
      var cleaned := Cleanup(s);
      SetupResult(cleaned.(current := Some(e), observing := Some(e)), Some(found.value.(loop := false)), None)
  }

  /** A `MutationRecord`: its `type` and `attributeName`. */
  datatype Mutation = Mutation(kind: string, attributeName: Option<string>)

  predicate IsLoopMutation(m: Mutation) {
    m.kind == "attributes" && m.attributeName == Some("loop")
  }

  /** The observer callback on `video`, delivered only while the observer watches it. */
  function OnMutations(s: LoopState, video: Video, records: seq<Mutation>): (r: Video)
    ensures r.element == video.element
    // a `loop` attribute record on the watched element turns the loop off
    ensures s.observing == Some(video.element) && (exists i :: 0 <= i < |records| && IsLoopMutation(records[i])) ==> !r.loop
    // records about anything else, or an element no longer watched, change nothing
    ensures s.observing != Some(video.element) || (forall i :: 0 <= i < |records| ==> !IsLoopMutation(records[i])) ==> r == video
    decreases |records|
  {
    if s.observing != Some(video.element) || records == [] then video
    else
      assert forall i :: 1 <= i < |records| ==> records[i] == records[1..][i - 1];
      var v := if IsLoopMutation(records[0]) && video.loop then video.(loop := false) else video;
      OnMutations(s, v, records[1..])
  }

  /** Once attached, setup on the same element and the observer's callback keep the
      loop off; a page that re-enables it is answered by the observer. */
  lemma LoopStaysOff(path: string, s: LoopState, v: Video, reenable: seq<Mutation>)
    requires StartsWith(path, "/shorts/") && s.current != Some(v.element)
    ensures var r := Setup(path, s, Some(v));
      var again := Setup(path, r.state, Some(r.video.value.(loop := true)));
      again.state == r.state && again.retryIn.None?
      && (reenable != [] && IsLoopMutation(reenable[0]) ==> !OnMutations(r.state, r.video.value.(loop := true), reenable).loop)
  {
  }

  /** After cleanup the observer's callback, should one still arrive, changes nothing. */
  lemma CleanupStopsObserver(s: LoopState, v: Video, records: seq<Mutation>)
    ensures OnMutations(Cleanup(s), v, records) == v
  {
  }
}

=== FILE: speed_script.dfy ===
/** The playback-speed page script: the duration rule and the decision flow of
    `setPlaybackSpeed`, which reads flat `localStorage` keys. */
module SpeedScript {
  import opened Wrappers
  import opened Text
  import opened LocalItems
  import QualityScript

  const SpeedEnabledKey: string := "ycs-speed-enabled"
  const SpeedValueKey: string := "ycs-speed-value"
  const RuleEnabledKey: string := "ycs-speed-duration-rule-enabled"
  const RuleTypeKey: string := "ycs-speed-duration-rule-type"
  const RuleMinutesKey: string := "ycs-speed-duration-rule-minutes"

  function Minutes(seconds: Num): Num {
    if seconds.Some? then Some(seconds.value / 60.0) else None
  }

  /** The configured rule minutes: `parseInt(item || '60', 10)`. */
  function RuleMinutes(flat: Flat): (r: Num)
    ensures RuleMinutesKey !in flat ==> r == Some(60.0)
  {
    ParseIntShowInt(60);
    assert ShowInt(60) == "60" by {
      assert ShowNat(6) == "6";
    }
    var n := ParseInt(ItemOr(flat, RuleMinutesKey, "60"));
    if n.Some? then Some(n.value as real) else None
  }

  /** The duration rule blocks the preferred speed: `greater` for videos longer than the
      rule, `less` for shorter ones; any other type, equality and `NaN` never block. */
  predicate RuleBlocks(ruleType: string, minutes: Num, rule: Num) {
    (ruleType == "greater" && Gt(minutes, rule)) || (ruleType == "less" && Lt(minutes, rule))
  }

  lemma RuleBlocksCases(ruleType: string, minutes: real, rule: real)
    ensures RuleBlocks(ruleType, Some(minutes), Some(rule)) <==>
      (ruleType == "greater" && minutes > rule) || (ruleType == "less" && minutes < rule)
    ensures minutes == rule ==> !RuleBlocks(ruleType, Some(minutes), Some(rule))
    ensures ruleType != "greater" && ruleType != "less" ==> !RuleBlocks(ruleType, Some(minutes), Some(rule))
  {
  }

  /** What the script can reach of the player: `getDuration()` when it exists and
      whether `setPlaybackRate` exists. */
  datatype SpeedPlayer = SpeedPlayer(duration: Option<Num>, canSetRate: bool)

  /** `shouldApplySpeed()` (defined but never called): the rule type defaults to `less`. */
  function ShouldApplySpeed(flat: Flat, path: string, players: map<string, SpeedPlayer>): (r: bool)
    ensures !IsTrueItem(flat, RuleEnabledKey) ==> r
    ensures QualityScript.PlayerTargetId(path) !in players ==> r
    ensures QualityScript.PlayerTargetId(path) in players && players[QualityScript.PlayerTargetId(path)].duration.None? ==> r
    ensures IsTrueItem(flat, RuleEnabledKey) && QualityScript.PlayerTargetId(path) in players
            && players[QualityScript.PlayerTargetId(path)].duration.Some? ==>
      (!r <==> RuleBlocks(ItemOr(flat, RuleTypeKey, "less"), Minutes(players[QualityScript.PlayerTargetId(path)].duration.value), RuleMinutes(flat)))
  {
    if !IsTrueItem(flat, RuleEnabledKey) then true
    else
      var id := QualityScript.PlayerTargetId(path);
      if id !in players || players[id].duration.None? then true
      else !RuleBlocks(ItemOr(flat, RuleTypeKey, "less"), Minutes(players[id].duration.value), RuleMinutes(flat))
  }

  /** The rate the script sets: on the `<video>` element or through the player API. */
  datatype RateSet = ElementRate(rate: Num) | ApiRate(rate: Num)

  datatype SpeedOutcome = SpeedOutcome(returned: bool, applied: Option<RateSet>)

  const NoSpeed: SpeedOutcome := SpeedOutcome(false, None)

  /** The speed player: the Shorts player under `/shorts...`, otherwise the main player
      (the channel player is not considered here). */
  function SpeedPlayerId(path: string): string {
    if StartsWith(path, "/shorts") then "shorts-player" else "movie_player"
  }

  /** `parseFloat(localStorage.getItem('ycs-speed-value') || '1')`. */
  function PreferredSpeed(flat: Flat, parseFloat: string -> Num): (r: Num)
    ensures SpeedValueKey !in flat ==> r == parseFloat("1")
  {
    parseFloat(ItemOr(flat, SpeedValueKey, "1"))
  }

  predicate OutOfApiRange(speed: Num) {
    Gt(speed, Some(2.0)) || Lt(speed, Some(0.25))
  }

  /** The speed player is present and has `setPlaybackRate`. */
  predicate ApiReady(path: string, players: map<string, SpeedPlayer>) {
    SpeedPlayerId(path) in players && players[SpeedPlayerId(path)].canSetRate
  }

  /** The duration rule is on, the player reports a duration, and the rule (type
      defaulting to `greater`) matches it. */
  predicate ApiRuleMatched(flat: Flat, p: SpeedPlayer) {
    IsTrueItem(flat, RuleEnabledKey) && p.duration.Some?
    && RuleBlocks(ItemOr(flat, RuleTypeKey, "greater"), Minutes(p.duration.value), RuleMinutes(flat))
  }

  /** The `<video>` element's `playbackRate` setter takes the rate: a `NaN` fails the
      conversion to a finite `double` (a `TypeError`), and a rate the browser does not
      support fails with a `NotSupportedError`; `accepts` says which rates it supports. */
  predicate ElementTakes(accepts: real -> bool, rate: Num) {
    rate.Some? && accepts(rate.value)
  }

  /** `video.playbackRate = rate; return true` inside the `try`: a refused rate throws
      into the `catch`, which returns `false` with the rate unchanged. */
  function ElementSet(accepts: real -> bool, rate: Num): (r: SpeedOutcome)
    ensures r.returned <==> ElementTakes(accepts, rate)
    ensures r.applied.Some? <==> r.returned
    ensures r.applied.Some? ==> r.applied.value == ElementRate(rate)
  {
    if ElementTakes(accepts, rate) then SpeedOutcome(true, Some(ElementRate(rate))) else NoSpeed
  }

  /** `setPlaybackSpeed()`. `live` is the verdict of `isLiveStream()`, `parseFloat` the
      number parser, `video` the duration of the first `<video>` element when there is
      one, and `accepts` the rates its `playbackRate` setter supports. */
  function SetPlaybackSpeed(path: string, flat: Flat, live: bool, parseFloat: string -> Num,
                            players: map<string, SpeedPlayer>, video: Option<Num>, accepts: real -> bool): (r: SpeedOutcome)
    // live streams and a disabled feature: nothing is set
    ensures live || !IsTrueItem(flat, SpeedEnabledKey) ==> r == NoSpeed
    // something is set only when the script reports success
    ensures r.applied.Some? ==> r.returned
    // the API only ever receives speeds within 0.25..2, and the element only rates it takes
    ensures r.applied.Some? && r.applied.value.ApiRate? ==> !OutOfApiRange(PreferredSpeed(flat, parseFloat))
    ensures r.applied.Some? && r.applied.value.ElementRate? ==> ElementTakes(accepts, r.applied.value.rate)
    // outside that range the element is used, and a matched rule forces rate 1
    ensures !live && IsTrueItem(flat, SpeedEnabledKey) && OutOfApiRange(PreferredSpeed(flat, parseFloat)) ==>
      (video.None? ==> r == NoSpeed)
      && (video.Some? ==> r == ElementSet(accepts,
            if IsTrueItem(flat, RuleEnabledKey) && RuleBlocks(ItemOr(flat, RuleTypeKey, "greater"), Minutes(video.value), RuleMinutes(flat))
            then Some(1.0) else PreferredSpeed(flat, parseFloat)))
    // in range without the player API: the element gets the preferred speed, and
    // without a `<video>` nothing is set and the script reports failure
    ensures !live && IsTrueItem(flat, SpeedEnabledKey) && !OutOfApiRange(PreferredSpeed(flat, parseFloat))
            && !ApiReady(path, players) ==>
      r == (if video.Some? then ElementSet(accepts, PreferredSpeed(flat, parseFloat)) else NoSpeed)
    // in range with the player API: a rule matched on the player's duration puts the
    // `<video>` (if any) at rate 1 and reports success; otherwise the API gets the speed
    ensures !live && IsTrueItem(flat, SpeedEnabledKey) && !OutOfApiRange(PreferredSpeed(flat, parseFloat))
            && ApiReady(path, players) && ApiRuleMatched(flat, players[SpeedPlayerId(path)]) ==>
      r == (if video.Some? then ElementSet(accepts, Some(1.0)) else SpeedOutcome(true, None))
    ensures !live && IsTrueItem(flat, SpeedEnabledKey) && !OutOfApiRange(PreferredSpeed(flat, parseFloat))
            && ApiReady(path, players) && !ApiRuleMatched(flat, players[SpeedPlayerId(path)]) ==>
      r == SpeedOutcome(true, Some(ApiRate(PreferredSpeed(flat, parseFloat))))
  {
    if live || !IsTrueItem(flat, SpeedEnabledKey) then NoSpeed
    else
      var speed := PreferredSpeed(flat, parseFloat);
      var ruleOn := IsTrueItem(flat, RuleEnabledKey);
      if OutOfApiRange(speed) then
        if video.None? then NoSpeed
        else if ruleOn && RuleBlocks(ItemOr(flat, RuleTypeKey, "greater"), Minutes(video.value), RuleMinutes(flat)) then
          ElementSet(accepts, Some(1.0))
        else ElementSet(accepts, speed)
      else
        if !ApiReady(path, players) then
          if video.None? then NoSpeed else ElementSet(accepts, speed)
        else if ApiRuleMatched(flat, players[SpeedPlayerId(path)]) then
          if video.Some? then ElementSet(accepts, Some(1.0)) else SpeedOutcome(true, None)
        else SpeedOutcome(true, Some(ApiRate(speed)))
  }

  /** Whatever the inputs: success needs a non-live page with the feature on and either
      a `<video>` or an in-range speed with the player API; such a run succeeds whenever
      the element takes both the preferred speed and rate 1; a failure sets nothing; and
      the only rates ever set are the preferred speed and the rate 1 of an enabled
      duration rule. */
  lemma SpeedRates(path: string, flat: Flat, live: bool, parseFloat: string -> Num,
                   players: map<string, SpeedPlayer>, video: Option<Num>, accepts: real -> bool)
    ensures var r := SetPlaybackSpeed(path, flat, live, parseFloat, players, video, accepts);
      var speed := PreferredSpeed(flat, parseFloat);
      var eligible := !live && IsTrueItem(flat, SpeedEnabledKey) && (video.Some? || (ApiReady(path, players) && !OutOfApiRange(speed)));
      && (r.returned ==> eligible)
      && (eligible && ElementTakes(accepts, speed) && accepts(1.0) ==> r.returned)
      && (!r.returned ==> r.applied.None?)
      && (r.applied.Some? ==>
            r.applied.value.rate == speed
            || (r.applied.value == ElementRate(Some(1.0)) && IsTrueItem(flat, RuleEnabledKey)))
  {
  }

  /** An unparsable speed (`NaN`) is in range as far as the comparisons go; without the
      player API its assignment to the `<video>` throws, and the run reports failure. */
  lemma NaNSpeedFailsOnElement(path: string, flat: Flat, parseFloat: string -> Num,
                               players: map<string, SpeedPlayer>, duration: Num, accepts: real -> bool)
    requires IsTrueItem(flat, SpeedEnabledKey) && PreferredSpeed(flat, parseFloat).None?
    requires !ApiReady(path, players)
    ensures SetPlaybackSpeed(path, flat, false, parseFloat, players, Some(duration), accepts) == NoSpeed
  {
  }

  /** In range without the player API, the element fallback assigns the preferred speed
      with no duration-rule check at all. */
  lemma FallbackSkipsRule(path: string, flat: Flat, parseFloat: string -> Num, players: map<string, SpeedPlayer>,
                          duration: Num, accepts: real -> bool)
    requires IsTrueItem(flat, SpeedEnabledKey)
    requires !OutOfApiRange(PreferredSpeed(flat, parseFloat))
    requires SpeedPlayerId(path) !in players || !players[SpeedPlayerId(path)].canSetRate
    ensures SetPlaybackSpeed(path, flat, false, parseFloat, players, Some(duration), accepts)
            == ElementSet(accepts, PreferredSpeed(flat, parseFloat))
  {
  }

  /** The stored items of the example below: speed 1.5 and the duration rule on, with
      no rule type and no rule minutes stored. */
  function RuleExampleFlat(): Flat {
    map[SpeedEnabledKey := "true", SpeedValueKey := "1.5", RuleEnabledKey := "true"]
  }

  lemma RuleExampleItems()
    ensures RuleTypeKey !in RuleExampleFlat() && RuleMinutes(RuleExampleFlat()) == Some(60.0)
    ensures IsTrueItem(RuleExampleFlat(), SpeedEnabledKey) && IsTrueItem(RuleExampleFlat(), RuleEnabledKey)
    ensures ItemOr(RuleExampleFlat(), SpeedValueKey, "1") == "1.5"
  {
    var flat := RuleExampleFlat();
    assert RuleTypeKey !in flat by {
      assert |RuleTypeKey| == 28;
      assert |SpeedEnabledKey| == 17 && |SpeedValueKey| == 15 && |RuleEnabledKey| == 31;
    }
    assert RuleMinutesKey !in flat by {
      assert |RuleMinutesKey| == 31 && |SpeedEnabledKey| == 17 && |SpeedValueKey| == 15;
      assert RuleMinutesKey[24] != RuleEnabledKey[24];
    }
    assert SpeedValueKey != SpeedEnabledKey && SpeedValueKey != RuleEnabledKey by {
      assert |SpeedEnabledKey| == 17 && |SpeedValueKey| == 15 && |RuleEnabledKey| == 31;
    }
  }

  /** The two places disagree on the default rule type: with the rule on and no type
      stored, a two-hour video at speed 1.5 is "apply" for `shouldApplySpeed` (`less`)
      but gets rate 1 from `setPlaybackSpeed` (`greater`). */
  lemma DefaultRuleTypesDisagree(parseFloat: string -> Num, accepts: real -> bool)
    requires parseFloat("1.5") == Some(1.5) && accepts(1.0)
    ensures var players := map["movie_player" := SpeedPlayer(Some(Some(7200.0)), true)];
      && ShouldApplySpeed(RuleExampleFlat(), "/watch", players)
      && SetPlaybackSpeed("/watch", RuleExampleFlat(), false, parseFloat, players, Some(Some(7200.0)), accepts)
         == SpeedOutcome(true, Some(ElementRate(Some(1.0))))
  {
    var flat := RuleExampleFlat();
    var players := map["movie_player" := SpeedPlayer(Some(Some(7200.0)), true)];
    RuleExampleItems();
    assert Minutes(Some(7200.0)) == Some(120.0);
    assert !StartsWith("/watch", "/shorts") by {
      assert "/watch"[1] != "/shorts"[1];
    }
    assert !StartsWith("/watch", "/@") by {
      assert "/watch"[1] != "/@"[1];
    }
    assert ShouldApplySpeed(flat, "/watch", players) by {
      assert QualityScript.PlayerTargetId("/watch") == "movie_player";
      assert ItemOr(flat, RuleTypeKey, "less") == "less";
      assert !RuleBlocks("less", Some(120.0), Some(60.0));
    }
    assert PreferredSpeed(flat, parseFloat) == Some(1.5);
    assert SpeedPlayerId("/watch") == "movie_player";
    assert ItemOr(flat, RuleTypeKey, "greater") == "greater";
    assert RuleBlocks("greater", Some(120.0), Some(60.0));
  }
}

=== FILE: sponsorship.dfy ===
/** The members-only fetch interceptor: responses of four InnerTube endpoints are
    parsed, every array loses the items that wrap a video carrying the sponsorship
    badge, and the rest of the value is rewritten recursively. */
module Sponsorship {
  import opened Wrappers
  import opened JsonValue
  import opened Text

  const FetchEndpoints: seq<string> :=
    ["/youtubei/v1/search", "/youtubei/v1/browse", "/youtubei/v1/next", "/youtubei/v1/player"]

  const SponsorshipStar: string := "SPONSORSHIP_STAR"

  const UnknownTitle: string := "[Unknown Title]"

  // -------------------------------------------------------------------------
  // The badge test
  // -------------------------------------------------------------------------

  /** The `some` callback on one badge: a sponsorship-star icon. Reading a property of
      a `null` badge throws; any other value without the path is no match. */
  function BadgeMatch(badge: Json): (r: Completion<bool>)
    ensures r.Throw? <==> badge.JNull?
    // the truthiness tests along the path are implied by reaching the icon type
    ensures r == Normal(true) <==>
      GetOpt(GetOpt(Get(badge, "metadataBadgeRenderer"), "icon"), "iconType") == Some(JStr(SponsorshipStar))
  {
    if badge.JNull? then Throw
    else
      var renderer := Get(badge, "metadataBadgeRenderer");
      var icon := GetOpt(renderer, "icon");
      Normal(TruthyOpt(renderer) && TruthyOpt(icon) && GetOpt(icon, "iconType") == Some(JStr(SponsorshipStar)))
  }

  /** `badges.some(...)`: the badges are tested in order and the first match stops. */
  function AnyBadge(badges: seq<Json>): (r: Completion<bool>)
    ensures r == Normal(false) <==> forall i :: 0 <= i < |badges| ==> BadgeMatch(badges[i]) == Normal(false)
    decreases |badges|
  {
    if badges == [] then Normal(false)
    else
      assert forall k :: 1 <= k < |badges| ==> badges[k] == badges[1..][k - 1];
      match BadgeMatch(badges[0])
      case Throw => Throw
      case Normal(true) => Normal(true)
      case Normal(false) => AnyBadge(badges[1..])
  }

  /** Every badge before position `i` is tested without a match. */
  predicate MissesBefore(badges: seq<Json>, i: nat)
    requires i <= |badges|
  {
    forall k :: 0 <= k < i ==> BadgeMatch(badges[k]) == Normal(false)
  }

  lemma MissesBeforeCons(badges: seq<Json>, i: nat)
    requires 1 <= i <= |badges|
    ensures MissesBefore(badges, i) <==> BadgeMatch(badges[0]) == Normal(false) && MissesBefore(badges[1..], i - 1)
  {
    assert forall k :: 1 <= k < i ==> badges[k] == badges[1..][k - 1];
  }

  /** `some` answers yes exactly when a badge matches and every badge before it is
      tested without a match. */
  lemma {:induction false} AnyBadgeTrue(badges: seq<Json>)
    ensures AnyBadge(badges) == Normal(true) <==>
      exists i: nat :: i < |badges| && BadgeMatch(badges[i]) == Normal(true) && MissesBefore(badges, i)
    decreases |badges|
  {
    if badges != [] {
      var tl := badges[1..];
      AnyBadgeTrue(tl);
      var b0 := BadgeMatch(badges[0]);
      assert AnyBadge(badges) == if b0 == Normal(false) then AnyBadge(tl) else b0;
      if AnyBadge(badges) == Normal(true) && BadgeMatch(badges[0]) != Normal(true) {
        var j: nat :| j < |tl| && BadgeMatch(tl[j]) == Normal(true) && MissesBefore(tl, j);
        MissesBeforeCons(badges, j + 1);
        assert badges[j + 1] == tl[j];
      }
      if BadgeMatch(badges[0]) == Normal(true) {
        assert MissesBefore(badges, 0);
      }
      if i: nat :| i < |badges| && BadgeMatch(badges[i]) == Normal(true) && MissesBefore(badges, i) {
        if i > 0 {
          MissesBeforeCons(badges, i);
          assert tl[i - 1] == badges[i];
        }
      }
    }
  }

  /** `some` throws exactly when a `null` badge is reached before any match. */
  lemma {:induction false} AnyBadgeThrows(badges: seq<Json>)
    ensures AnyBadge(badges).Throw? <==>
      exists i: nat :: i < |badges| && badges[i].JNull? && MissesBefore(badges, i)
    decreases |badges|
  {
    if badges != [] {
      var tl := badges[1..];
      AnyBadgeThrows(tl);
      if AnyBadge(badges).Throw? && !badges[0].JNull? {
        var j: nat :| j < |tl| && tl[j].JNull? && MissesBefore(tl, j);
        MissesBeforeCons(badges, j + 1);
        assert badges[j + 1] == tl[j];
      }
      if badges[0].JNull? {
        assert MissesBefore(badges, 0);
      }
      if i: nat :| i < |badges| && badges[i].JNull? && MissesBefore(badges, i) {
        if i > 0 {
          MissesBeforeCons(badges, i);
          assert tl[i - 1] == badges[i];
        }
      }
    }
  }

  /** `isSponsorshipVideo(videoRenderer)`: a falsy renderer or one whose `badges` is not
      an array is no sponsorship video; otherwise the badges decide. */
  function IsSponsorshipVideo(renderer: Option<Json>): (r: Completion<bool>)
    ensures !TruthyOpt(renderer) ==> r == Normal(false)
    ensures TruthyOpt(renderer) ==>
      match GetOpt(renderer, "badges")
      case Some(JArr(badges)) => r == AnyBadge(badges)
      case _ => r == Normal(false)
  {
    if !TruthyOpt(renderer) then Normal(false)
    else
      match GetOpt(renderer, "badges")
      case Some(JArr(badges)) => AnyBadge(badges)
      case _ => Normal(false)
  }

  // -------------------------------------------------------------------------
  // The title of the log line
  // -------------------------------------------------------------------------

  /** `v[0]`: the first element of an array, the `"0"` entry of an object, the first
      character of a string; `undefined` otherwise. */
  function Index0(v: Json): (r: Option<Json>)
    ensures v.JArr? ==> (r.Some? <==> |v.a| > 0) && (|v.a| > 0 ==> r == Some(v.a[0]))
    ensures v.JObj? ==> r == Lookup(v.m, "0")
    ensures v.JStr? ==> (r.Some? <==> v.s != "") && (v.s != "" ==> r == Some(JStr(v.s[..1])))
    ensures !v.JArr? && !v.JObj? && !v.JStr? ==> r.None?
  {
    match v
    case JArr(a) => if |a| > 0 then Some(a[0]) else None
    case JObj(m) => Lookup(m, "0")
    case JStr(s) => if s != "" then Some(JStr(s[..1])) else None
    case _ => None
  }

  /** `getVideoTitle(videoRenderer)`: `title.runs[0].text` when the path is truthy up to
      `runs[0]`, the placeholder otherwise; `undefined` (`None`) when `runs[0]` is truthy
      but has no `text`. */
  function VideoTitle(renderer: Option<Json>): (r: Option<Json>)
    ensures !TruthyOpt(renderer) ==> r == Some(JStr(UnknownTitle))
    ensures !TruthyOpt(GetOpt(GetOpt(renderer, "title"), "runs")) ==> r == Some(JStr(UnknownTitle))
  {
    var runs := GetOpt(GetOpt(renderer, "title"), "runs");
    var first := if TruthyOpt(renderer) && TruthyOpt(GetOpt(renderer, "title")) && TruthyOpt(runs)
                 then Index0(runs.value) else None;
    if TruthyOpt(first) then Get(first.value, "text") else Some(JStr(UnknownTitle))
  }

  /** The usual shape `{title: {runs: [{text: t}, ...]}}` gives `t`; an empty `runs`
      array gives the placeholder. */
  lemma VideoTitleOfRuns(t: string, rest: seq<Json>)
    ensures VideoTitle(Some(JObj(map["title" := JObj(map["runs" := JArr([JObj(map["text" := JStr(t)])] + rest)])])))
            == Some(JStr(t))
    ensures VideoTitle(Some(JObj(map["title" := JObj(map["runs" := JArr([])])]))) == Some(JStr(UnknownTitle))
  {
  }

  // -------------------------------------------------------------------------
  // The recursive filter
  // -------------------------------------------------------------------------

  /** `item.richItemRenderer.content.videoRenderer`, `undefined` as soon as a step is
      not an object holding the next key. */
  function RichVideoRenderer(item: Json): Option<Json> {
    GetOpt(GetOpt(Get(item, "richItemRenderer"), "content"), "videoRenderer")
  }

  /** The `filter` callback, negated: the item goes when its rich-item video or, failing
      that, its direct `videoRenderer` is a sponsorship video. A throw in the first test
      is not caught, and the second test is only reached when the first says no. */
  function Removable(item: Json): (r: Completion<bool>)
    ensures r == Normal(false) <==>
      IsSponsorshipVideo(RichVideoRenderer(item)) == Normal(false) && IsSponsorshipVideo(Get(item, "videoRenderer")) == Normal(false)
    ensures r == Normal(true) <==>
      IsSponsorshipVideo(RichVideoRenderer(item)) == Normal(true)
      || (IsSponsorshipVideo(RichVideoRenderer(item)) == Normal(false) && IsSponsorshipVideo(Get(item, "videoRenderer")) == Normal(true))
    // values that are not objects (a `null` item included) always stay
    ensures !item.JObj? ==> r == Normal(false)
  {
    match IsSponsorshipVideo(RichVideoRenderer(item))
    case Throw => Throw
    case Normal(true) => Normal(true)
    case Normal(false) => IsSponsorshipVideo(Get(item, "videoRenderer"))
  }

  /** The items of `a` that the filter keeps, in their order: the reference for what
      an array becomes. */
  function Kept(a: seq<Json>): (r: seq<Json>)
    ensures |r| <= |a|
    ensures forall x :: x in r ==> x in a && Removable(x) != Normal(true)
    decreases |a|
  {
    if a == [] then []
    else (if Removable(a[0]) == Normal(true) then [] else [a[0]]) + Kept(a[1..])
  }

  /** `filterSponsorshipVideos(obj)`: arrays lose their removable items and the
      survivors are filtered in turn; every own property of an object is replaced by
      its filtered value; anything else is returned as it is. A throw anywhere rejects
      the whole response. */
  function Filter(j: Json): (r: Completion<Json>)
    ensures !j.JArr? && !j.JObj? ==> r == Normal(j)
    ensures r.Normal? ==> (j.JArr? <==> r.value.JArr?) && (j.JObj? <==> r.value.JObj?)
    decreases j
  {
    match j
    case JArr(a) =>
      (match FilterItems(a)
       case Throw => Throw
       case Normal(b) => Normal(JArr(b)))
    case JObj(m) =>
      if exists k :: k in m && Filter(m[k]).Throw? then Throw
      else Normal(JObj(map k | k in m :: Filter(m[k]).value))
    case _ => Normal(j)
  }

  /** An object keeps exactly its keys, each mapped to its filtered value, and fails
      exactly when one of them does. */
  lemma FilterObject(m: map<string, Json>)
    ensures Filter(JObj(m)).Throw? <==> exists k :: k in m && Filter(m[k]).Throw?
    ensures Filter(JObj(m)).Normal? ==>
      Filter(JObj(m)).value.m.Keys == m.Keys && forall k :: k in m ==> Filter(m[k]) == Normal(Filter(JObj(m)).value.m[k])
  {
  }

  /** An array fails exactly when its items do, and otherwise becomes their filtering. */
  lemma FilterArray(a: seq<Json>)
    ensures Filter(JArr(a)).Throw? <==> FilterItems(a).Throw?
    ensures Filter(JArr(a)).Normal? ==> FilterItems(a) == Normal(Filter(JArr(a)).value.a)
  {
  }

  /** `a.filter(keep).map(filterSponsorshipVideos)`, item by item. */
  function FilterItems(a: seq<Json>): (r: Completion<seq<Json>>)
    decreases a
  {
    if a == [] then Normal([])
    else
      match Removable(a[0])
      case Throw => Throw
      case Normal(true) => FilterItems(a[1..])
      case Normal(false) =>
        match Filter(a[0])
        case Throw => Throw
        case Normal(y) =>
          match FilterItems(a[1..])
          case Throw => Throw
          case Normal(rest) => Normal([y] + rest)
  }

  /** A filtered array holds, in order, the filtered survivors. */
  lemma {:induction false} FilterItemsSpec(a: seq<Json>)
    requires FilterItems(a).Normal?
    ensures |FilterItems(a).value| == |Kept(a)|
    ensures forall i :: 0 <= i < |Kept(a)| ==> Filter(Kept(a)[i]) == Normal(FilterItems(a).value[i])
    decreases |a|
  {
    if a != [] {
      var hd, tl := a[0], a[1..];
      assert a == [hd] + tl;
      var rest := FilterItems(tl);
      assert rest.Normal?;
      FilterItemsSpec(tl);
      if Removable(hd) == Normal(true) {
        assert Kept(a) == Kept(tl);
      } else {
        var y := Filter(hd).value;
        var out := FilterItems(a).value;
        assert out == [y] + rest.value;
        assert Kept(a) == [hd] + Kept(tl);
        forall i | 0 <= i < |Kept(a)|
          ensures Filter(Kept(a)[i]) == Normal(out[i])
        {
          if i > 0 {
            assert Kept(a)[i] == Kept(tl)[i - 1];
            assert out[i] == rest.value[i - 1];
          }
        }
      }
    }
  }

  /** Filtering an array fails exactly when a removal test throws, or when a survivor's
      own filtering does. */
  lemma {:induction false} FilterItemsThrows(a: seq<Json>)
    ensures FilterItems(a).Throw? <==>
      exists i :: 0 <= i < |a| && (Removable(a[i]).Throw? || (Removable(a[i]) == Normal(false) && Filter(a[i]).Throw?))
    decreases |a|
  {
    if a != [] {
      var hd, tl := a[0], a[1..];
      FilterItemsThrows(tl);
      assert forall k :: 1 <= k < |a| ==> a[k] == tl[k - 1];
      if FilterItems(tl).Throw? {
        var j :| 0 <= j < |tl| && (Removable(tl[j]).Throw? || (Removable(tl[j]) == Normal(false) && Filter(tl[j]).Throw?));
        assert a[j + 1] == tl[j];
      }
    }
  }

  // -------------------------------------------------------------------------
  // Filtering commutes with the paths the removal test reads
  // -------------------------------------------------------------------------

  /** `y` is what filtering `x` gives, both possibly `undefined`. */
  predicate Filtered(x: Option<Json>, y: Option<Json>) {
    (x.None? && y.None?) || (x.Some? && y.Some? && Filter(x.value) == Normal(y.value))
  }

  /** Reading a property of a filtered value reads the filtered property, and
      truthiness and strings survive the filter. */
  lemma FilteredSteps(x: Option<Json>, y: Option<Json>, key: string)
    requires Filtered(x, y)
    ensures Filtered(GetOpt(x, key), GetOpt(y, key))
    ensures TruthyOpt(x) <==> TruthyOpt(y)
    ensures forall s: string :: x == Some(JStr(s)) <==> y == Some(JStr(s))
  {
  }

  lemma BadgeMatchFiltered(b: Json, c: Json)
    requires Filter(b) == Normal(c)
    ensures BadgeMatch(c) == BadgeMatch(b)
  {
    var r, s := Get(b, "metadataBadgeRenderer"), Get(c, "metadataBadgeRenderer");
    FilteredSteps(Some(b), Some(c), "metadataBadgeRenderer");
    FilteredSteps(r, s, "icon");
    FilteredSteps(GetOpt(r, "icon"), GetOpt(s, "icon"), "iconType");
    FilteredSteps(GetOpt(GetOpt(r, "icon"), "iconType"), GetOpt(GetOpt(s, "icon"), "iconType"), "");
  }

  /** Every kept item is an item of the input. */
  lemma KeptFromInput(a: seq<Json>, i: nat)
    requires i < |Kept(a)|
    ensures Kept(a)[i] in a && Removable(Kept(a)[i]) != Normal(true)
  {
    assert Kept(a)[i] in Kept(a);
  }

  /** A badge list with no match keeps having none after it is filtered. */
  lemma AnyBadgeFiltered(badges: seq<Json>, out: seq<Json>)
    requires AnyBadge(badges) == Normal(false) && FilterItems(badges) == Normal(out)
    ensures AnyBadge(out) == Normal(false)
  {
    FilterItemsSpec(badges);
    forall i | 0 <= i < |out|
      ensures BadgeMatch(out[i]) == Normal(false)
    {
      KeptFromInput(badges, i);
      BadgeMatchFiltered(Kept(badges)[i], out[i]);
    }
  }

  lemma IsSponsorshipVideoFiltered(x: Option<Json>, y: Option<Json>)
    requires Filtered(x, y) && IsSponsorshipVideo(x) == Normal(false)
    ensures IsSponsorshipVideo(y) == Normal(false)
  {
    FilteredSteps(x, y, "badges");
    if TruthyOpt(x) {
      var bx, bys := GetOpt(x, "badges"), GetOpt(y, "badges");
      if bx.Some? && bx.value.JArr? {
        AnyBadgeFiltered(bx.value.a, bys.value.a);
      }
    }
  }

  /** A kept item is still kept once it has been filtered. */
  lemma RemovableFiltered(x: Json, y: Json)
    requires Filter(x) == Normal(y) && Removable(x) == Normal(false)
    ensures Removable(y) == Normal(false)
  {
    FilteredSteps(Some(x), Some(y), "richItemRenderer");
    FilteredSteps(Get(x, "richItemRenderer"), Get(y, "richItemRenderer"), "content");
    FilteredSteps(GetOpt(Get(x, "richItemRenderer"), "content"), GetOpt(Get(y, "richItemRenderer"), "content"), "videoRenderer");
    IsSponsorshipVideoFiltered(RichVideoRenderer(x), RichVideoRenderer(y));
    FilteredSteps(Some(x), Some(y), "videoRenderer");
    IsSponsorshipVideoFiltered(Get(x, "videoRenderer"), Get(y, "videoRenderer"));
  }

  // -------------------------------------------------------------------------
  // Clean values and idempotence
  // -------------------------------------------------------------------------

  /** No array anywhere in the value holds an item the filter would remove. */
  predicate Clean(j: Json)
    decreases j
  {
    match j
    case JArr(a) => forall i :: 0 <= i < |a| ==> Removable(a[i]) == Normal(false) && Clean(a[i])
    case JObj(m) => forall k :: k in m ==> Clean(m[k])
    case _ => true
  }

  /** An array is clean when its head is a clean kept item and its tail is clean. */
  lemma CleanCons(y: Json, rest: seq<Json>)
    ensures Clean(JArr([y] + rest)) <==> Removable(y) == Normal(false) && Clean(y) && Clean(JArr(rest))
  {
    var a := [y] + rest;
    assert a[0] == y;
    assert forall i :: 0 <= i < |rest| ==> a[i + 1] == rest[i];
    assert forall i :: 1 <= i < |a| ==> a[i] == rest[i - 1];
  }

  /** What the filter returns is clean: no sponsorship item survives at any depth. */
  lemma {:induction false} FilterIsClean(j: Json)
    requires Filter(j).Normal?
    ensures Clean(Filter(j).value)
    decreases j
  {
    match j
    case JArr(a) =>
      FilterArray(a);
      FilterItemsClean(a);
    case JObj(m) =>
      FilterObject(m);
      var r := Filter(j).value;
      forall k | k in r.m
        ensures Clean(r.m[k])
      {
        FilterIsClean(m[k]);
      }
    case _ =>
  }

  lemma {:induction false} FilterItemsClean(a: seq<Json>)
    requires FilterItems(a).Normal?
    ensures Clean(JArr(FilterItems(a).value))
    decreases a
  {
    if a != [] {
      var hd, tl := a[0], a[1..];
      var rest := FilterItems(tl);
      assert rest.Normal?;
      FilterItemsClean(tl);
      if Removable(hd) == Normal(false) {
        var y := Filter(hd).value;
        FilterIsClean(hd);
        RemovableFiltered(hd, y);
        assert FilterItems(a).value == [y] + rest.value;
        CleanCons(y, rest.value);
      }
    }
  }

  /** The filter leaves a clean value as it is. */
  lemma {:induction false} CleanIsFixed(j: Json)
    requires Clean(j)
    ensures Filter(j) == Normal(j)
    decreases j
  {
    match j
    case JArr(a) =>
      CleanItemsFixed(a);
    case JObj(m) =>
      FilterObject(m);
      forall k | k in m
        ensures Filter(m[k]) == Normal(m[k])
      {
        CleanIsFixed(m[k]);
      }
      var r := Filter(j).value;
      assert r.m == m;
    case _ =>
  }

  lemma {:induction false} CleanItemsFixed(a: seq<Json>)
    requires forall i :: 0 <= i < |a| ==> Removable(a[i]) == Normal(false) && Clean(a[i])
    ensures FilterItems(a) == Normal(a)
    decreases a
  {
    if a != [] {
      assert forall k :: 1 <= k < |a| ==> a[1..][k - 1] == a[k];
      CleanItemsFixed(a[1..]);
      CleanIsFixed(a[0]);
      assert a == [a[0]] + a[1..];
    }
  }

  /** Filtering twice is filtering once. */
  lemma FilterIdempotent(j: Json)
    requires Filter(j).Normal?
    ensures Filter(Filter(j).value) == Filter(j)
  {
    FilterIsClean(j);
    CleanIsFixed(Filter(j).value);
  }

  /** The badge YouTube puts on members-only videos. */
  const StarBadge: Json :=
    JObj(map["metadataBadgeRenderer" := JObj(map["icon" := JObj(map["iconType" := JStr(SponsorshipStar)])])])

  /** A rich grid item wrapping a video with the given badges. */
  function RichItem(badges: seq<Json>): Json {
    JObj(map["richItemRenderer" := JObj(map["content" := JObj(map["videoRenderer" := JObj(map["badges" := JArr(badges)])])])])
  }

  /** A rich item whose video carries the star is removable. */
  lemma StarItemRemovable()
    ensures Removable(RichItem([StarBadge])) == Normal(true)
  {
    var item := RichItem([StarBadge]);
    assert BadgeMatch(StarBadge) == Normal(true);
    assert AnyBadge([StarBadge]) == Normal(true);
    assert RichVideoRenderer(item) == Some(JObj(map["badges" := JArr([StarBadge])]));
  }

  /** A removable head is dropped without being filtered. */
  lemma FilterItemsDrop(x: Json, rest: seq<Json>)
    requires Removable(x) == Normal(true)
    ensures FilterItems([x] + rest) == FilterItems(rest)
  {
    assert ([x] + rest)[1..] == rest;
  }

  /** A kept head is filtered and put in front of the filtered tail. */
  lemma FilterItemsKeep(x: Json, rest: seq<Json>)
    requires Removable(x) == Normal(false) && Filter(x).Normal? && FilterItems(rest).Normal?
    ensures FilterItems([x] + rest) == Normal([Filter(x).value] + FilterItems(rest).value)
  {
    assert ([x] + rest)[1..] == rest;
  }

  /** An object with neither renderer is kept. */
  lemma PlainObjectKept(x: Json)
    requires x.JObj? && "richItemRenderer" !in x.m && "videoRenderer" !in x.m
    ensures Removable(x) == Normal(false)
  {
  }

  /** A rich item carrying the star goes, and an object after it without either renderer
      stays. */
  lemma FilterDropsStarItem(other: Json)
    requires other.JObj? && "richItemRenderer" !in other.m && "videoRenderer" !in other.m
    requires Filter(other).Normal?
    ensures FilterItems([RichItem([StarBadge]), other]) == Normal([Filter(other).value])
  {
    StarItemRemovable();
    PlainObjectKept(other);
    FilterItemsDropKeep(RichItem([StarBadge]), other);
  }

  /** A removable item followed by a kept one filters to the kept one alone. */
  lemma FilterItemsDropKeep(x: Json, y: Json)
    requires Removable(x) == Normal(true) && Removable(y) == Normal(false) && Filter(y).Normal?
    ensures FilterItems([x, y]) == Normal([Filter(y).value])
  {
    FilterItemsDrop(x, [y]);
    assert [x] + [y] == [x, y];
    assert FilterItems([]) == Normal([]);
    FilterItemsKeep(y, []);
    assert [y] + [] == [y];
    assert [Filter(y).value] + [] == [Filter(y).value];
  }

  /** A `null` badge ahead of the star rejects the whole response. */
  lemma FilterRejectsNullBadge(other: Json)
    ensures FilterItems([RichItem([JNull, StarBadge]), other]).Throw?
  {
    var item := RichItem([JNull, StarBadge]);
    assert BadgeMatch(JNull).Throw?;
    assert AnyBadge([JNull, StarBadge]).Throw?;
    assert RichVideoRenderer(item) == Some(JObj(map["badges" := JArr([JNull, StarBadge])]));
    assert Removable(item).Throw?;
  }

  // -------------------------------------------------------------------------
  // The fetch wrapper
  // -------------------------------------------------------------------------

  /** `fetchEndpoints.some(endpoint => url.includes(endpoint))`. */
  predicate Intercepted(url: string) {
    exists i :: 0 <= i < |FetchEndpoints| && Contains(url, FetchEndpoints[i])
  }

  /** What the wrapped `fetch` resolves to: the original response, or a new response
      whose body is the filtered JSON (a rejection when filtering throws). */
  datatype Fetched = PassedThrough | Rewritten(body: Completion<Json>)

  /** The wrapped `fetch` once the URL is known and, for intercepted URLs, the response
      body is parsed (`data`). */
  function InterceptFetch(url: string, data: Json): (r: Fetched)
    ensures r.PassedThrough? <==> !Intercepted(url)
    ensures r.Rewritten? && r.body.Normal? ==> Clean(r.body.value) && Filter(r.body.value) == r.body
    ensures r.Rewritten? ==> (r.body.Throw? <==> Filter(data).Throw?)
    ensures r.Rewritten? && r.body.Normal? ==> r.body == Filter(data)
  {
    if Intercepted(url) then
      (if Filter(data).Normal? then FilterIdempotent(data); FilterIsClean(data); Rewritten(Filter(data))
       else Rewritten(Throw))
    else PassedThrough
  }

  /** Any URL made of a prefix, an endpoint and a suffix is intercepted. */
  lemma EndpointUrlIntercepted(host: string, i: nat, query: string)
    requires i < |FetchEndpoints|
    ensures Intercepted(host + FetchEndpoints[i] + query)
  {
    var u := host + FetchEndpoints[i] + query;
    assert u[|host|..|host| + |FetchEndpoints[i]|] == FetchEndpoints[i];
    assert OccursAt(u, FetchEndpoints[i], |host|);
  }

  lemma GuideNotIntercepted()
    ensures !Intercepted("/youtubei/v1/guide")
  {
    var g := "/youtubei/v1/guide";
    assert |g| == 18;
    assert |FetchEndpoints[0]| == 19 && |FetchEndpoints[1]| == 19 && |FetchEndpoints[3]| == 19;
    var next := FetchEndpoints[2];
    assert |next| == 17;
    assert !OccursAt(g, next, 0) by {
      assert g[13] != next[13];
    }
    assert !OccursAt(g, next, 1) by {
      assert g[14] != next[13];
    }
    assert !Contains(g, next);
  }

  /** A search request with a query string is intercepted; the guide endpoint is not. */
  lemma InterceptedExamples()
    ensures Intercepted("https://www.youtube.com" + "/youtubei/v1/search" + "?prettyPrint=false")
    ensures !Intercepted("/youtubei/v1/guide")
  {
    EndpointUrlIntercepted("https://www.youtube.com", 0, "?prettyPrint=false");
    GuideNotIntercepted();
  }
}

=== FILE: storage.dfy ===
/** The extension's persistent storage as the content scripts see it:
    one read of the `settings` key, one write of it. */
module Storage {
  import opened JsonValue
  import opened Wrappers

  /** The outcome of `browser.storage.local.get('settings')`: a failed read, or
      the value of `data.settings` (`None` when the key is absent). */
  datatype StorageGet = GetFailed | Got(settings: Option<Json>)

  /** The `data.settings` value of a read, `undefined` when it failed. */
  function StoredSettings(g: StorageGet): Option<Json> {
    if g.Got? then g.settings else None
  }
}

=== FILE: subtitles_script.dfy ===
/** The subtitles page scripts (the current one, reading `YCS_SETTINGS`, and the older
    one, reading a flat key): the caption-track choice they share, one attempt of
    `setPreferredSubtitles`, and the player polling and once-only orchestration of the
    current script. */
module SubtitlesScript {
  import opened Wrappers
  import opened JsonValue
  import opened Seqs
  import opened Blob
  import opened LocalItems
  import Retry

  /** A caption track: its `languageCode` (possibly absent), its `kind`, and whether its
      `name` is an object (neither `undefined` nor `null`), which the log line reads
      `simpleText` from before a chosen track is set. */
  datatype Track = Track(languageCode: Option<string>, kind: Option<string>, named: bool)

  /** `track.kind === 'asr'`: an automatic track. */
  predicate IsAsr(t: Track) {
    t.kind == Some("asr")
  }

  /** `!track.kind`: a manual track. */
  predicate IsManual(t: Track) {
    t.kind.None? || t.kind == Some("")
  }

  /** What `setOption('captions', 'track', ...)` receives: the empty track `{}` or one of
      the listed tracks. */
  datatype Selection = EmptyTrack | TrackAt(i: nat)

  /** The choice once the caption-track list is known (`disabled` is decided before). */
  function ChooseTrack(pref: Json, tracks: seq<Track>): (r: Selection)
    // a chosen track is always a listed manual track: an ASR track is never selected
    ensures r.TrackAt? ==> r.i < |tracks| && IsManual(tracks[r.i])
    // `original`: the first manual track in the language of the first ASR track
    ensures pref == JStr("original") ==>
      match FirstIndex(tracks, IsAsr)
      case None => r == EmptyTrack
      case Some(a) =>
        (r.TrackAt? <==> exists i :: 0 <= i < |tracks| && IsManual(tracks[i]) && tracks[i].languageCode == tracks[a].languageCode)
        && (r.TrackAt? ==>
              tracks[r.i].languageCode == tracks[a].languageCode
              && forall k :: 0 <= k < r.i ==> !(IsManual(tracks[k]) && tracks[k].languageCode == tracks[a].languageCode))
    // a specific language: the first manual track with that code, else the empty track
    ensures pref != JStr("original") ==>
      (r.TrackAt? <==> pref.JStr? && exists i :: 0 <= i < |tracks| && IsManual(tracks[i]) && tracks[i].languageCode == Some(pref.s))
      && (r.TrackAt? ==>
            tracks[r.i].languageCode == Some(pref.s)
            && forall k :: 0 <= k < r.i ==> !(IsManual(tracks[k]) && tracks[k].languageCode == Some(pref.s)))
  {
    if pref == JStr("original") then
      match FirstIndex(tracks, IsAsr)
      case None => EmptyTrack
      case Some(a) =>
        var lang := tracks[a].languageCode;
        match FirstIndex(tracks, (t: Track) => IsManual(t) && t.languageCode == lang)
        case None => EmptyTrack
        case Some(i) => TrackAt(i)
    else if !pref.JStr? then EmptyTrack
    else
      match FirstIndex(tracks, (t: Track) => IsManual(t) && t.languageCode == Some(pref.s))
      case None => EmptyTrack
      case Some(i) => TrackAt(i)
  }

  /** With an ASR track and a manual track in another language only, `original` turns
      subtitles off rather than picking the other language. */
  lemma OriginalNeedsSameLanguage()
    ensures ChooseTrack(JStr("original"), [Track(Some("en"), Some("asr"), true), Track(Some("fr"), None, true)]) == EmptyTrack
    ensures ChooseTrack(JStr("original"), [Track(Some("fr"), None, true), Track(Some("en"), Some("asr"), true), Track(Some("en"), None, true)]) == TrackAt(2)
  {
    var ts := [Track(Some("en"), Some("asr"), true), Track(Some("fr"), None, true)];
    assert FirstIndex(ts, IsAsr) == Some(0);
    var us := [Track(Some("fr"), None, true), Track(Some("en"), Some("asr"), true), Track(Some("en"), None, true)];
    assert FirstIndex(us, IsAsr) == Some(1);
  }

  /** One attempt: its return value, what it passed to `setOption`, and whether the
      caption lookup threw (which starts a retry). */
  datatype Attempt = Attempt(returned: bool, chosen: Option<Selection>, threw: bool)

  /** `setPreferredSubtitles()` once the preference is read. `hasPlayer` tells whether the
      player element exists; `captions` is the caption-track lookup, which throws when
      `getPlayerResponse` fails and yields `None` when the list is missing. */
  function SetPreferredSubtitles(hasPlayer: bool, pref: Json, captions: Completion<Option<seq<Track>>>): (r: Attempt)
    ensures !hasPlayer ==> r == Attempt(false, None, false)
    // `disabled` turns subtitles off whatever the tracks are
    ensures hasPlayer && pref == JStr("disabled") ==> r == Attempt(true, Some(EmptyTrack), false)
    // a missing track list sets nothing
    ensures hasPlayer && pref != JStr("disabled") && captions == Normal(None) ==> r == Attempt(false, None, false)
    ensures hasPlayer && pref != JStr("disabled") && captions.Throw? ==> r == Attempt(false, None, true)
    // the chosen track is set, or the empty track when none matches; a chosen track
    // without a `name` throws in the log line before `setOption`, and is retried
    ensures hasPlayer && pref != JStr("disabled") && captions.Normal? && captions.value.Some? ==>
      var choice := ChooseTrack(pref, captions.value.value);
      && (choice.TrackAt? && !captions.value.value[choice.i].named ==> r == Attempt(false, None, true))
      && (choice.EmptyTrack? || captions.value.value[choice.i].named ==> r == Attempt(true, Some(choice), false))
    // a caught throw sets nothing
    ensures r.threw ==> !r.returned && r.chosen.None?
  {
    if !hasPlayer then Attempt(false, None, false)
    else if pref == JStr("disabled") then Attempt(true, Some(EmptyTrack), false)
    else match captions
      case Throw => Attempt(false, None, true)
      case Normal(None) => Attempt(false, None, false)
      case Normal(Some(ts)) =>
        match ChooseTrack(pref, ts)
        case EmptyTrack => Attempt(true, Some(EmptyTrack), false)
        case TrackAt(i) => if ts[i].named then Attempt(true, Some(TrackAt(i)), false) else Attempt(false, None, true)
  }

  /** The current script's preference: `YCS_SETTINGS.subtitlesPreference?.value`, or
      `original` when missing or falsy; the blob is parsed outside the `try`. */
  function CurrentPreference(blob: BlobState): (r: Completion<Json>)
    ensures r.Throw? <==> blob.Unparsable? || blob == Stored(JNull)
    ensures r.Normal? && !TruthyOpt(GetOpt(Get(ReadBlob(blob).value, "subtitlesPreference"), "value")) ==> r.value == JStr("original")
    ensures r.Normal? && TruthyOpt(GetOpt(Get(ReadBlob(blob).value, "subtitlesPreference"), "value")) ==>
      r.value == GetOpt(Get(ReadBlob(blob).value, "subtitlesPreference"), "value").value
  {
    match ReadBlob(blob)
    case Throw => Throw
    case Normal(v) =>
      match ReadProp(v, "subtitlesPreference")
      case Throw => Throw
      case Normal(sub) =>
        var value := GetOpt(sub, "value");
        Normal(if TruthyOpt(value) then value.value else JStr("original"))
  }

  /** The older script's preference: the flat `subtitlesLanguage` entry, or `original`
      when missing or empty. */
  function OlderPreference(flat: Flat): (r: Json)
    ensures r.JStr? && r.s != ""
    ensures "subtitlesLanguage" !in flat ==> r == JStr("original")
    ensures "subtitlesLanguage" in flat && flat["subtitlesLanguage"] != "" ==> r == JStr(flat["subtitlesLanguage"])
  {
    JStr(ItemOr(flat, "subtitlesLanguage", "original"))
  }

  /** An attempt followed by the retry bookkeeping of its `catch`. */
  datatype Retried = Retried(attempt: Attempt, count: nat, retryIn: Option<nat>)

  function AttemptWithRetry(count: nat, hasPlayer: bool, pref: Json, captions: Completion<Option<seq<Track>>>): (r: Retried)
    ensures r.attempt == SetPreferredSubtitles(hasPlayer, pref, captions)
    ensures !r.attempt.threw ==> r.count == count && r.retryIn.None?
    ensures r.attempt.threw ==> (r.count, r.retryIn) == (Retry.OnFailure(count).count, Retry.OnFailure(count).delay)
    ensures r.attempt.threw ==> !r.attempt.returned
  {
    var a := SetPreferredSubtitles(hasPlayer, pref, captions);
    if a.threw then Retried(a, Retry.OnFailure(count).count, Retry.OnFailure(count).delay)
    else Retried(a, count, None)
  }

  // -------------------------------------------------------------------------
  // Player polling and the once-only orchestration of the current script
  // -------------------------------------------------------------------------

  const MaxPlayerPollRetries: nat := 25
  const PlayerPollMs: nat := 200

  /** `playerPollRetryCount`, whether a poll is due (the initial call or a scheduled
      200 ms retry), whether readiness callbacks are waiting, the once-only flag, and
      how many times `setPreferredSubtitles` was started by the orchestration. */
  datatype Orchestration = Orchestration(pollCount: nat, pollDue: bool, waiting: bool, initiated: bool, applies: nat)

  const Injected: Orchestration := Orchestration(0, true, false, false, 0)

  datatype OrchestrationEvent =
    | Poll(playerReady: bool)  // orchestratePlayerReadiness() runs; is the player and its API there?
    | ReadyAndActive           // a readiness callback (API change, state change or a fallback timer) fires

  predicate OrchInv(s: Orchestration) {
    && s.applies == (if s.initiated then 1 else 0)
    && (s.pollDue ==> s.pollCount <= MaxPlayerPollRetries)
  }

  function OrchNext(s: Orchestration, ev: OrchestrationEvent): (r: Orchestration)
    ensures OrchInv(s) ==> OrchInv(r)
    // settings are started at most once: once initiated, nothing more is started
    ensures s.initiated ==> r.initiated && r.applies == s.applies
    ensures r.applies <= s.applies + 1
    // a failed poll schedules another only within the cap
    ensures ev == Poll(false) && s.pollDue ==> r.pollCount == s.pollCount + 1 && (r.pollDue <==> r.pollCount <= MaxPlayerPollRetries)
    // without a due poll, polling never restarts by itself
    ensures !s.pollDue ==> !r.pollDue
  {
    match ev
    case Poll(ready) =>
      if !s.pollDue then s
      else if !ready then
        var c := s.pollCount + 1;
        s.(pollCount := c, pollDue := c <= MaxPlayerPollRetries)
      else if s.initiated then s.(pollCount := 0, pollDue := false)
      else s.(pollCount := 0, pollDue := false, waiting := true)
    case ReadyAndActive =>
      if s.waiting && !s.initiated then s.(initiated := true, applies := s.applies + 1) else s
  }

  function OrchRun(s: Orchestration, evs: seq<OrchestrationEvent>): Orchestration
    decreases |evs|
  {
    if evs == [] then s else OrchRun(OrchNext(s, evs[0]), evs[1..])
  }

  /** Whatever the callbacks and polls do, the settings are started at most once per
      script instance. */
  lemma {:induction false} AppliedAtMostOnce(s: Orchestration, evs: seq<OrchestrationEvent>)
    requires OrchInv(s)
    ensures OrchInv(OrchRun(s, evs)) && OrchRun(s, evs).applies <= 1
    decreases |evs|
  {
    if evs != [] {
      AppliedAtMostOnce(OrchNext(s, evs[0]), evs[1..]);
    }
  }

  /** A player that never shows up is polled 26 times (the initial call and 25 retries)
      and then polling stops for good. */
  lemma {:induction false} PollingGivesUp(s: Orchestration, k: nat)
    requires OrchInv(s) && s.pollDue && s.pollCount + k > MaxPlayerPollRetries
    ensures !OrchRun(s, seq(k, _ => Poll(false))).pollDue
    ensures OrchRun(s, seq(k, _ => Poll(false))).pollCount == MaxPlayerPollRetries + 1
    decreases k
  {
    var evs := seq(k, _ => Poll(false));
    if k > 0 {
      var n := OrchNext(s, Poll(false));
      assert evs[1..] == seq(k - 1, _ => Poll(false));
      if n.pollDue {
        PollingGivesUp(n, k - 1);
      } else {
        StaysStopped(n, evs[1..]);
      }
    }
  }

  /** Once no poll is due, none ever is again, and the counter no longer moves. */
  lemma {:induction false} StaysStopped(s: Orchestration, evs: seq<OrchestrationEvent>)
    requires !s.pollDue
    ensures !OrchRun(s, evs).pollDue && OrchRun(s, evs).pollCount == s.pollCount
    decreases |evs|
  {
    if evs != [] {
      StaysStopped(OrchNext(s, evs[0]), evs[1..]);
    }
  }
}

=== FILE: text.dfy ===
/** String operations the extension uses: `startsWith`, `includes`,
    `split(c)[0]` and `parseInt(s, 10)`. */
module Text {
  import opened Wrappers

  /** `s.startsWith(p)`. */
  predicate StartsWith(s: string, p: string) {
    |p| <= |s| && s[..|p|] == p
  }

  /** `s.includes(sub)`: `sub` occurs at some offset of `s`. */
  predicate Contains(s: string, sub: string) {
    exists i | 0 <= i <= |s| - |sub| :: OccursAt(s, sub, i)
  }

  /** `sub` occurs in `s` starting at offset `i`. */
  predicate OccursAt(s: string, sub: string, i: int) {
    0 <= i <= |s| - |sub| && s[i..i + |sub|] == sub
  }

  /** Every character of a contained string is a character of the containing one. */
  lemma ContainsKeepsChars(s: string, sub: string, c: char)
    requires Contains(s, sub) && c in sub
    ensures c in s
  {
    var i :| 0 <= i <= |s| - |sub| && OccursAt(s, sub, i);
    var j :| 0 <= j < |sub| && sub[j] == c;
    assert s[i + j] == s[i..i + |sub|][j];
  }

  /** `s.split(c)[0]`: the text before the first occurrence of `c`, or all of `s`. */
  function PrefixBefore(s: string, c: char): (r: string)
    ensures |r| <= |s| && r == s[..|r|]
    ensures c !in r
    ensures |r| < |s| ==> s[|r|] == c
  {
    if s == [] then []
    else if s[0] == c then []
    else [s[0]] + PrefixBefore(s[1..], c)
  }

  // ---------------------------------------------------------------------
  // parseInt(s, 10)
  // ---------------------------------------------------------------------

  /** The white space and line terminators that `parseInt` skips
      (WhiteSpace and LineTerminator of ECMAScript, section 7.2 and 7.3). */
  predicate IsJsSpace(c: char) {
    c == ' ' || c == '\t' || c == '\n' || c == '\r' || c == '\U{000B}' || c == '\U{000C}'
    || c == '\U{00A0}' || c == '\U{FEFF}' || c == '\U{1680}' || ('\U{2000}' <= c <= '\U{200A}')
    || c == '\U{2028}' || c == '\U{2029}' || c == '\U{202F}' || c == '\U{205F}' || c == '\U{3000}'
  }

  predicate IsDigit(c: char) {
    '0' <= c <= '9'
  }

  function DigitValue(c: char): (d: nat)
    requires IsDigit(c)
    ensures d < 10
  {
    (c as int - '0' as int) as nat
  }

  function DigitChar(d: nat): (c: char)
    requires d < 10
    ensures IsDigit(c) && DigitValue(c) == d
  {
    (d + '0' as int) as char
  }

  /** Length of the longest prefix of `s` made of decimal digits. */
  function DigitRun(s: string): (n: nat)
    ensures n <= |s|
    ensures forall i :: 0 <= i < n ==> IsDigit(s[i])
    ensures n < |s| ==> !IsDigit(s[n])
  {
    if s == [] || !IsDigit(s[0]) then 0 else 1 + DigitRun(s[1..])
  }

  /** Decimal value of a string of digits, most significant first. */
  function DigitsValue(ds: string): nat
    requires forall i :: 0 <= i < |ds| ==> IsDigit(ds[i])
  {
    if ds == [] then 0
    else DigitsValue(ds[..|ds| - 1]) * 10 + DigitValue(ds[|ds| - 1])
  }

  /** Number of leading characters `parseInt` skips as white space. */
  function SpaceRun(s: string): (n: nat)
    ensures n <= |s|
    ensures forall i :: 0 <= i < n ==> IsJsSpace(s[i])
    ensures n < |s| ==> !IsJsSpace(s[n])
  {
    if s == [] || !IsJsSpace(s[0]) then 0 else 1 + SpaceRun(s[1..])
  }

  /** `parseInt(s, 10)`: skip white space, read an optional sign and the longest
      run of digits; `None` is NaN (no digit after the sign). Trailing text is ignored. */
  function ParseInt(s: string): (r: Option<int>)
  {
    var t := s[SpaceRun(s)..];
    var negative := |t| > 0 && t[0] == '-';
    var u := if |t| > 0 && (t[0] == '-' || t[0] == '+') then t[1..] else t;
    var n := DigitRun(u);
    if n == 0 then None
    else if negative then Some(-(DigitsValue(u[..n]) as int))
    else Some(DigitsValue(u[..n]) as int)
  }

  /** Decimal text of a natural number, no leading zeros. */
  function ShowNat(n: nat): (s: string)
    ensures |s| > 0
    ensures forall i :: 0 <= i < |s| ==> IsDigit(s[i])
  {
    if n < 10 then [DigitChar(n)] else ShowNat(n / 10) + [DigitChar(n % 10)]
  }

  /** Decimal text of an integer as `String(n)` writes it. */
  function ShowInt(n: int): string {
    if n < 0 then "-" + ShowNat(-n) else ShowNat(n)
  }

  lemma {:induction false} DigitsValueShowNat(n: nat)
    ensures DigitsValue(ShowNat(n)) == n
  {
    if n >= 10 {
      var s := ShowNat(n);
      assert s[..|s| - 1] == ShowNat(n / 10);
      DigitsValueShowNat(n / 10);
    }
  }

  lemma DigitRunAll(s: string)
    requires forall i :: 0 <= i < |s| ==> IsDigit(s[i])
    ensures DigitRun(s) == |s|
  {
  }

  lemma NotJsSpace(c: char)
    requires IsDigit(c) || c == '-'
    ensures !IsJsSpace(c)
  {
  }

  /** The digits of a natural number, read without a sign. */
  lemma ParseIntShowNat(n: nat)
    ensures ParseInt(ShowNat(n)) == Some(n)
  {
    var s := ShowNat(n);
    NotJsSpace(s[0]);
    assert SpaceRun(s) == 0;
    assert s[0..] == s;
    DigitRunAll(s);
    assert s[..|s|] == s;
    DigitsValueShowNat(n);
  }

  /** `parseInt` reads back the decimal text of every integer. */
  lemma ParseIntShowInt(n: int)
    ensures ParseInt(ShowInt(n)) == Some(n)
  {
    if n < 0 {
      var s := ShowInt(n);
      var d := ShowNat(-n);
      NotJsSpace('-');
      assert SpaceRun(s) == 0;
      assert s[0..] == s;
      assert s[1..] == d;
      DigitRunAll(d);
      assert d[..|d|] == d;
      DigitsValueShowNat(-n);
    } else {
      ParseIntShowNat(n);
    }
  }
}

=== FILE: video_listener.dfy ===
/** The video-player listener: a capture listener on the document for media events that
    re-applies the player settings when a video's source changes, a click listener that
    opens a two-second "user changed it" window after a click in the player's settings
    menu, and a one-time narrowing of the media events listened to. */
module VideoListener {
  import opened Wrappers

  /** The media events listened to until the first accepted event. */
  const AllVideoEvents: seq<string> :=
    ["loadstart", "loadedmetadata", "canplay", "playing", "play", "timeupdate", "seeked"]

  /** The only media event listened to after the first accepted event. */
  const NarrowedEvents: seq<string> := ["loadstart"]

  /** The length of the user-change window. */
  const UserChangeWindowMs: nat := 2000

  /** The module state. Timer ids are handed out by the browser, counting from 1, so
      every id is truthy. */
  datatype State = State(
    userChange: bool,          // userInitiatedChange
    changeTimer: Option<nat>,  // userChangeTimeout
    pending: set<nat>,         // reset timers scheduled and neither cleared nor fired
    nextTimer: nat,            // the id the next `setTimeout` returns
    hasListener: bool,         // videoPlayerListener is set
    listening: set<string>,    // the media event types it is attached to
    initialTriggered: bool,    // hasInitialPlayerLoadTriggered
    videoEvents: seq<string>,  // the event list the next setup attaches to
    clickHandlers: nat)        // click listeners registered on the document

  const Initial: State := State(false, None, {}, 1, false, {}, false, AllVideoEvents, 0)

  function Events(s: seq<string>): set<string> {
    set e | e in s
  }

  /** The flag is set exactly while its one reset timer is pending, the listener is
      attached to exactly the current event list, and that list is the full one until
      the first accepted event and `loadstart` alone after it. */
  predicate Inv(s: State) {
    && (s.userChange <==> s.changeTimer.Some?)
    && s.pending == (if s.changeTimer.Some? then {s.changeTimer.value} else {})
    && (forall t :: t in s.pending ==> 0 < t < s.nextTimer)
    && s.nextTimer > 0
    && s.listening == (if s.hasListener then Events(s.videoEvents) else {})
    && s.videoEvents == (if s.initialTriggered then NarrowedEvents else AllVideoEvents)
    && (s.hasListener ==> s.clickHandlers > 0)
  }

  lemma InitialInv()
    ensures Inv(Initial)
  {
  }

  /** `cleanUpVideoPlayerListener()`: detach the media listener from all seven event
      types, clear any reset timer and drop the flag. The click listeners stay. */
  function Cleanup(s: State): (r: State)
    ensures !r.hasListener && r.listening == {} && !r.userChange && r.changeTimer.None?
    ensures Inv(s) ==> Inv(r) && r.pending == {}
    ensures r.clickHandlers == s.clickHandlers && r.videoEvents == s.videoEvents
    ensures r.initialTriggered == s.initialTriggered && r.nextTimer == s.nextTimer
  {
    var pending := if s.changeTimer.Some? then s.pending - {s.changeTimer.value} else s.pending;
    s.(hasListener := false, listening := {}, changeTimer := None, pending := pending, userChange := false)
  }

  /** `setupVideoPlayerListener()`: clean up, register one more click listener (the old
      ones are never removed) and attach a fresh media listener to the current list. */
  function Setup(s: State): (r: State)
    ensures r.hasListener && r.listening == Events(s.videoEvents)
    ensures r.clickHandlers == s.clickHandlers + 1
    ensures !r.userChange
    ensures Inv(s) ==> Inv(r) && r.pending == {}
  {
    Cleanup(s).(clickHandlers := s.clickHandlers + 1, hasListener := true, listening := Events(s.videoEvents))
  }

  /** One click listener's reaction to a click inside the settings menu: set the flag,
      clear the pending reset timer and schedule a new one. */
  function MenuClick(s: State): (r: State)
    ensures r.userChange && r.changeTimer == Some(s.nextTimer) && r.nextTimer == s.nextTimer + 1
    ensures Inv(s) ==> Inv(r) && r.pending == {s.nextTimer}
    ensures r.hasListener == s.hasListener && r.listening == s.listening && r.clickHandlers == s.clickHandlers
    ensures r.videoEvents == s.videoEvents && r.initialTriggered == s.initialTriggered
  {
    var pending := if s.changeTimer.Some? then s.pending - {s.changeTimer.value} else s.pending;
    s.(userChange := true, pending := pending + {s.nextTimer}, changeTimer := Some(s.nextTimer),
       nextTimer := s.nextTimer + 1)
  }

  /** Every registered click listener reacts to the same click, in turn; each clears the
      timer the previous one set, so exactly one reset timer is left pending. */
  function MenuClicks(s: State, k: nat): (r: State)
    ensures k == 0 ==> r == s
    ensures k > 0 ==> r.userChange && r.changeTimer == Some(r.nextTimer - 1) && r.nextTimer == s.nextTimer + k
    ensures Inv(s) ==> Inv(r)
    ensures Inv(s) && k > 0 ==> r.pending == {r.nextTimer - 1} && r.nextTimer - 1 !in s.pending
    ensures r.hasListener == s.hasListener && r.listening == s.listening && r.clickHandlers == s.clickHandlers
    ensures r.videoEvents == s.videoEvents && r.initialTriggered == s.initialTriggered
    decreases k
  {
    if k == 0 then s else MenuClicks(MenuClick(s), k - 1)
  }

  /** The events the listener machine sees. */
  datatype Event =
    | SetupCalled                                   // setupVideoPlayerListener() from outside
    | CleanupCalled                                 // cleanUpVideoPlayerListener() from outside
    | Click(inSettingsMenu: bool)                   // a click anywhere on the document
    | ResetTimerFired(id: nat)                      // a 2000 ms reset timer elapsing
    | Media(eventType: string, isVideo: bool, srcValue: Option<string>, src: string)

  /** The new state and whether `applyVideoPlayerSettings()` was called. */
  datatype Reaction = Reaction(state: State, applied: bool)

  /** A media event passes the listener's filters: it reaches the listener, its target
      is a video whose `srcValue` differs from `src`, and no user change is under way. */
  predicate Accepts(s: State, eventType: string, isVideo: bool, srcValue: Option<string>, src: string) {
    s.hasListener && eventType in s.listening && isVideo && srcValue != Some(src) && !s.userChange
  }

  /** The video listener's body for an accepted event: the first one narrows the event
      list to `loadstart` and re-attaches; every one re-applies the settings. */
  function Accepted(s: State): (r: State)
    ensures r.initialTriggered
    ensures Inv(s) ==> r.videoEvents == NarrowedEvents
    ensures Inv(s) && !s.initialTriggered ==> r.listening == {"loadstart"}
    ensures s.initialTriggered ==> r == s
    ensures Inv(s) ==> Inv(r)
  {
    if !s.initialTriggered then
      Setup(Cleanup(s).(initialTriggered := true, videoEvents := NarrowedEvents))
    else s
  }

  function Next(s: State, ev: Event): (r: Reaction)
    // only an accepted media event applies the settings, and then exactly once
    ensures r.applied <==> ev.Media? && Accepts(s, ev.eventType, ev.isVideo, ev.srcValue, ev.src)
    // a media event that is not accepted changes nothing
    ensures ev.Media? && !r.applied ==> r.state == s
    // a reset timer that was cleared or already fired never runs
    ensures ev.ResetTimerFired? && ev.id !in s.pending ==> r.state == s
    ensures Inv(s) ==> Inv(r.state)
    // once narrowed, the event list stays narrowed
    ensures s.initialTriggered ==> r.state.initialTriggered
    // click listeners only accumulate
    ensures r.state.clickHandlers >= s.clickHandlers
  {
    match ev
    case SetupCalled => Reaction(Setup(s), false)
    case CleanupCalled => Reaction(Cleanup(s), false)
    case Click(inMenu) => Reaction(if inMenu then MenuClicks(s, s.clickHandlers) else s, false)
    case ResetTimerFired(id) =>
      if id in s.pending then Reaction(s.(pending := s.pending - {id}, userChange := false, changeTimer := None), false)
      else Reaction(s, false)
    case Media(t, isVideo, srcValue, src) =>
      if Accepts(s, t, isVideo, srcValue, src) then Reaction(Accepted(s), true) else Reaction(s, false)
  }

  /** A click in the settings menu, once the listener is set up, opens the window: the
      flag is set and exactly one fresh reset timer is pending. */
  lemma MenuClickOpensWindow(s: State)
    requires Inv(s) && s.hasListener
    ensures var r := Next(s, Click(true)).state;
      r.userChange && r.changeTimer.Some? && r.pending == {r.changeTimer.value} && r.changeTimer.value !in s.pending
  {
  }

  /** The state after a sequence of events, and how many times the settings were applied. */
  datatype Trace = Trace(state: State, applies: nat)

  function Run(s: State, evs: seq<Event>): Trace
    decreases |evs|
  {
    if evs == [] then Trace(s, 0)
    else
      var r := Next(s, evs[0]);
      var rest := Run(r.state, evs[1..]);
      Trace(rest.state, rest.applies + if r.applied then 1 else 0)
  }

  /** The invariant holds after any sequence of events, and the first accepted event
      narrows the event list for good. */
  lemma {:induction false} RunPreservesInv(s: State, evs: seq<Event>)
    requires Inv(s)
    ensures Inv(Run(s, evs).state)
    ensures s.initialTriggered ==> Run(s, evs).state.videoEvents == NarrowedEvents
    ensures s.initialTriggered ==> Run(s, evs).state.listening <= {"loadstart"}
    decreases |evs|
  {
    if evs != [] {
      RunPreservesInv(Next(s, evs[0]).state, evs[1..]);
    }
  }

  /** Inside the window, media events and further clicks never apply the settings:
      only the reset timer firing or a cleanup closes it. */
  predicate KeepsWindowOpen(ev: Event) {
    ev.Media? || ev.Click?
  }

  lemma {:induction false} NoApplyInsideWindow(s: State, evs: seq<Event>)
    requires Inv(s) && s.userChange
    requires forall i :: 0 <= i < |evs| ==> KeepsWindowOpen(evs[i])
    ensures Run(s, evs).applies == 0
    ensures Run(s, evs).state.userChange
    decreases |evs|
  {
    if evs != [] {
      var r := Next(s, evs[0]);
      assert r.state.userChange;
      NoApplyInsideWindow(r.state, evs[1..]);
    }
  }

  /** The number of outside setup calls in a sequence of events. */
  function SetupCalls(evs: seq<Event>): nat {
    if evs == [] then 0 else (if evs[0] == SetupCalled then 1 else 0) + SetupCalls(evs[1..])
  }

  /** Every setup registers a click listener that is never removed: along any run the
      count grows by at least one per outside setup call. */
  lemma {:induction false} ClickHandlersAccumulate(s: State, evs: seq<Event>)
    ensures Run(s, evs).state.clickHandlers >= s.clickHandlers + SetupCalls(evs)
    decreases |evs|
  {
    if evs != [] {
      ClickHandlersAccumulate(Next(s, evs[0]).state, evs[1..]);
    }
  }
}

=== FILE: volume_script.dfy ===
/** The volume page script: `setDefaultVolume`, run on injection and on every
    `loadeddata` event, which reads flat `localStorage` keys. */
module VolumeScript {
  import opened Wrappers
  import opened LocalItems

  const VolumeEnabledKey: string := "yds-volume-enabled"
  const VolumeValueKey: string := "yds-volume-value"

  /** `Math.max(0, Math.min(100, v))`; `NaN` stays `NaN`. */
  function Clamp(v: Num): (r: Num)
    ensures v.None? <==> r.None?
    ensures r.Some? ==> 0.0 <= r.value <= 100.0
    ensures v.Some? && 0.0 <= v.value <= 100.0 ==> r == v
    ensures v.Some? && v.value > 100.0 ==> r == Some(100.0)
    ensures v.Some? && v.value < 0.0 ==> r == Some(0.0)
  {
    if v.None? then None
    else if v.value > 100.0 then Some(100.0)
    else if v.value < 0.0 then Some(0.0)
    else v
  }

  /** `a !== b` on numbers: `NaN` differs from everything, itself included. */
  predicate StrictNe(a: Num, b: Num) {
    a.None? || b.None? || a.value != b.value
  }

  /** The player when it has both `setVolume` and `getVolume`, with its current volume. */
  datatype VolumePlayer = VolumePlayer(current: Num)

  /** The target volume: `parseFloat(item || '100')`, clamped. */
  function TargetVolume(flat: Flat, parseFloat: string -> Num): (r: Num)
    ensures VolumeValueKey !in flat ==> r == Clamp(parseFloat("100"))
  {
    Clamp(parseFloat(ItemOr(flat, VolumeValueKey, "100")))
  }

  /** `setDefaultVolume()`: the value passed to `setVolume`, if it was called. */
  function SetDefaultVolume(flat: Flat, parseFloat: string -> Num, player: Option<VolumePlayer>): (r: Option<Num>)
    // disabled, or no usable player: nothing happens
    ensures !IsTrueItem(flat, VolumeEnabledKey) || player.None? ==> r.None?
    // the volume set is the clamped target, so it lies within 0..100 or is NaN
    ensures r.Some? ==> r.value == TargetVolume(flat, parseFloat)
    ensures r.Some? && r.value.Some? ==> 0.0 <= r.value.value <= 100.0
    // it is set only when the player's current volume differs
    ensures IsTrueItem(flat, VolumeEnabledKey) && player.Some? ==>
      (r.Some? <==> StrictNe(player.value.current, TargetVolume(flat, parseFloat)))
  {
    if !IsTrueItem(flat, VolumeEnabledKey) || player.None? then None
    else
      var target := TargetVolume(flat, parseFloat);
      if StrictNe(player.value.current, target) then Some(target) else None
  }

  /** Once the player holds the volume the script set, every later run (on each
      `loadeddata`) sets nothing, as long as the target is a number. */
  lemma VolumeSettles(flat: Flat, parseFloat: string -> Num, player: VolumePlayer)
    requires SetDefaultVolume(flat, parseFloat, Some(player)).Some?
    requires TargetVolume(flat, parseFloat).Some?
    ensures SetDefaultVolume(flat, parseFloat, Some(VolumePlayer(SetDefaultVolume(flat, parseFloat, Some(player)).value))).None?
  {
  }

  /** A stored value that does not parse yields `NaN`, which differs even from itself:
      `setVolume(NaN)` is called on every run and the script never settles. */
  lemma NaNNeverSettles(flat: Flat, parseFloat: string -> Num, current: Num)
    requires IsTrueItem(flat, VolumeEnabledKey)
    requires parseFloat(ItemOr(flat, VolumeValueKey, "100")).None?
    ensures SetDefaultVolume(flat, parseFloat, Some(VolumePlayer(current))) == Some(None)
  {
  }
}

=== FILE: wrappers.dfy ===
/** Small failure-carrying datatypes shared by every module of the model. */
module Wrappers {

  /** A value or its absence; used for JavaScript `undefined` and `null` results. */
  datatype Option<+T> = None | Some(value: T) {
    function GetOr(default: T): T {
      match this
      case Some(v) => v
      case None => default
    }
  }

  /** The completion of a JavaScript evaluation: it either returns normally
      or throws (the model never needs the thrown value, only the fact). */
  datatype Completion<+T> = Normal(value: T) | Throw
}
